=== FILE: README.md ===
# Verified model of four data-structure labs

This project models, in Dafny, the algorithmic core of four C++ lab programs and proves what they promise:

- **`cust::RBTree<T>`**: a red-black tree set. The model covers `find`, `add` with its rebalancing loop, and `remove` with its black-height repair. It also covers structural equality and the preorder text encoding with its decoder.
  - The tree is an immutable `Tree = Leaf | Node(color, left, value, right)` over `int`.
  - A zipper (a focused subtree plus the path of frames back to the root) replaces the nodes' `weak_ptr` parent links. The upward walks of `balanceFrom` and `fixBlackHeight` are functions on zippers.
- **`da_lab1::CountingSorter`** and the `var` record (a 16-bit id and a 64-character value line). The model covers the four passes of the counting sort, the comparisons, the text form and the padding line reader.
- **`Array<T>`**: a growable array with capacity, size and a growth multiplier. It is modelled as a value with a validity invariant.
- **The occurrence locator of the pattern-search program**. `summarize` builds word-count prefix sums in `uint32_t`. `getLineAndWordFromOccurence` turns a match position into a 1-based (line, word) pair. The test script's `lineifyTest` serves as an independent reference.

Modules:

| file | module | what |
|---|---|---|
| common.dfy | Common | `Option`, `Result`, the sum of a sequence of counts |
| decimal.dfy | Decimal | decimal text of integers and the `>>` reader for them |
| rb_tree.dfy | RBTrees | trees, zippers, the red-black invariants and their behaviour under plugging a subtree into a context |
| rb_navigate.dfy | Navigation | `findInSubtree`, `find` |
| rb_rotate.dfy | Rotation | `leftRotate`, `rightRotate` |
| rb_insert.dfy | Insertion | `AdditionMethodImplementation` |
| rb_remove.dfy | Removal | `RemovalMethodImplementation` |
| rb_codec.dfy | Codec | `saveInStream`, `readSubtreeFromStream`, `Node::print`/`read`, `subtreesEqual` |
| rb_mirror.dfy | Mirroring | the left/right symmetry of the rotations, the insertion loop and the removal repair |
| rb_facade.dfy | TreeObject | the tree object with its `uint64_t` counter: `add`, `remove`, `empty`, `size`, `operator==`, `readFromStream` |
| var_record.dfy | Vars | `var`, its operators, `toString`, `operator>>`, `readStringStringSize` |
| counting_sort.dfy | CountingSort | `CountingSorter` and its reference stable sort |
| growable_array.dfy | GrowableArray | `Array<T>` |
| line_locator.dfy | LineLocator | `summarize`, `getLineAndWordFromOccurence`, `lineifyTest` |

Each member whose result type is an error outcome uses `Result`. The source's exceptions become `Err` values with the same names (`NoSuchElement`, `TreeHasGivenElement`, `TreeEmpty`, and so on). For `Array`, the out-of-bounds `invalid_argument` becomes `OutOfBounds`.

## Model

| member | source | states |
|---|---|---|
| Navigation.Locate | lab2/include/rb_tree.hpp:355-365 | the descent stops on a node holding the value without changing the tree; on a search tree it succeeds exactly when the value is stored |
| Navigation.Find | lab2/include/rb_tree.hpp:242-249 | returns the value when it is stored (iff, on a search tree), otherwise NoSuchElement, also on an empty tree |
| TreeObject.Find | lab2/include/rb_tree.hpp:242-249 | the object's find: Ok exactly when the value is among the keys, the error is NoSuchElement |
| Rotation.RotateLeft | lab2/include/rb_tree.hpp:380-412 | the right child (the pivot) becomes the subtree root with its own colour; the old root keeps its colour, its left subtree, and becomes the pivot's left child; the pivot's former left subtree becomes the old root's right subtree, and the pivot's right subtree stays; in-order sequence and size are kept |
| Rotation.RotateRight | lab2/include/rb_tree.hpp:415-446 | the left child (the pivot) becomes the subtree root with its own colour; the old root keeps its colour, its right subtree, and becomes the pivot's right child; the pivot's former right subtree becomes the old root's left subtree, and the pivot's left subtree stays; in-order sequence and size are kept |
| Rotation.RotationsInverse | lab2/include/rb_tree.hpp:380-446 | a right rotation undoes a left rotation |
| Rotation.RotateLeftAt | lab2/include/rb_tree.hpp:380-412 | the pivot takes the rotated node's place under the same context; the whole tree's in-order sequence is kept; at the root the pivot becomes the new root |
| Rotation.RotateRightAt | lab2/include/rb_tree.hpp:415-446 | the pivot takes the rotated node's place under the same context; the whole tree's in-order sequence is kept; at the root the pivot becomes the new root |
| Insertion.BSTInsertKeys | lab2/include/rb_tree.hpp:662-691 | hanging a new value as a leaf adds exactly that value and one node |
| Insertion.BSTInsertOrder | lab2/include/rb_tree.hpp:676-691 | hanging the leaf on the side chosen by `<` keeps search-tree order |
| Insertion.FindLeafParent | lab2/include/rb_tree.hpp:512-530 | on an empty tree TreeEmpty; on a search tree the error (NoLeafParentElement) occurs exactly when the value is present; otherwise the node reached has an absent child on the value's side, and inserting there is inserting at the root |
| Insertion.AddNodeToLeaf | lab2/include/rb_tree.hpp:662-691 | fails with TreeHasGivenElement exactly when the node holds the value or the child slot is taken; otherwise a new red leaf sits in that slot |
| Insertion.AddToLeafOfSubtree | lab2/include/rb_tree.hpp:533-542 | on a search tree it fails exactly when the value is present; otherwise it yields the plain search-tree insertion with the new red leaf in focus |
| Insertion.RecolorParentUncleGrandfather | lab2/include/rb_tree.hpp:629-642 | the red-uncle case keeps the in-order sequence and moves the focus two levels up, onto a red grandfather |
| Insertion.LeftChildParentCaseBalance | lab2/include/rb_tree.hpp:586-593 | keeps the in-order sequence and leaves a black subtree root two levels up |
| Insertion.RightChildParentCaseBalance | lab2/include/rb_tree.hpp:596-603 | keeps the in-order sequence and leaves a black subtree root two levels up; it is the left case seen in a mirror (Mirroring.CaseBalanceMirror) |
| Insertion.BalanceFrom | lab2/include/rb_tree.hpp:545-556 | the rebalancing loop keeps the in-order sequence |
| Insertion.RecolorKeepsInv | lab2/include/rb_tree.hpp:629-642 | the red-uncle step keeps the loop invariant: the only possible red-red edge is at the focus, black heights agree |
| Insertion.LeftCaseKeepsInv | lab2/include/rb_tree.hpp:586-593 | the rotation steps on the left keep the loop invariant |
| Insertion.RightCaseKeepsInv | lab2/include/rb_tree.hpp:596-603 | the rotation steps on the right keep the loop invariant |
| Insertion.BalanceFromRestores | lab2/include/rb_tree.hpp:545-556 | when the loop stops, the tree has equal black heights and no red-red edge |
| Insertion.Add | lab2/include/rb_tree.hpp:501-509 | on a search tree, fails (TreeHasGivenElement) exactly when the value is present; otherwise the in-order sequence is that of the plain insertion and the root is black |
| Insertion.AddPreservesRBTree | lab2/include/rb_tree.hpp:501-509 | adding a new value to a red-black tree gives a red-black tree with exactly that value more and one more node |
| TreeObject.AddToEmpty | lab2/include/rb_tree.hpp:501-504 | adding to an empty tree gives a single black root and size 1 |
| TreeObject.Add | lab2/include/rb_tree.hpp:252-255 | a present value is refused with TreeHasGivenElement; otherwise the counter steps up by one |
| TreeObject.AddKeepsValid | lab2/include/rb_tree.hpp:501-509 | adding a new value keeps the tree red-black, adds exactly the value, and keeps the counter equal to the node count |
| Removal.RemoveChildless | lab2/include/rb_tree.hpp:750-758 | unlinking a leaf node leaves an empty slot and the in-order sequence without that node |
| Removal.RemoveWithOneChild | lab2/include/rb_tree.hpp:763-778 | the only child takes the node's place; at the root it is black; the sequence loses exactly that node |
| Removal.Leftmost | lab2/include/rb_tree.hpp:792-798 | the leftmost node of a subtree and its path: it has no left child and holds the first in-order value |
| Removal.RemoveWithTwoChildren | lab2/include/rb_tree.hpp:781-789 | the node unlinked is the leftmost node of the right subtree: the hole lies on its path below the target, whose frame now holds that node's value (the in-order successor) with the target's colour and left subtree; the unlinked colour and value are that node's; the sequence loses exactly the target's value |
| Removal.RemoveNode | lab2/include/rb_tree.hpp:729-738 | the node's value disappears from the in-order sequence |
| Removal.FixBlackHeight | lab2/include/rb_tree.hpp:802-813 | the repair keeps the in-order sequence; a red child on the short side is painted black in place and nothing else changes |
| Removal.FixForLeft | lab2/include/rb_tree.hpp:817-840 | the four brother cases keep the in-order sequence |
| Removal.FixForRight | lab2/include/rb_tree.hpp:844-867 | the four brother cases keep the in-order sequence; it is FixForLeft seen in a mirror (Mirroring.FixForLeftMirror) |
| Removal.RunFixFromGrandFather | lab2/include/rb_tree.hpp:870-879 | moving the repair up one level keeps the in-order sequence |
| Removal.FixBlackHeightCorrect | lab2/include/rb_tree.hpp:802-813 | from a subtree one black node short, the repair ends in a balanced tree with no red-red edge once its root is black |
| Removal.LeftRedBrother | lab2/include/rb_tree.hpp:821-825 | a red brother is rotated above the parent and the shortage is still on the left, one level down |
| Removal.LeftBlackNephews | lab2/include/rb_tree.hpp:826-828 | a black brother with black children turns red and the whole parent is then one black node short |
| Removal.LeftFarRed | lab2/include/rb_tree.hpp:829-834 | with a red far nephew the result is the parent rotated left in place (the brother on top with the parent's colour, parent and far nephew black), with no further step up the tree; it is balanced with no red-red edge |
| Removal.LeftNearRed | lab2/include/rb_tree.hpp:835-838 | a red near nephew alone is rotated into a black brother with a red far child |
| Removal.FixForLeftCorrect | lab2/include/rb_tree.hpp:817-840 | the left repair ends in a balanced tree with no red-red edge once its root is black |
| Removal.RightRedBrother | lab2/include/rb_tree.hpp:848-852 | a red brother is rotated above the parent and the shortage is still on the right, one level down |
| Removal.RightBlackNephews | lab2/include/rb_tree.hpp:853-855 | a black brother with black children turns red and the whole parent is then one black node short |
| Removal.RightFarRed | lab2/include/rb_tree.hpp:856-861 | with a red far (left) nephew the result is the parent rotated right in place (the brother on top with the parent's colour, parent and far nephew black), with no further step up the tree; it is balanced with no red-red edge |
| Removal.RightNearRed | lab2/include/rb_tree.hpp:862-865 | a red near (right) nephew alone is rotated into a black brother with a red far child |
| Removal.FixForRightCorrect | lab2/include/rb_tree.hpp:844-867 | the right repair ends in a balanced tree with no red-red edge once its root is black |
| Removal.RunFixCorrect | lab2/include/rb_tree.hpp:870-879 | a whole subtree one black node short is repaired from its parent, and at the root nothing is left to repair |
| Removal.RemoveFound | lab2/include/rb_tree.hpp:709-722 | the tree after unlinking, repair and root painting holds the in-order sequence without the removed value |
| Removal.RemoveFoundCorrect | lab2/include/rb_tree.hpp:709-722 | from a red-black tree, the result is balanced with no red-red edge and a black root |
| Removal.Remove | lab2/include/rb_tree.hpp:706-726 | an empty tree gives TreeEmpty; on a search tree Ok exactly when the value is present, otherwise NoSuchElement; the original value is returned |
| Removal.RemovePreservesRBTree | lab2/include/rb_tree.hpp:706-726 | removing a present value from a red-black tree gives a red-black tree with exactly that value less and one node less |
| Mirroring.RotateMirror | lab2/include/rb_tree.hpp:380-446 | rightRotate of the mirrored tree is the mirror of leftRotate, and left-rotating that mirror gives the mirrored tree back |
| Mirroring.RotateRightMirror | lab2/include/rb_tree.hpp:380-446 | leftRotate of the mirrored tree is the mirror of rightRotate |
| Mirroring.CaseBalanceMirror | lab2/include/rb_tree.hpp:586-603 | rightChildParentCaseBalance on the mirrored zipper is the mirror of leftChildParentCaseBalance |
| Mirroring.RecolorMirror | lab2/include/rb_tree.hpp:629-642 | the red-uncle recolouring commutes with mirroring |
| Mirroring.BalanceFromMirror | lab2/include/rb_tree.hpp:545-556 | the whole insertion balancing loop commutes with mirroring |
| Mirroring.FixBlackHeightMirror | lab2/include/rb_tree.hpp:802-813 | fixBlackHeight on the other side of the mirrored parent is the mirror of fixBlackHeight |
| Mirroring.FixForLeftMirror | lab2/include/rb_tree.hpp:817-867 | fixBlackHeightForRight on the mirrored parent is the mirror of fixBlackHeightForLeft |
| Mirroring.FixForRightMirror | lab2/include/rb_tree.hpp:817-867 | fixBlackHeightForLeft on the mirrored parent is the mirror of fixBlackHeightForRight |
| Mirroring.RunFixMirror | lab2/include/rb_tree.hpp:870-879 | runFixFromGrandFather commutes with mirroring |
| TreeObject.Remove | lab2/include/rb_tree.hpp:258-261 | TreeEmpty on an empty tree, NoSuchElement for a missing value, otherwise the value is returned and the counter steps down |
| TreeObject.RemoveKeepsValid | lab2/include/rb_tree.hpp:706-726 | removing a present value keeps the tree red-black and counted, and takes out exactly that value |
| TreeObject.AddThenRemove | lab2/include/rb_tree.hpp:252-261 | a value added and then removed leaves the same keys and the same size |
| TreeObject.RefusalsLeaveTree | lab2/include/rb_tree.hpp:515-516 | adding a present value or removing an absent one is refused with the right error and changes nothing |
| TreeObject.Inc | lab2/include/rb_tree.hpp:508 | `++` on the `uint64_t` counter, wrapping to 0 |
| TreeObject.Dec | lab2/include/rb_tree.hpp:721 | `--` on the `uint64_t` counter, wrapping below 0 |
| TreeObject.IncDec | lab2/include/rb_tree.hpp:508 | the two counter steps undo each other |
| TreeObject.EmptyAsWritten | lab2/include/rb_tree.hpp:43-44 | the constructor as written leaves the counter as whatever memory held; it is correct only if that was 0 |
| TreeObject.EmptyAsWrittenMiscounts | lab2/include/rb_tree.hpp:43-44 | a fresh tree over memory holding 1 is empty but reports size 1 |
| TreeObject.Empty | lab2/include/rb_tree.hpp:43-44 | the constructor with the counter started at 0: a valid, empty tree of size 0 |
| TreeObject.TreeSize | lab2/include/rb_tree.hpp:269-271 | `size()` is the number of nodes on a counted tree |
| TreeObject.EmptyIffSizeZero | lab2/include/rb_tree.hpp:264-271 | `empty()` holds exactly when `size()` is 0 |
| Codec.SubtreesEqualIsEquality | lab2/include/rb_tree.hpp:368-377 | node-by-node comparison of colour, value and shape is equality of trees |
| TreeObject.Equal | lab2/include/rb_tree.hpp:279-281 | two objects are equal exactly when their trees are; the counters are not compared |
| Codec.ReadColor | lab2/include/rb_tree.hpp:487-492 | after the value, a node read needs a separator, a colour character and a closing character; it yields a present node with that value, coloured black exactly when the colour character is `0` |
| Codec.ReadNodeText | lab2/include/rb_tree.hpp:474-493 | `Node::read` reads back what `Node::print` wrote |
| Codec.DecodeNodeText | lab2/include/rb_tree.hpp:310-329 | once both children read back, a node's text followed by theirs reads back as the node |
| Codec.DecodeEncode | lab2/include/rb_tree.hpp:284-329 | decoding the preorder text of a tree gives the tree and leaves the text after it |
| Codec.DecodeSaved | lab2/include/rb_tree.hpp:284-329 | the saved text of a tree decodes to that tree |
| TreeObject.ReadAsWritten | lab2/include/rb_tree.hpp:300-308 | `readFromStream` as written: the tree is decoded, the counter is whatever memory held |
| TreeObject.ReadAsWrittenMiscounts | lab2/include/rb_tree.hpp:300-308 | a saved one-node tree read back over memory holding 0 has one node but reports size 0 |
| TreeObject.Read | lab2/include/rb_tree.hpp:300-308 | `readFromStream` with the counter set to the number of nodes read |
| TreeObject.ReadSave | lab2/include/rb_tree.hpp:284-308 | reading a saved tree gives back the same object |
| Vars.EqualIsIdentity | lab1/include/lib.hpp:64-70 | `==` compares id and value, and `!=` is its negation |
| Vars.LessEqOnSameId | lab1/include/lib.hpp:84-90 | two records with one id and different values are neither `<` nor `<=` each other |
| Vars.LessEqMeaning | lab1/include/lib.hpp:84-90 | `<=` holds exactly when the id is smaller or the records are equal |
| Vars.PadLine | lab1/include/lib.hpp:92-102 | a line over 64 characters is refused; otherwise the result has exactly 64 characters, the line as prefix and NULs after it |
| Vars.PadIdempotent | lab1/include/lib.hpp:92-102 | padding a padded line changes nothing |
| Vars.GetLine | lab1/include/lib.hpp:94 | `getline` fails only on exhausted input and never returns a newline |
| Vars.ReadId | lab1/include/lib.hpp:104-106 | the id is read as an unsigned 16-bit extraction: it fails without digits (after white space and one optional sign), fails when the magnitude does not fit in 16 bits, and otherwise gives the signed value modulo 2^16 |
| Vars.ReadIdPlus | lab1/include/lib.hpp:105-106 | a leading `+` is accepted and gives the id itself |
| Vars.ReadIdMinus | lab1/include/lib.hpp:105-106 | a leading `-` wraps round 2^16, so `-1` reads as 65535 |
| Vars.ReadIdTooLarge | lab1/include/lib.hpp:105-106 | a magnitude of 2^16 or more is refused with either sign |
| Vars.ReadVar | lab1/include/lib.hpp:104-110 | a successful read yields a 64-character value and consumes input |
| Vars.ReadWritten | lab1/include/lib.hpp:46-48 | reading back `toString` followed by a newline gives the record with its value padded, and the rest of the text |
| Vars.ReadWrittenFull | lab1/include/lib.hpp:104-110 | for a 64-character value, reading back what `toString` wrote gives the same record |
| Decimal.ParseIntToString | lab1/include/lib.hpp:104-107 | reading an integer back from its decimal text gives the integer |
| CountingSort.FindMaxValue | lab1/include/lib.hpp:212-220 | the result is at least every id and is either 0 or one of the ids |
| CountingSort.CountValues | lab1/include/lib.hpp:222-228 | `maxValue + 1` counters, entry k the number of records with id k |
| CountingSort.SumUp | lab1/include/lib.hpp:230-234 | inclusive prefix sums: `p[0] = c[0]`, `p[i] = p[i-1] + c[i]`, each entry the sum of the counts up to it |
| CountingSort.PostRunSlot | lab1/include/lib.hpp:236-247 | given the prefix sums, the guard `countArray[j] != 0` holds at every step and the slot written lies in the output |
| CountingSort.PostRunInv | lab1/include/lib.hpp:236-247 | after each step, every counter is its group's start plus the records still to place, and the slots from each counter to its group's end hold their final records |
| CountingSort.Post | lab1/include/lib.hpp:236-247 | the back-to-front placement yields the records grouped by id, each group in input order |
| CountingSort.Sort | lab1/include/lib.hpp:203-209 | the output is the stable sort: same length, a permutation, sorted by id, each id's records in input order |
| CountingSort.StableSortedCorrect | lab1/include/lib.hpp:203-209 | the reference is sorted by id, keeps every id's records in order and is a permutation of the input |
| CountingSort.StableSortedUnique | lab1/include/lib.hpp:203-209 | any sequence sorted by id that keeps every id's records in order is the reference, as `std::stable_sort` would give |
| GrowableArray.Empty | lab1/include/array.hpp:72-74 | the default array: capacity 0, size 0, multiplier 2 |
| GrowableArray.Sized | lab1/include/array.hpp:76-78 | `Array(n)`: capacity and size n |
| GrowableArray.Filled | lab1/include/array.hpp:80-86 | `Array(n, t)`: capacity and size n, every element `t` |
| GrowableArray.FromList | lab1/include/array.hpp:88-95 | the initializer-list constructor holds exactly the list, with the default multiplier 2 |
| GrowableArray.CopyAsWritten | lab1/include/array.hpp:97-106 | the copy as written records the other's capacity but allocates only its size; valid only when the other is full |
| GrowableArray.CopyAsWrittenOverruns | lab1/include/array.hpp:97-106 | copying an array of capacity 2 and size 1 gives a capacity beyond the storage |
| GrowableArray.Copy | lab1/include/array.hpp:97-106 | the copy with storage of the full capacity: same capacity, multiplier and elements |
| GrowableArray.Get | lab1/include/array.hpp:204-216 | an error exactly when the index is at least the size, otherwise the element |
| GrowableArray.Set | lab1/include/array.hpp:204-211 | writing through `operator[]`: an error exactly when the index is at least the size, otherwise only that element changes; capacity and multiplier are kept |
| GrowableArray.SetThenGet | lab1/include/array.hpp:204-216 | a written element reads back, and other elements are unchanged |
| GrowableArray.SetMultiplier | lab1/include/array.hpp:223-229 | a multiplier below 2 is refused; otherwise only the multiplier changes |
| GrowableArray.Moved | lab1/include/array.hpp:108-129 | the move constructor fails exactly when the other's multiplier is below 2; otherwise the new array equals the other, and the other is left with no storage, capacity and size 0, and its multiplier |
| GrowableArray.MovedElements | lab1/include/array.hpp:108-129 | after a move the new array has the other's elements and answers every index as it did; the moved-from array is empty and refuses every index |
| GrowableArray.CopyContent | lab1/include/array.hpp:143-153 | fails exactly when the capacity is below the other's size; otherwise the elements are the other's and the storage beyond them is untouched |
| GrowableArray.CopyContentSelf | lab1/include/array.hpp:143-153 | copying an array's content into itself changes nothing |
| GrowableArray.Reserve | lab1/include/array.hpp:165-174 | a larger capacity is installed with size and elements kept; otherwise nothing changes |
| GrowableArray.ReserveIdempotent | lab1/include/array.hpp:165-174 | reserving twice is reserving once |
| GrowableArray.Resize | lab1/include/array.hpp:156-163 | within the capacity the size is set; beyond it only the capacity grows and size and elements stay; the multiplier is kept either way |
| GrowableArray.ResizeShrinkRestores | lab1/include/array.hpp:156-163 | shrinking keeps a prefix, and growing back within the capacity restores the array |
| GrowableArray.PushBack | lab1/include/array.hpp:176-202 | one more element, the new one last, the others unchanged; capacity kept when there was room, otherwise grown (0 to 1, else times the multiplier) |
| GrowableArray.PushBackThenGet | lab1/include/array.hpp:176-216 | after a push the new element is at the old size, earlier ones read as before, later indices are out of bounds |
| GrowableArray.PushAllElements | lab1/include/array.hpp:176-202 | pushing a list appends exactly that list |
| GrowableArray.PushAllMatchesFromList | lab1/include/array.hpp:88-202 | pushing a list onto an empty array holds what the initializer-list constructor holds |
| GrowableArray.DoublingCapacity | lab1/include/array.hpp:176-191 | with multiplier 2, pushes keep the capacity the least power of two not below the size |
| GrowableArray.DoublingFromEmpty | lab1/include/array.hpp:176-191 | pushes onto an empty array give a power-of-two capacity below twice the size |
| LineLocator.Summarize | lab4/src/main.cpp:74-81 | one more entry than counts, entry 0 is 0, each entry the previous plus the next count, wrapped to 32 bits |
| LineLocator.PrefixSumsNoWrap | lab4/src/main.cpp:77-79 | without overflow the result is non-decreasing, entry i is the sum of the first i counts, the last is the total |
| LineLocator.UpperBound | lab4/src/main.cpp:85 | `std::upper_bound` on a sorted sequence: everything before the result is at most x, everything from it is above x |
| LineLocator.BisectRightCounts | lab4/getTest.py:46 | Python's `bisect_right` on a sorted list gives the same index: the number of entries at most x |
| LineLocator.GetLineAndWord | lab4/src/main.cpp:83-95 | line and word are at least 1, the line's start is at most the occurrence and the next start is above it, word is the offset plus one, and the pair is what `lineifyTest` gives |
| LineLocator.LocateAll | lab4/src/main.cpp:114-118 | locating every occurrence gives the list `lineifyTest` computes |
| LineLocator.LineContains | lab4/src/main.cpp:83-95 | for an occurrence before the end of the text, the named line holds it: it is not empty and the word is within it |
| LineLocator.OracleAgrees | lab4/getTest.py:43-52 | searching the line starts without the total, as the test script does, gives the same pair |

## Left out

- Stream I/O is left out: the `MapReader`, `readMap`, `printMap`, the stdin synchronisation set-up, `readText`, `readPattern` and `main` beyond its loop over the matches. Input is modelled as a `string` and output is not modelled.
- The KMP matcher (`kmp.hpp`) is not part of this model. Its list of matches is a parameter of `LineLocator.LocateAll`.
- `shared_ptr` ownership, the parent `weak_ptr` links and their updates in the rotations are replaced by the zipper. The model therefore states no separate property about parent links.
- The tree is over `int` with the built-in `<` and `==`. The per-node comparators and `setEqComparator` are left out, and so are the `double` values used by the tests.
- The following RBTree members are left out: `printTree` (display only), the diagnostic `Node::count` and `id`, the unused `leftIsTheOne` and `rightIsTheOne`, and the move constructor and assignment.
- The source dereferences null in a few unreachable branches: a missing brother in the black-height repair, and a missing grandfather with a red parent during insertion. In the model those branches end the loop instead. The proofs show that they are never taken from a valid tree.
- Codec.DecodeSubtree: on malformed input or at the end of the text the decoder returns `None`. In the source, `Node::read` throws only when the format character is `N`. A failed or malformed read does not throw: it builds a node with a default value and an indeterminate colour character, and the recursion carries on over the failed stream. The model states nothing about that case.
- Vars.ReadId: an id whose magnitude does not fit in 16 bits is an error in the model. The stream would set its fail bit and store the maximum value.
- Vars.ReadVar: a record is read only from well-formed text. The stream's sticky fail state is not modelled.
- CountingSort.SumUp: the `uint64_t` counters are unbounded in the model, because at most 2^64 - 1 records can be counted.
- GrowableArray.PushBack: `_capacity * MULTIPLIER` is not reduced modulo 2^64, and a failed allocation is not modelled.
- GrowableArray: the slots that `new T[n]` leaves default-constructed are modelled as copies of one `blank` value, passed as a parameter.
- Move assignment of `Array`, which passes an lvalue to `move`, is left out, and so is the declared-only `iterator`. The move constructor is `noexcept`, so its refused multiplier would end the program; the model returns the error instead.
- GrowableArray.SetMultiplier: the multiplier is an ordinary field of the value. The source writes it through `const_cast` into a `const` member.
- LineLocator.PrefixSumsNoWrap: the ordering and sum properties assume the total word count fits in 32 bits. `LineLocator.Summarize` itself models the wrap-around.
- LineLocator.GetLineAndWord: it requires what `summarize` guarantees, namely a sorted sequence that starts with 0. On other input the source's decrement before `begin()` is undefined.
- The Python test-data generators and the test driver are left out. Only `lineifyTest` is modelled, as the reference.

## Findings

| source | as written | input that shows it | evidently intended | confidence | as-written member | corrected member |
|---|---|---|---|---|---|---|
| lab2/include/rb_tree.hpp:43-44 | the constructor initialises only the comparators; `_size` (line 87) keeps whatever was in memory, and `add` and `remove` step it from there | a tree built where the counter's memory held 1: `empty()` is true and `size()` is 1 | the counter starts at 0 | not executed | TreeObject.EmptyAsWritten, TreeObject.EmptyAsWrittenMiscounts | TreeObject.Empty |
| lab2/include/rb_tree.hpp:300-308 | `readFromStream` sets the root of a new tree but never its counter | save the one-node tree `(8, 0)NN` and read it back where the counter's memory held 0: one node, `size()` 0 | the counter is the number of nodes read | not executed | TreeObject.ReadAsWritten, TreeObject.ReadAsWrittenMiscounts | TreeObject.Read, TreeObject.ReadSave |
| lab1/include/array.hpp:97-106 | `copy` takes `other._capacity` but allocates `new T[_size]`, so the copy claims more room than it has and a later `push_back` writes past the allocation | copy an array of capacity 2 and size 1: capacity 2 over storage of 1 | allocate `_capacity` slots | not executed | GrowableArray.CopyAsWritten, GrowableArray.CopyAsWrittenOverruns | GrowableArray.Copy |

=== FILE: common.dfy ===
/**
 * Definitions shared by every component: failure-carrying results and the
 * sum of a sequence of counts. The original reports failures by throwing
 * exceptions (or, for stream reads, by leaving the stream in a failed
 * state); here a failure is an ordinary value.
 */
module Common {

  datatype Option<T> = None | Some(value: T)

  datatype Result<T, E> = Ok(value: T) | Err(error: E)

  /** The sum of `c`. */
  function Total(c: seq<nat>): nat {
    if |c| == 0 then 0 else Total(c[..|c| - 1]) + c[|c| - 1]
  }

  /** Extending a prefix by one entry adds that entry to its sum. */
  lemma TotalStep(c: seq<nat>, i: nat)
    requires i < |c|
    ensures Total(c[..i + 1]) == Total(c[..i]) + c[i]
  {
    assert c[..i + 1][..i] == c[..i];
  }

  /** Sums of prefixes grow with the prefix. */
  lemma {:induction false} TotalMonotone(c: seq<nat>, i: nat, j: nat)
    requires i <= j <= |c|
    ensures Total(c[..i]) <= Total(c[..j])
    decreases j - i
  {
    if i < j {
      TotalMonotone(c, i, j - 1);
      TotalStep(c, j - 1);
    }
  }
}

=== FILE: counting_sort.dfy ===
/**
 * CountingSorter: a stable sort of `var` records by id in four passes —
 * the largest id, a histogram of ids, inclusive prefix sums of the
 * histogram, and a back-to-front placement of each record at the slot
 * its prefix sum names.
 *
 * The reference it is measured against is GroupedBelow: the records with
 * id 0 in input order, then those with id 1, and so on.
 */
module CountingSort {
  import opened Common
  import opened Vars

  /** The records of `s` with id `k`, in their order in `s`. */
  function Filter(s: seq<Var>, k: nat): seq<Var> {
    if |s| == 0 then []
    else Filter(s[..|s| - 1], k) + (if s[|s| - 1].id == k then [s[|s| - 1]] else [])
  }

  /** How many records of `s` have id `k`. */
  function CountId(s: seq<Var>, k: nat): nat {
    if |s| == 0 then 0
    else CountId(s[..|s| - 1], k) + (if s[|s| - 1].id == k then 1 else 0)
  }

  /** The records of `s` with id below `k`, grouped by increasing id, each
      group in input order. */
  function GroupedBelow(s: seq<Var>, k: nat): seq<Var> {
    if k == 0 then [] else GroupedBelow(s, k - 1) + Filter(s, k - 1)
  }

  /** How many records of `s` have id below `k`. */
  function Below(s: seq<Var>, k: nat): nat {
    if k == 0 then 0 else Below(s, k - 1) + CountId(s, k - 1)
  }

  /** The stable sort by id, as std::stable_sort under operator< gives it. */
  function StableSorted(s: seq<Var>): seq<Var> {
    GroupedBelow(s, ID_LIMIT)
  }

  predicate SortedById(s: seq<Var>) {
    forall p, q :: 0 <= p < q < |s| ==> s[p].id <= s[q].id
  }

  predicate IdsBelow(s: seq<Var>, k: nat) {
    forall j :: 0 <= j < |s| ==> s[j].id < k
  }

  /** Every id keeps its records in the same order. */
  ghost predicate SameGroups(x: seq<Var>, y: seq<Var>) {
    forall k :: Filter(x, k) == Filter(y, k)
  }

  // ---------------------------------------------------------------------
  // Filter and CountId
  // ---------------------------------------------------------------------

  lemma {:induction false} FilterLength(s: seq<Var>, k: nat)
    ensures |Filter(s, k)| == CountId(s, k)
    decreases |s|
  {
    if |s| > 0 {
      FilterLength(s[..|s| - 1], k);
    }
  }

  lemma {:induction false} FilterIds(s: seq<Var>, k: nat)
    ensures forall j :: 0 <= j < |Filter(s, k)| ==> Filter(s, k)[j].id == k
    decreases |s|
  {
    if |s| > 0 {
      FilterIds(s[..|s| - 1], k);
    }
  }

  lemma FilterStep(s: seq<Var>, i: nat, k: nat)
    requires i < |s|
    ensures Filter(s[..i + 1], k) == Filter(s[..i], k) + (if s[i].id == k then [s[i]] else [])
  {
    assert s[..i + 1][..i] == s[..i];
  }

  lemma CountStep(s: seq<Var>, i: nat, k: nat)
    requires i < |s|
    ensures CountId(s[..i + 1], k) == CountId(s[..i], k) + (if s[i].id == k then 1 else 0)
  {
    assert s[..i + 1][..i] == s[..i];
  }

  lemma {:induction false} FilterPrefix(s: seq<Var>, i: nat, k: nat)
    requires i <= |s|
    ensures |Filter(s[..i], k)| <= |Filter(s, k)|
    ensures Filter(s, k)[..|Filter(s[..i], k)|] == Filter(s[..i], k)
    decreases |s|
  {
    if i == |s| {
      assert s[..i] == s;
    } else {
      var s' := s[..|s| - 1];
      assert s'[..i] == s[..i];
      FilterPrefix(s', i, k);
    }
  }

  /** The record at position i is the next one of its id after those in s[..i]. */
  lemma FilterAt(s: seq<Var>, i: nat)
    requires i < |s|
    ensures CountId(s[..i], s[i].id) < CountId(s, s[i].id)
    ensures CountId(s[..i], s[i].id) < |Filter(s, s[i].id)|
    ensures Filter(s, s[i].id)[CountId(s[..i], s[i].id)] == s[i]
  {
    var k := s[i].id;
    FilterStep(s, i, k);
    FilterPrefix(s, i + 1, k);
    FilterLength(s[..i], k);
    FilterLength(s[..i + 1], k);
    FilterLength(s, k);
  }

  lemma {:induction false} FilterConcat(x: seq<Var>, y: seq<Var>, k: nat)
    ensures Filter(x + y, k) == Filter(x, k) + Filter(y, k)
    decreases |y|
  {
    if |y| > 0 {
      var y' := y[..|y| - 1];
      assert (x + y)[..|x + y| - 1] == x + y';
      FilterConcat(x, y', k);
    } else {
      assert x + y == x;
    }
  }

  lemma {:induction false} FilterUniform(x: seq<Var>, j: nat, k: nat)
    requires forall i :: 0 <= i < |x| ==> x[i].id == j
    ensures Filter(x, k) == if j == k then x else []
    decreases |x|
  {
    if |x| > 0 {
      FilterUniform(x[..|x| - 1], j, k);
      assert x[..|x| - 1] + [x[|x| - 1]] == x;
    }
  }

  lemma {:induction false} FilterEmpty(s: seq<Var>, k: nat)
    requires forall j :: 0 <= j < |s| ==> s[j].id != k
    ensures Filter(s, k) == []
    decreases |s|
  {
    if |s| > 0 {
      FilterEmpty(s[..|s| - 1], k);
    }
  }

  lemma {:induction false} FilterMultiset(x: seq<Var>, k: nat, e: Var)
    ensures multiset(Filter(x, k))[e] == if e.id == k then multiset(x)[e] else 0
    decreases |x|
  {
    if |x| > 0 {
      FilterMultiset(x[..|x| - 1], k, e);
      assert x[..|x| - 1] + [x[|x| - 1]] == x;
    }
  }

  /** Sequences that agree id by id hold the same records. */
  lemma SameGroupsPermutation(x: seq<Var>, y: seq<Var>)
    requires SameGroups(x, y)
    ensures multiset(x) == multiset(y)
  {
    forall e: Var
      ensures multiset(x)[e] == multiset(y)[e]
    {
      FilterMultiset(x, e.id, e);
      FilterMultiset(y, e.id, e);
    }
  }

  // ---------------------------------------------------------------------
  // Below: where each group starts
  // ---------------------------------------------------------------------

  lemma {:induction false} GroupedLength(s: seq<Var>, n: nat)
    ensures |GroupedBelow(s, n)| == Below(s, n)
    decreases n
  {
    if n > 0 {
      GroupedLength(s, n - 1);
      FilterLength(s, n - 1);
    }
  }

  lemma BelowNext(s: seq<Var>, k: nat)
    ensures Below(s, k + 1) == Below(s, k) + CountId(s, k)
  {
  }

  lemma {:induction false} BelowMonotone(s: seq<Var>, k: nat, m: nat)
    requires k <= m
    ensures Below(s, k) <= Below(s, m)
    decreases m
  {
    if k < m {
      BelowMonotone(s, k, m - 1);
    }
  }

  lemma {:induction false} BelowStep(s: seq<Var>, k: nat)
    requires |s| > 0
    ensures Below(s, k) == Below(s[..|s| - 1], k) + (if s[|s| - 1].id < k then 1 else 0)
    decreases k
  {
    if k > 0 {
      BelowStep(s, k - 1);
    }
  }

  lemma {:induction false} BelowNothing(s: seq<Var>, k: nat)
    requires |s| == 0
    ensures Below(s, k) == 0
    decreases k
  {
    if k > 0 {
      BelowNothing(s, k - 1);
    }
  }

  /** When every id is below k, the groups below k hold all of s. */
  lemma {:induction false} BelowAll(s: seq<Var>, k: nat)
    requires IdsBelow(s, k)
    ensures Below(s, k) == |s|
    decreases |s|
  {
    if |s| > 0 {
      assert s[|s| - 1].id < k;
      BelowStep(s, k);
      BelowAll(s[..|s| - 1], k);
    } else {
      BelowNothing(s, k);
    }
  }

  /** Every position lies in the group of some id. */
  lemma {:induction false} GroupOfPosition(s: seq<Var>, n: nat, p: nat)
    requires p < Below(s, n)
    ensures exists k: nat :: k < n && Below(s, k) <= p < Below(s, k + 1)
    decreases n
  {
    if p < Below(s, n - 1) {
      GroupOfPosition(s, n - 1, p);
      var k: nat :| k < n - 1 && Below(s, k) <= p < Below(s, k + 1);
      assert k < n;
    } else {
      assert Below(s, n - 1) <= p < Below(s, n - 1 + 1);
    }
  }

  /** The group of id k sits at positions Below(s, k) .. Below(s, k + 1). */
  lemma {:induction false} GroupedAt(s: seq<Var>, k: nat, m: nat, n: nat)
    requires k < n && m < CountId(s, k)
    ensures Below(s, k) + m < Below(s, n)
    ensures Below(s, k) + m < |GroupedBelow(s, n)|
    ensures m < |Filter(s, k)|
    ensures GroupedBelow(s, n)[Below(s, k) + m] == Filter(s, k)[m]
    decreases n
  {
    var g, f := GroupedBelow(s, n - 1), Filter(s, n - 1);
    assert GroupedBelow(s, n) == g + f;
    GroupedLength(s, n - 1);
    FilterLength(s, n - 1);
    FilterLength(s, k);
    if n > k + 1 {
      GroupedAt(s, k, m, n - 1);
      assert (g + f)[Below(s, k) + m] == g[Below(s, k) + m];
    } else {
      assert (g + f)[|g| + m] == f[m];
    }
  }

  // ---------------------------------------------------------------------
  // GroupedBelow: the reference stable sort
  // ---------------------------------------------------------------------

  /** Ids at or above the largest one add nothing to the grouping. */
  lemma {:induction false} GroupedBelowSaturates(s: seq<Var>, k: nat, m: nat)
    requires IdsBelow(s, k) && k <= m
    ensures GroupedBelow(s, m) == GroupedBelow(s, k)
    decreases m
  {
    if k < m {
      GroupedBelowSaturates(s, k, m - 1);
      FilterEmpty(s, m - 1);
    }
  }

  lemma {:induction false} GroupedSorted(s: seq<Var>, n: nat)
    ensures SortedById(GroupedBelow(s, n)) && IdsBelow(GroupedBelow(s, n), n)
    decreases n
  {
    if n > 0 {
      GroupedSorted(s, n - 1);
      FilterIds(s, n - 1);
    }
  }

  lemma {:induction false} GroupedFilter(s: seq<Var>, n: nat, k: nat)
    ensures Filter(GroupedBelow(s, n), k) == if k < n then Filter(s, k) else []
    decreases n
  {
    if n > 0 {
      var g, f := GroupedBelow(s, n - 1), Filter(s, n - 1);
      GroupedFilter(s, n - 1, k);
      FilterIds(s, n - 1);
      FilterUniform(f, n - 1, k);
      FilterConcat(g, f, k);
      if k == n - 1 {
        assert Filter(g, k) == [];
        assert Filter(g, k) + Filter(f, k) == f;
      } else {
        assert Filter(f, k) == [];
        assert Filter(g, k) + Filter(f, k) == Filter(g, k);
      }
    }
  }

  /** GroupedBelow depends on each id's records only. */
  lemma {:induction false} GroupedBelowOnlyLower(x: seq<Var>, y: seq<Var>, n: nat)
    requires forall k :: 0 <= k < n ==> Filter(x, k) == Filter(y, k)
    ensures GroupedBelow(x, n) == GroupedBelow(y, n)
    decreases n
  {
    if n > 0 {
      GroupedBelowOnlyLower(x, y, n - 1);
    }
  }

  /** In a sequence sorted by id whose ids are at most k, the records with id
      k form the suffix starting at the returned position. */
  function FirstWithId(x: seq<Var>, k: nat): (i: nat)
    requires SortedById(x) && IdsBelow(x, k + 1)
    ensures i <= |x|
    ensures forall j :: 0 <= j < i ==> x[j].id < k
    ensures forall j :: i <= j < |x| ==> x[j].id == k
  {
    if |x| == 0 || x[|x| - 1].id < k then |x|
    else FirstWithId(x[..|x| - 1], k)
  }

  /** Below the top id, a sequence and its part before the top id's records
      hold the same records. */
  lemma LowerPartFilters(lo: seq<Var>, hi: seq<Var>, top: nat)
    requires forall j :: 0 <= j < |hi| ==> hi[j].id == top
    ensures forall k :: 0 <= k < top ==> Filter(lo + hi, k) == Filter(lo, k)
  {
    forall k | 0 <= k < top
      ensures Filter(lo + hi, k) == Filter(lo, k)
    {
      FilterConcat(lo, hi, k);
      FilterUniform(hi, top, k);
      assert Filter(lo, k) + [] == Filter(lo, k);
    }
  }

  lemma TopPartFilter(lo: seq<Var>, hi: seq<Var>, top: nat)
    requires forall j :: 0 <= j < |lo| ==> lo[j].id < top
    requires forall j :: 0 <= j < |hi| ==> hi[j].id == top
    ensures Filter(lo + hi, top) == hi
  {
    FilterConcat(lo, hi, top);
    FilterEmpty(lo, top);
    FilterUniform(hi, top, top);
    assert [] + hi == hi;
  }

  lemma SplitSorted(x: seq<Var>, top: nat) returns (lo: seq<Var>, hi: seq<Var>)
    requires SortedById(x) && IdsBelow(x, top + 1)
    ensures x == lo + hi
    ensures SortedById(lo) && IdsBelow(lo, top)
    ensures forall j :: 0 <= j < |hi| ==> hi[j].id == top
  {
    var i := FirstWithId(x, top);
    lo, hi := x[..i], x[i..];
    assert x == lo + hi;
  }

  /** Appending records of the top id to a grouping of lower ids gives the
      grouping one id further. */
  lemma GroupedOfSplit(lo: seq<Var>, hi: seq<Var>, top: nat)
    requires IdsBelow(lo, top) && GroupedBelow(lo, top) == lo
    requires forall j :: 0 <= j < |hi| ==> hi[j].id == top
    ensures GroupedBelow(lo + hi, top + 1) == lo + hi
  {
    LowerPartFilters(lo, hi, top);
    GroupedBelowOnlyLower(lo + hi, lo, top);
    TopPartFilter(lo, hi, top);
  }

  /** A sequence already sorted by id is its own grouping. */
  lemma {:induction false} SortedIsGrouped(x: seq<Var>, n: nat)
    requires SortedById(x) && IdsBelow(x, n)
    ensures GroupedBelow(x, n) == x
    decreases n
  {
    if n == 0 {
      assert |x| == 0 || x[0].id < 0;
    } else {
      var lo, hi := SplitSorted(x, n - 1);
      SortedIsGrouped(lo, n - 1);
      GroupedOfSplit(lo, hi, n - 1);
    }
  }

  /** GroupedBelow depends on each id's records only. */
  lemma GroupedBySameGroups(x: seq<Var>, y: seq<Var>, n: nat)
    requires SameGroups(x, y)
    ensures GroupedBelow(x, n) == GroupedBelow(y, n)
  {
    GroupedBelowOnlyLower(x, y, n);
  }

  /** The reference is sorted, keeps each id's records in input order, and
      is a permutation of the input. */
  lemma StableSortedCorrect(s: seq<Var>)
    ensures SortedById(StableSorted(s))
    ensures SameGroups(StableSorted(s), s)
    ensures multiset(StableSorted(s)) == multiset(s)
  {
    GroupedSorted(s, ID_LIMIT);
    forall k: nat
      ensures Filter(StableSorted(s), k) == Filter(s, k)
    {
      GroupedFilter(s, ID_LIMIT, k);
      if k >= ID_LIMIT {
        FilterEmpty(s, k);
      }
    }
    SameGroupsPermutation(StableSorted(s), s);
  }

  /** Sortedness and stability determine the result: any sequence sorted by
      id that keeps every id's records of s in order is StableSorted(s). */
  lemma StableSortedUnique(s: seq<Var>, x: seq<Var>)
    requires SortedById(x) && SameGroups(x, s)
    ensures x == StableSorted(s)
  {
    SortedIsGrouped(x, ID_LIMIT);
    GroupedBySameGroups(x, s, ID_LIMIT);
  }

  // ---------------------------------------------------------------------
  // The four passes
  // ---------------------------------------------------------------------

  /** findMaxValue: the largest id, 0 for an empty input. */
  method FindMaxValue(a: seq<Var>) returns (res: Id)
    ensures forall i :: 0 <= i < |a| ==> a[i].id <= res
    ensures res == 0 || exists i :: 0 <= i < |a| && a[i].id == res
  {
    res := 0;
    var i := 0;
    while i < |a|
      invariant i <= |a|
      invariant forall j :: 0 <= j < i ==> a[j].id <= res
      invariant res == 0 || exists j :: 0 <= j < i && a[j].id == res
    {
      if res < a[i].id {
        res := a[i].id;
      }
      i := i + 1;
    }
  }

  /** countValues: entry k of the maxValue + 1 counters is the number of
      records with id k. */
  method CountValues(a: seq<Var>, maxValue: Id) returns (count: seq<nat>)
    requires forall i :: 0 <= i < |a| ==> a[i].id <= maxValue
    ensures |count| == maxValue + 1
    ensures forall k :: 0 <= k <= maxValue ==> count[k] == CountId(a, k)
  {
    var c := new nat[maxValue + 1](_ => 0);
    var i := 0;
    while i < |a|
      invariant i <= |a|
      invariant forall k :: 0 <= k < c.Length ==> c[k] == CountId(a[..i], k)
    {
      forall k | 0 <= k < c.Length
        ensures CountId(a[..i + 1], k) == CountId(a[..i], k) + (if a[i].id == k then 1 else 0)
      {
        CountStep(a, i, k);
      }
      c[a[i].id] := c[a[i].id] + 1;
      i := i + 1;
    }
    assert a[..i] == a;
    count := c[..];
  }

  /** sumUp: inclusive prefix sums, entry i is the sum of entries 0..i. */
  method SumUp(c: seq<nat>) returns (p: seq<nat>)
    ensures |p| == |c|
    ensures |c| > 0 ==> p[0] == c[0]
    ensures forall i :: 1 <= i < |c| ==> p[i] == p[i - 1] + c[i]
    ensures forall i :: 0 <= i < |c| ==> p[i] == Total(c[..i + 1])
  {
    if |c| == 0 {
      return [];
    }
    var arr := new nat[|c|](j requires 0 <= j < |c| => c[j]);
    assert c[..1][..0] == [];
    var i := 1;
    while i < arr.Length
      invariant 1 <= i <= arr.Length
      invariant forall j :: 0 <= j < i ==> arr[j] == Total(c[..j + 1])
      invariant forall j :: i <= j < arr.Length ==> arr[j] == c[j]
    {
      TotalStep(c, i);
      arr[i] := arr[i] + arr[i - 1];
      i := i + 1;
    }
    p := arr[..];
    forall i | 1 <= i < |c|
      ensures p[i] == p[i - 1] + c[i]
    {
      TotalStep(c, i);
    }
  }

  /** One step of post: the record at `back` goes to the slot just below
      its id's counter, and that slot is its place in the reference. */
  lemma PostStep(a: seq<Var>, back: nat, n: nat)
    requires back < |a| && a[back].id < n
    ensures Below(a, a[back].id) + CountId(a[..back], a[back].id) < Below(a, a[back].id as nat + 1)
    ensures Below(a, a[back].id) + CountId(a[..back], a[back].id) < |GroupedBelow(a, n)|
    ensures GroupedBelow(a, n)[Below(a, a[back].id) + CountId(a[..back], a[back].id)] == a[back]
  {
    var k: nat := a[back].id;
    FilterAt(a, back);
    GroupedAt(a, k, CountId(a[..back], k), k + 1);
    GroupedAt(a, k, CountId(a[..back], k), n);
  }

  /** Where each id's group starts in the reference: entry k is Below(a, k). */
  ghost function Bounds(a: seq<Var>, m: nat): (b: seq<nat>)
    ensures |b| == m + 1
    ensures forall k :: 0 <= k <= m ==> b[k] == Below(a, k)
  {
    seq(m + 1, k requires 0 <= k => Below(a, k))
  }

  /** How many of the first n records of `s` have id `k`. */
  function CountIn(s: seq<Var>, n: nat, k: nat): nat
    requires n <= |s|
  {
    if n == 0 then 0 else CountIn(s, n - 1, k) + (if s[n - 1].id == k then 1 else 0)
  }

  lemma {:induction false} CountInPrefix(s: seq<Var>, n: nat, k: nat)
    requires n <= |s|
    ensures CountIn(s, n, k) == CountId(s[..n], k)
    decreases n
  {
    if n > 0 {
      CountInPrefix(s, n - 1, k);
      CountStep(s, n - 1, k);
    }
  }

  /** The counters of post while the records a[..rest] are still to be
      placed: entry k is where the group of id k starts plus the number of
      its records still to be placed. */
  ghost function Counters(a: seq<Var>, m: nat, rest: nat): (c: seq<nat>)
    requires rest <= |a|
    ensures |c| == m
    ensures forall k :: 0 <= k < m ==> c[k] == Below(a, k) + CountIn(a, rest, k)
  {
    seq(m, k requires 0 <= k => Below(a, k) + CountIn(a, rest, k))
  }

  /** Slots from each counter up to the end of its group hold the reference's records. */
  ghost predicate Placed(b: seq<nat>, c: seq<nat>, out: seq<Var>, ref: seq<Var>) {
    forall k, p :: 0 <= k < |c| && k + 1 < |b| && c[k] <= p < b[k + 1] && p < |out| && p < |ref| ==>
      out[p] == ref[p]
  }

  /** Counters lie within their groups, and groups follow one another. */
  ghost predicate Staggered(b: seq<nat>, c: seq<nat>) {
    && |b| == |c| + 1
    && (forall k :: 0 <= k < |c| ==> b[k] <= c[k] <= b[k + 1])
    && (forall k, l :: 0 <= k <= l < |b| ==> b[k] <= b[l])
  }

  /** Lowering one counter and filling the slot it then names keeps the
      placed region correct, whatever the groups are. */
  lemma PlaceOne(b: seq<nat>, c: seq<nat>, out: seq<Var>, ref: seq<Var>, j: nat, v: Var)
    requires Staggered(b, c) && Placed(b, c, out, ref)
    requires j < |c| && b[j] < c[j] && c[j] - 1 < |out| && c[j] - 1 < |ref| && ref[c[j] - 1] == v
    ensures Staggered(b, c[j := c[j] - 1])
    ensures Placed(b, c[j := c[j] - 1], out[c[j] - 1 := v], ref)
  {
    var q := c[j] - 1;
    var c', out' := c[j := q], out[q := v];
    forall k, p | 0 <= k < |c'| && k + 1 < |b| && c'[k] <= p < b[k + 1] && p < |out'| && p < |ref|
      ensures out'[p] == ref[p]
    {
      if k == j {
        if p != q {
          assert c[k] <= p;
        }
      } else if k < j {
        assert b[k + 1] <= b[j];
      } else {
        assert b[j + 1] <= b[k];
      }
    }
  }

  /** The state of post after `i` records, counted from the back, are
      placed: each id's counter has come down by the number of its records
      placed, and the slots from the counter up to the end of the id's
      group hold the reference's records. */
  ghost predicate PostInv(a: seq<Var>, m: nat, c: seq<nat>, out: seq<Var>, i: nat) {
    && i <= |a| && |out| == |a|
    && IdsBelow(a, m) && Below(a, m) == |a| && |GroupedBelow(a, m)| == |a|
    && c == Counters(a, m, |a| - i)
    && Staggered(Bounds(a, m), c)
    && Placed(Bounds(a, m), c, out, GroupedBelow(a, m))
  }

  lemma BoundsMonotone(a: seq<Var>, m: nat)
    ensures forall k, l :: 0 <= k <= l < |Bounds(a, m)| ==> Bounds(a, m)[k] <= Bounds(a, m)[l]
  {
    forall k, l | 0 <= k <= l < |Bounds(a, m)|
      ensures Bounds(a, m)[k] <= Bounds(a, m)[l]
    {
      BelowMonotone(a, k, l);
    }
  }

  /** Before post starts, the counters are the ends of the groups. */
  lemma CountersStart(a: seq<Var>, count: seq<nat>)
    requires forall k :: 0 <= k < |count| ==> count[k] == Below(a, k + 1)
    ensures count == Counters(a, |count|, |a|)
  {
    var c := Counters(a, |count|, |a|);
    assert a[..|a|] == a;
    forall k | 0 <= k < |count|
      ensures count[k] == c[k]
    {
      BelowNext(a, k);
      CountInPrefix(a, |a|, k);
    }
  }

  lemma StaggeredStart(a: seq<Var>, count: seq<nat>)
    requires forall k :: 0 <= k < |count| ==> count[k] == Below(a, k + 1)
    ensures Staggered(Bounds(a, |count|), count)
  {
    var b := Bounds(a, |count|);
    BoundsMonotone(a, |count|);
    forall k | 0 <= k < |count|
      ensures b[k] <= count[k] <= b[k + 1]
    {
      BelowNext(a, k);
    }
  }

  lemma PostInvStart(a: seq<Var>, count: seq<nat>, out: seq<Var>)
    requires IdsBelow(a, |count|) && |out| == |a|
    requires forall k :: 0 <= k < |count| ==> count[k] == Below(a, k + 1)
    ensures PostInv(a, |count|, count, out, 0)
  {
    var m := |count|;
    assert Below(a, m) == |a| by {
      BelowAll(a, m);
    }
    assert |GroupedBelow(a, m)| == |a| by {
      GroupedLength(a, m);
    }
    CountersStart(a, count);
    StaggeredStart(a, count);
    assert Placed(Bounds(a, m), count, out, GroupedBelow(a, m));
  }

  /** Counting down the counter of the record at `back` gives the counters
      with that record no longer to be placed. */
  lemma CountersDrop(a: seq<Var>, m: nat, back: nat)
    requires back < |a| && a[back].id < m
    ensures Counters(a, m, back + 1)[a[back].id]
      == Below(a, a[back].id) + CountIn(a, back, a[back].id) + 1
    ensures Counters(a, m, back + 1)[a[back].id := Counters(a, m, back + 1)[a[back].id] - 1]
      == Counters(a, m, back)
  {
    var j := a[back].id;
    var c, d := Counters(a, m, back + 1), Counters(a, m, back);
    assert c[j := c[j] - 1] == d;
  }

  /** The counter of the record placed next is positive and at most the
      number of records, so the slot below it lies in the output. */
  lemma PostCounter(a: seq<Var>, m: nat, c: seq<nat>, out: seq<Var>, i: nat)
    requires PostInv(a, m, c, out, i) && i < |a|
    ensures a[|a| - i - 1].id < |c|
    ensures 0 < c[a[|a| - i - 1].id] <= |a|
  {
    var back := |a| - i - 1;
    var j := a[back].id;
    assert |a| - i == back + 1;
    CountersDrop(a, m, back);
    PostStep(a, back, m);
    CountInPrefix(a, back, j);
  }

  /** Counting down the next record's counter gives the next counters. */
  lemma CountersNext(a: seq<Var>, m: nat, i: nat, c: seq<nat>, c': seq<nat>)
    requires i < |a| && IdsBelow(a, m) && c == Counters(a, m, |a| - i)
    requires c' == c[a[|a| - i - 1].id := c[a[|a| - i - 1].id] - 1]
    ensures c' == Counters(a, m, |a| - (i + 1))
  {
    assert |a| - i == |a| - i - 1 + 1;
    CountersDrop(a, m, |a| - i - 1);
  }

  /** The slot below the next record's counter is that record's place in
      the reference, and lies inside its group. */
  lemma NextSlot(a: seq<Var>, m: nat, i: nat, c: seq<nat>)
    requires i < |a| && IdsBelow(a, m) && c == Counters(a, m, |a| - i)
    requires 0 < c[a[|a| - i - 1].id]
    ensures Bounds(a, m)[a[|a| - i - 1].id] < c[a[|a| - i - 1].id]
    ensures c[a[|a| - i - 1].id] - 1 < |GroupedBelow(a, m)|
    ensures GroupedBelow(a, m)[c[a[|a| - i - 1].id] - 1] == a[|a| - i - 1]
  {
    var back := |a| - i - 1;
    var j := a[back].id;
    var q := c[j] - 1;
    assert q == Below(a, j) + CountIn(a, back, j) by {
      assert |a| - i == back + 1;
      CountersDrop(a, m, back);
    }
    PostStep(a, back, m);
    CountInPrefix(a, back, j);
  }

  /** Placing the next record at the slot below its counter keeps the
      placed region correct. */
  lemma PlacedNext(a: seq<Var>, m: nat, i: nat, c: seq<nat>, out: seq<Var>, c': seq<nat>, out': seq<Var>)
    requires i < |a| && IdsBelow(a, m) && |out| == |a| && c == Counters(a, m, |a| - i)
    requires Staggered(Bounds(a, m), c) && Placed(Bounds(a, m), c, out, GroupedBelow(a, m))
    requires 0 < c[a[|a| - i - 1].id] <= |a|
    requires c' == c[a[|a| - i - 1].id := c[a[|a| - i - 1].id] - 1]
    requires out' == out[c[a[|a| - i - 1].id] - 1 := a[|a| - i - 1]]
    ensures Staggered(Bounds(a, m), c') && Placed(Bounds(a, m), c', out', GroupedBelow(a, m))
  {
    var back := |a| - i - 1;
    NextSlot(a, m, i, c);
    PlaceOne(Bounds(a, m), c, out, GroupedBelow(a, m), a[back].id, a[back]);
  }

  /** Placing the next record keeps the state. */
  lemma PostInvStep(a: seq<Var>, m: nat, c: seq<nat>, out: seq<Var>, i: nat, c': seq<nat>, out': seq<Var>)
    requires PostInv(a, m, c, out, i) && i < |a|
    requires 0 < c[a[|a| - i - 1].id] <= |a|
    requires c' == c[a[|a| - i - 1].id := c[a[|a| - i - 1].id] - 1]
    requires out' == out[c[a[|a| - i - 1].id] - 1 := a[|a| - i - 1]]
    ensures PostInv(a, m, c', out', i + 1)
  {
    CountersNext(a, m, i, c, c');
    PlacedNext(a, m, i, c, out, c', out');
  }

  /** Once every record is placed, the output is the reference. */
  lemma PostInvDone(a: seq<Var>, m: nat, c: seq<nat>, out: seq<Var>)
    requires PostInv(a, m, c, out, |a|)
    ensures out == GroupedBelow(a, m)
  {
    forall p | 0 <= p < |a|
      ensures out[p] == GroupedBelow(a, m)[p]
    {
      GroupOfPosition(a, m, p);
      var k: nat :| k < m && Below(a, k) <= p < Below(a, k + 1);
      assert c[k] == Below(a, k);
    }
  }

  /** The counters and the output of post after `i` records, counted from
      the back, have been handled. */
  ghost function PostRun(a: seq<Var>, count: seq<nat>, i: nat): (seq<nat>, seq<Var>)
    requires i <= |a|
    decreases i
  {
    if i == 0 then (count, seq(|a|, _ => Var(0, "")))
    else
      var (c, out) := PostRun(a, count, i - 1);
      var j := a[|a| - i].id;
      if j < |c| && c[j] != 0 && c[j] - 1 < |out| then (c[j := c[j] - 1], out[c[j] - 1 := a[|a| - i]])
      else (c, out)
  }

  /** Every state post passes through satisfies PostInv. */
  lemma {:induction false} PostRunInv(a: seq<Var>, count: seq<nat>, i: nat)
    requires i <= |a| && IdsBelow(a, |count|)
    requires forall k :: 0 <= k < |count| ==> count[k] == Below(a, k + 1)
    ensures PostInv(a, |count|, PostRun(a, count, i).0, PostRun(a, count, i).1, i)
    decreases i
  {
    if i == 0 {
      PostInvStart(a, count, PostRun(a, count, 0).1);
    } else {
      PostRunInv(a, count, i - 1);
      var (c, out) := PostRun(a, count, i - 1);
      var j := a[|a| - i].id;
      assert |a| - (i - 1) - 1 == |a| - i;
      PostCounter(a, |count|, c, out, i - 1);
      PostInvStep(a, |count|, c, out, i - 1, c[j := c[j] - 1], out[c[j] - 1 := a[|a| - i]]);
    }
  }

  /** The next step of post takes its guarded branch, and the slot it
      writes lies inside the output. */
  lemma PostRunSlot(a: seq<Var>, count: seq<nat>, i: nat)
    requires i < |a| && IdsBelow(a, |count|)
    requires forall k :: 0 <= k < |count| ==> count[k] == Below(a, k + 1)
    ensures |PostRun(a, count, i).1| == |a|
    ensures a[|a| - i - 1].id < |PostRun(a, count, i).0|
    ensures 0 < PostRun(a, count, i).0[a[|a| - i - 1].id] <= |a|
  {
    PostRunInv(a, count, i);
    PostCounter(a, |count|, PostRun(a, count, i).0, PostRun(a, count, i).1, i);
  }

  /** After the last record, the output is the reference. */
  lemma PostRunDone(a: seq<Var>, count: seq<nat>)
    requires IdsBelow(a, |count|)
    requires forall k :: 0 <= k < |count| ==> count[k] == Below(a, k + 1)
    ensures PostRun(a, count, |a|).1 == GroupedBelow(a, |count|)
  {
    PostRunInv(a, count, |a|);
    PostInvDone(a, |count|, PostRun(a, count, |a|).0, PostRun(a, count, |a|).1);
  }

  /** post: scanning from the back, each record is placed at one less than
      its id's running prefix sum. Given the prefix sums of the histogram
      the guard `count[j] != 0` always holds, every slot is written once,
      and the result is the reference grouping. */
  method Post(a: seq<Var>, count: seq<nat>) returns (sorted: seq<Var>)
    requires IdsBelow(a, |count|)
    requires forall k :: 0 <= k < |count| ==> count[k] == Below(a, k + 1)
    ensures sorted == GroupedBelow(a, |count|)
  {
    var n := |a|;
    var out := seq(n, _ => Var(0, ""));
    var c := count;
    var i := 0;
    while i < n
      invariant i <= n && (c, out) == PostRun(a, count, i)
    {
      var back := n - i - 1;
      var j := a[back].id;
      PostRunSlot(a, count, i);
      if c[j] != 0 {
        var slot := c[j] - 1;
        c := c[j := slot];
        out := out[slot := a[back]];
      }
      i := i + 1;
    }
    PostRunDone(a, count);
    sorted := out;
  }

  lemma {:induction false} TotalOfCounts(a: seq<Var>, count: seq<nat>, k: nat)
    requires k <= |count|
    requires forall j :: 0 <= j < |count| ==> count[j] == CountId(a, j)
    ensures Total(count[..k]) == Below(a, k)
    decreases k
  {
    if k > 0 {
      assert count[..k][..k - 1] == count[..k - 1];
      TotalOfCounts(a, count, k - 1);
    }
  }

  /** CountingSorter::sort: the stable sort of the records by id. */
  method Sort(a: seq<Var>) returns (r: seq<Var>)
    ensures r == StableSorted(a)
    ensures |r| == |a| && multiset(r) == multiset(a)
    ensures SortedById(r)
    ensures SameGroups(r, a)
  {
    var maxValue := FindMaxValue(a);
    var count := CountValues(a, maxValue);
    var sums := SumUp(count);
    forall k | 0 <= k < |sums|
      ensures sums[k] == Below(a, k + 1)
    {
      TotalOfCounts(a, count, k + 1);
    }
    r := Post(a, sums);
    GroupedBelowSaturates(a, maxValue as nat + 1, ID_LIMIT);
    StableSortedCorrect(a);
    assert |multiset(r)| == |multiset(a)|;
  }
}

=== FILE: decimal.dfy ===
/**
 * Decimal text of integers as the standard streams write and read it:
 * `os << n` writes an optional minus sign and the digits without leading
 * zeros; `is >> n` skips white space, accepts one optional sign and reads
 * the longest run of digits. Shared by the tree's text form and by the
 * text form of the sort records.
 */
module Decimal {
  import opened Common

  predicate IsDigit(c: char) {
    '0' <= c <= '9'
  }

  /** The characters a formatted read skips (isspace in the "C" locale). */
  predicate IsSpace(c: char) {
    c == ' ' || c == '\t' || c == '\n' || c == '\r' || c == '\U{000B}' || c == '\U{000C}'
  }

  predicate AllDigits(s: string) {
    forall i :: 0 <= i < |s| ==> IsDigit(s[i])
  }

  /** Drops the leading white space of `s`. */
  function SkipSpace(s: string): (r: string)
    ensures |r| <= |s| && r == s[|s| - |r|..]
    ensures forall j :: 0 <= j < |s| - |r| ==> IsSpace(s[j])
    ensures r == [] || !IsSpace(r[0])
  {
    if |s| > 0 && IsSpace(s[0]) then SkipSpace(s[1..]) else s
  }

  function DigitChar(d: nat): (c: char)
    requires d < 10
    ensures IsDigit(c)
  {
    ('0' as int + d) as char
  }

  function DigitValue(c: char): (d: nat)
    requires IsDigit(c)
    ensures d < 10 && DigitChar(d) == c
  {
    c as int - '0' as int
  }

  /** Value of a string of decimal digits, most significant first. */
  function DigitsValue(s: string): nat
    requires AllDigits(s)
  {
    if s == [] then 0 else DigitsValue(s[..|s| - 1]) * 10 + DigitValue(s[|s| - 1])
  }

  /** The digits of `n` as `os << n` writes them: no leading zeros, "0" for zero. */
  function NatToString(n: nat): (r: string)
    ensures |r| >= 1 && AllDigits(r)
    ensures DigitsValue(r) == n
    ensures r[0] == '0' ==> n == 0
  {
    if n < 10 then [DigitChar(n)]
    else
      var r := NatToString(n / 10) + [DigitChar(n % 10)];
      assert r[..|r| - 1] == NatToString(n / 10);
      r
  }

  function IntToString(i: int): (r: string)
    ensures |r| >= 1 && (r[0] == '-' || IsDigit(r[0]))
  {
    if i < 0 then "-" + NatToString(-i) else NatToString(i)
  }

  /** Length of the longest prefix of `s` made of digits. */
  function DigitRun(s: string): (k: nat)
    ensures k <= |s| && AllDigits(s[..k])
    ensures k == |s| || !IsDigit(s[k])
  {
    if |s| > 0 && IsDigit(s[0]) then
      var k := 1 + DigitRun(s[1..]);
      assert s[..k] == [s[0]] + s[1..][..k - 1];
      k
    else 0
  }

  /** Reads an unsigned run of digits at the very start of `s`; None when
      there is none. */
  function ParseNat(s: string): (r: Option<(nat, string)>)
    ensures r.Some? <==> |s| > 0 && IsDigit(s[0])
    ensures r.Some? ==> |r.value.1| < |s| && r.value.1 == s[|s| - |r.value.1|..]
  {
    var k := DigitRun(s);
    if k == 0 then None else Some((DigitsValue(s[..k]), s[k..]))
  }

  /** `is >> n` for a signed integer: white space, an optional sign, then
      at least one digit; None is the failed read. */
  function ParseInt(s: string): (r: Option<(int, string)>)
    ensures r.Some? ==> |r.value.1| < |s|
  {
    ParseSigned(SkipSpace(s))
  }

  /** An optional sign and then at least one digit, at the very start of `t`. */
  function ParseSigned(t: string): (r: Option<(int, string)>)
    ensures r.Some? ==> |r.value.1| < |t|
  {
    if |t| > 0 && (t[0] == '-' || t[0] == '+') then
      var n := ParseNat(t[1..]);
      if n.None? then None
      else if t[0] == '-' then Some((-(n.value.0 as int), n.value.1))
      else Some((n.value.0 as int, n.value.1))
    else
      var n := ParseNat(t);
      if n.None? then None else Some((n.value.0 as int, n.value.1))
  }

  lemma {:induction false} DigitRunOf(d: string, rest: string)
    requires AllDigits(d) && (rest == [] || !IsDigit(rest[0]))
    ensures DigitRun(d + rest) == |d|
    decreases |d|
  {
    if |d| > 0 {
      assert (d + rest)[1..] == d[1..] + rest;
      DigitRunOf(d[1..], rest);
    }
  }

  /** Reading back the digits written for `n` gives `n` and leaves the
      text after them. */
  lemma ParseNatToString(n: nat, rest: string)
    requires rest == [] || !IsDigit(rest[0])
    ensures ParseNat(NatToString(n) + rest) == Some((n, rest))
  {
    var d := NatToString(n);
    DigitRunOf(d, rest);
    assert (d + rest)[..|d|] == d;
    assert (d + rest)[|d|..] == rest;
  }

  /** Text that starts with a digit has no white space or sign to skip. */
  lemma StartsWithDigit(t: string)
    requires |t| > 0 && IsDigit(t[0])
    ensures SkipSpace(t) == t
    ensures ParseSigned(t) == Some((ParseNat(t).value.0 as int, ParseNat(t).value.1))
  {
    assert !IsSpace(t[0]);
  }

  lemma ParseIntUnsigned(n: nat, rest: string)
    requires rest == [] || !IsDigit(rest[0])
    ensures ParseInt(NatToString(n) + rest) == Some((n as int, rest))
  {
    var s := NatToString(n) + rest;
    assert s[0] == NatToString(n)[0];
    StartsWithDigit(s);
    ParseNatToString(n, rest);
  }

  lemma ParseIntPositive(n: nat, rest: string)
    requires rest == [] || !IsDigit(rest[0])
    ensures ParseInt("+" + NatToString(n) + rest) == Some((n as int, rest))
  {
    var d := NatToString(n) + rest;
    var s := "+" + d;
    assert "+" + NatToString(n) + rest == s;
    assert SkipSpace(s) == s by {
      assert s[0] == '+' && !IsSpace(s[0]);
    }
    assert ParseSigned(s) == Some((n as int, rest)) by {
      assert s[1..] == d;
      ParseNatToString(n, rest);
    }
  }

  lemma ParseIntNegative(n: nat, rest: string)
    requires rest == [] || !IsDigit(rest[0])
    ensures ParseInt("-" + NatToString(n) + rest) == Some((-(n as int), rest))
  {
    var d := NatToString(n) + rest;
    var s := "-" + d;
    assert "-" + NatToString(n) + rest == s;
    assert SkipSpace(s) == s by {
      assert s[0] == '-' && !IsSpace(s[0]);
    }
    assert ParseSigned(s) == Some((-(n as int), rest)) by {
      assert s[1..] == d;
      ParseNatToString(n, rest);
    }
  }

  /** Reading back what `os << i` wrote gives `i` and leaves the text after it. */
  lemma ParseIntToString(i: int, rest: string)
    requires rest == [] || !IsDigit(rest[0])
    ensures ParseInt(IntToString(i) + rest) == Some((i, rest))
  {
    if i < 0 {
      ParseIntNegative(-i, rest);
    } else {
      ParseIntUnsigned(i, rest);
    }
  }
}

=== FILE: growable_array.dfy ===
/**
 * Array<T>: a growable array with a capacity, a size, the allocated slots
 * and a growth multiplier.
 *
 * `store` is the block of slots actually allocated; `capacity` is the
 * field the object believes describes it. They agree in every object the
 * operations below produce, which is what Valid states; the copy
 * constructor as written is the one place where they part.
 *
 * A freshly allocated slot holds `blank`: T's default-constructed value
 * (for a scalar T, whatever the memory held — the model fixes one value).
 */
module GrowableArray {
  import opened Common

  const DEFAULT_MULTIPLIER: nat := 2

  /** uint8_t, the type of the multiplier. */
  type U8 = x: nat | x < 0x100

  datatype ArrayError =
    | OutOfBounds          // operator[] with index >= size
    | CopyTooLarge         // copy_content from an array larger than the capacity
    | MultiplierTooSmall   // set_multiplier below 2

  datatype Array<T> = Array(capacity: nat, size: nat, store: seq<T>, multiplier: U8)

  /** The object invariant: the allocation matches the capacity, the size
      fits in it, and the multiplier grows. */
  predicate Valid<T>(a: Array<T>) {
    |a.store| == a.capacity && a.size <= a.capacity && a.multiplier >= 2
  }

  /** The elements a caller sees: the first `size` slots. */
  function Elements<T>(a: Array<T>): seq<T>
    requires a.size <= |a.store|
  {
    a.store[..a.size]
  }

  /** size(). */
  function Length<T>(a: Array<T>): nat {
    a.size
  }

  /** `n` freshly allocated slots. */
  function Blanks<T>(n: nat, blank: T): (r: seq<T>)
    ensures |r| == n && forall i :: 0 <= i < n ==> r[i] == blank
  {
    seq(n, _ => blank)
  }

  // ---------------------------------------------------------------------
  // Constructors
  // ---------------------------------------------------------------------

  /** Array(): nothing allocated, multiplier 2. */
  function Empty<T>(): (r: Array<T>)
    ensures Valid(r) && r.capacity == 0 && Length(r) == 0 && r.multiplier == DEFAULT_MULTIPLIER
  {
    Array(0, 0, [], DEFAULT_MULTIPLIER)
  }

  /** Array(size): `n` fresh slots, all of them counted. */
  function Sized<T>(n: nat, blank: T): (r: Array<T>)
    ensures Valid(r) && r.capacity == n && Length(r) == n && r.multiplier == DEFAULT_MULTIPLIER
    ensures Elements(r) == Blanks(n, blank)
  {
    Array(n, n, Blanks(n, blank), DEFAULT_MULTIPLIER)
  }

  /** Array(size, t): Array(size), then every slot set to `t`. */
  method Filled<T>(n: nat, t: T, blank: T) returns (r: Array<T>)
    ensures Valid(r) && r.capacity == n && Length(r) == n && r.multiplier == DEFAULT_MULTIPLIER
    ensures forall i :: 0 <= i < n ==> Get(r, i) == Ok(t)
  {
    r := Sized(n, blank);
    var i := 0;
    while i < r.size
      invariant i <= r.size && Valid(r) && r.capacity == n && r.size == n
      invariant r.multiplier == DEFAULT_MULTIPLIER
      invariant forall j :: 0 <= j < i ==> r.store[j] == t
    {
      r := r.(store := r.store[i := t]);
      i := i + 1;
    }
  }

  /** Array(initializer_list): one slot per listed value, in order. */
  function FromList<T>(xs: seq<T>): (r: Array<T>)
    ensures Valid(r) && r.capacity == |xs| && Elements(r) == xs
    ensures r.multiplier == DEFAULT_MULTIPLIER
  {
    Array(|xs|, |xs|, xs, DEFAULT_MULTIPLIER)
  }

  /** The copy constructor as written: the capacity is taken from `other`,
      but only `other.size` slots are allocated and filled. */
  function CopyAsWritten<T>(other: Array<T>): (r: Array<T>)
    requires Valid(other)
    ensures r.capacity == other.capacity && |r.store| == other.size
    ensures Valid(r) <==> other.size == other.capacity
  {
    Array(other.capacity, other.size, Elements(other), other.multiplier)
  }

  /** Copying an array with room to spare gives an object whose capacity
      claims a slot that was never allocated: the next push_back writes
      one past the end of the allocation. */
  lemma CopyAsWrittenOverruns()
    ensures var other := Array(2, 1, [7, 0], DEFAULT_MULTIPLIER);
      Valid(other) &&
      var copy := CopyAsWritten(other);
      copy.size < copy.capacity && copy.size == |copy.store|
  {
  }

  /** The copy constructor with the whole capacity allocated. */
  function Copy<T>(other: Array<T>, blank: T): (r: Array<T>)
    requires Valid(other)
    ensures Valid(r) && r.capacity == other.capacity && r.multiplier == other.multiplier
    ensures Length(r) == Length(other) && Elements(r) == Elements(other)
  {
    Array(other.capacity, other.size, Elements(other) + Blanks(other.capacity - other.size, blank),
          other.multiplier)
  }

  // ---------------------------------------------------------------------
  // Operations
  // ---------------------------------------------------------------------

  /** operator[] (both forms): the element at `i`, refused exactly when `i`
      is not below the size. */
  function Get<T>(a: Array<T>, i: nat): (r: Result<T, ArrayError>)
    requires Valid(a)
    ensures r.Err? <==> i >= Length(a)
    ensures r.Err? ==> r.error == OutOfBounds
    ensures r.Ok? ==> r.value == Elements(a)[i]
  {
    if a.size <= i then Err(OutOfBounds) else Ok(a.store[i])
  }

  /** Assignment through the reference operator[] returns. */
  function Set<T>(a: Array<T>, i: nat, v: T): (r: Result<Array<T>, ArrayError>)
    requires Valid(a)
    ensures r.Err? <==> i >= Length(a)
    ensures r.Err? ==> r.error == OutOfBounds
    ensures r.Ok? ==> Valid(r.value) && r.value.capacity == a.capacity && Elements(r.value) == Elements(a)[i := v]
    ensures r.Ok? ==> r.value.multiplier == a.multiplier
  {
    if a.size <= i then Err(OutOfBounds)
    else
      var r := a.(store := a.store[i := v]);
      assert Elements(r) == Elements(a)[i := v];
      Ok(r)
  }

  /** set_multiplier: values below 2 are refused. */
  function SetMultiplier<T>(a: Array<T>, m: U8): (r: Result<Array<T>, ArrayError>)
    ensures r.Err? <==> m < 2
    ensures r.Err? ==> r.error == MultiplierTooSmall
    ensures r.Ok? ==> r.value.multiplier == m && r.value.(multiplier := a.multiplier) == a
    ensures r.Ok? && Valid(a) ==> Valid(r.value)
  {
    if m < 2 then Err(MultiplierTooSmall) else Ok(a.(multiplier := m))
  }

  /** The move constructor: the new array takes `other`'s capacity, size
      and storage, then `other`'s multiplier through set_multiplier (which
      refuses one below 2); `other` is left with no storage, capacity and
      size 0, and its multiplier as it was. The pair is (new, moved-from). */
  function Moved<T>(other: Array<T>): (r: Result<(Array<T>, Array<T>), ArrayError>)
    ensures r.Err? <==> other.multiplier < 2
    ensures r.Err? ==> r.error == MultiplierTooSmall
    ensures r.Ok? ==> r.value.0 == other
    ensures r.Ok? ==> r.value.1 == Array(0, 0, [], other.multiplier) && Valid(r.value.1)
    ensures Valid(other) ==> r.Ok? && Valid(r.value.0)
  {
    var taken := SetMultiplier(Array(other.capacity, other.size, other.store, DEFAULT_MULTIPLIER), other.multiplier);
    if taken.Err? then Err(taken.error)
    else Ok((taken.value, Array(0, 0, [], other.multiplier)))
  }

  /** After a move the new array answers every index as `other` did, and
      the moved-from array is empty and refuses every index. */
  lemma MovedElements<T>(other: Array<T>, i: nat)
    requires Valid(other)
    ensures Elements(Moved(other).value.0) == Elements(other)
    ensures Get(Moved(other).value.0, i) == Get(other, i)
    ensures Length(Moved(other).value.1) == 0 && Get(Moved(other).value.1, i) == Err(OutOfBounds)
  {
  }

  /** copy_content: `src`'s elements overwrite the front of `dst`, whose
      size becomes `src`'s; refused when they do not fit. */
  function CopyContent<T>(dst: Array<T>, src: Array<T>): (r: Result<Array<T>, ArrayError>)
    requires Valid(dst) && Valid(src)
    ensures r.Err? <==> dst.capacity < src.size
    ensures r.Err? ==> r.error == CopyTooLarge
    ensures r.Ok? ==> Valid(r.value) && r.value.capacity == dst.capacity && r.value.multiplier == dst.multiplier
    ensures r.Ok? ==> Elements(r.value) == Elements(src)
    ensures r.Ok? ==> r.value.store[src.size..] == dst.store[src.size..]
  {
    if dst.capacity < src.size then Err(CopyTooLarge)
    else
      var r := dst.(store := Elements(src) + dst.store[src.size..], size := src.size);
      assert Elements(r) == Elements(src);
      Ok(r)
  }

  /** Move into a fresh allocation of `n` slots: Array(n) with the size
      set back, the multiplier carried over, copy_content, then move. */
  function Relocate<T>(a: Array<T>, n: nat, blank: T): (r: Array<T>)
    requires Valid(a) && a.size <= n
    ensures Valid(r) && r.capacity == n && r.multiplier == a.multiplier
    ensures Length(r) == Length(a) && Elements(r) == Elements(a)
  {
    var block := Array(n, a.size, Blanks(n, blank), a.multiplier);
    CopyContent(block, a).value
  }

  /** reserve: grow the allocation to `n` slots when it is smaller. */
  function Reserve<T>(a: Array<T>, n: nat, blank: T): (r: Array<T>)
    requires Valid(a)
    ensures Valid(r) && Length(r) == Length(a) && Elements(r) == Elements(a)
    ensures r.multiplier == a.multiplier
    ensures a.capacity < n ==> r.capacity == n
    ensures n <= a.capacity ==> r == a
  {
    if a.capacity < n then Relocate(a, n, blank) else a
  }

  /** resize: within the capacity only the size changes; beyond it the
      array is reserved and the size left alone. */
  function Resize<T>(a: Array<T>, n: nat, blank: T): (r: Array<T>)
    requires Valid(a)
    ensures Valid(r)
    ensures n <= a.capacity ==> Length(r) == n && r.store == a.store && r.capacity == a.capacity
    ensures a.capacity < n ==> Length(r) == Length(a) && Elements(r) == Elements(a) && r.capacity == n
    ensures r.multiplier == a.multiplier
  {
    if n <= a.capacity then a.(size := n) else Reserve(a, n, blank)
  }

  /** The branch of push_back that has room: the value goes into the next slot. */
  function Place<T>(a: Array<T>, t: T): (r: Array<T>)
    requires Valid(a) && a.size < a.capacity
    ensures Valid(r) && r.capacity == a.capacity && r.multiplier == a.multiplier
    ensures Length(r) == Length(a) + 1 && Elements(r) == Elements(a) + [t]
  {
    var r := a.(store := a.store[a.size := t], size := a.size + 1);
    assert Elements(r) == Elements(a) + [t];
    r
  }

  /** The capacity push_back moves to when it needs room. */
  function GrownCapacity<T>(a: Array<T>): nat {
    if a.capacity == 0 then 1 else a.capacity * a.multiplier
  }

  /** push_back: an empty allocation is reserved to one slot, a full one
      grows by the multiplier, and the value is appended. */
  function PushBack<T>(a: Array<T>, t: T, blank: T): (r: Array<T>)
    requires Valid(a)
    ensures Valid(r) && Length(r) == Length(a) + 1
    ensures Elements(r) == Elements(a) + [t]
    ensures r.multiplier == a.multiplier
    ensures a.size < a.capacity ==> r.capacity == a.capacity
    ensures a.size == a.capacity ==> r.capacity == GrownCapacity(a)
  {
    var roomy := if a.capacity == 0 then Reserve(a, 1, blank)
                 else if a.size < a.capacity then a
                 else Relocate(a, a.capacity * a.multiplier, blank);
    Place(roomy, t)
  }

  // ---------------------------------------------------------------------
  // Properties relating the operations
  // ---------------------------------------------------------------------

  /** The pushed value is read back at the old size; earlier reads are unchanged. */
  lemma PushBackThenGet<T>(a: Array<T>, t: T, blank: T, i: nat)
    requires Valid(a)
    ensures Get(PushBack(a, t, blank), Length(a)) == Ok(t)
    ensures i < Length(a) ==> Get(PushBack(a, t, blank), i) == Get(a, i)
    ensures i > Length(a) ==> Get(PushBack(a, t, blank), i) == Err(OutOfBounds)
  {
  }

  /** Set then Get at the same index reads the value; other indices are untouched. */
  lemma SetThenGet<T>(a: Array<T>, i: nat, v: T, k: nat)
    requires Valid(a) && i < Length(a)
    ensures Get(Set(a, i, v).value, i) == Ok(v)
    ensures k != i ==> Get(Set(a, i, v).value, k) == Get(a, k)
  {
  }

  /** Shrinking within the capacity loses nothing: resizing back restores the array. */
  lemma ResizeShrinkRestores<T>(a: Array<T>, k: nat, blank: T)
    requires Valid(a) && k <= a.size
    ensures Resize(Resize(a, k, blank), a.size, blank) == a
    ensures Elements(Resize(a, k, blank)) == Elements(a)[..k]
  {
  }

  /** reserve is idempotent. */
  lemma ReserveIdempotent<T>(a: Array<T>, n: nat, blank: T)
    requires Valid(a)
    ensures Reserve(Reserve(a, n, blank), n, blank) == Reserve(a, n, blank)
  {
  }

  /** Copying an array's content into itself changes nothing. */
  lemma CopyContentSelf<T>(a: Array<T>)
    requires Valid(a)
    ensures CopyContent(a, a) == Ok(a)
  {
    assert Elements(a) + a.store[a.size..] == a.store;
  }

  /** A sequence of push_backs, the way callers fill an array. */
  function PushAll<T>(a: Array<T>, xs: seq<T>, blank: T): (r: Array<T>)
    requires Valid(a)
    ensures Valid(r)
    decreases |xs|
  {
    if |xs| == 0 then a else PushAll(PushBack(a, xs[0], blank), xs[1..], blank)
  }

  /** Pushing values appends exactly those values, in order. */
  lemma {:induction false} PushAllElements<T>(a: Array<T>, xs: seq<T>, blank: T)
    requires Valid(a)
    ensures Elements(PushAll(a, xs, blank)) == Elements(a) + xs
    ensures Length(PushAll(a, xs, blank)) == Length(a) + |xs|
    decreases |xs|
  {
    if |xs| == 0 {
      assert Elements(a) + xs == Elements(a);
    } else {
      PushAllElements(PushBack(a, xs[0], blank), xs[1..], blank);
      assert Elements(a) + [xs[0]] + xs[1..] == Elements(a) + xs;
    }
  }

  /** Filling an empty array by push_back gives the elements of the
      initializer-list constructor. */
  lemma PushAllMatchesFromList<T>(xs: seq<T>, blank: T)
    ensures Elements(PushAll(Empty(), xs, blank)) == Elements(FromList(xs))
  {
    PushAllElements(Empty(), xs, blank);
  }

  /** With multiplier 2, pushes keep the capacity a power of two that the
      size more than half fills. */
  lemma {:induction false} DoublingCapacity<T>(a: Array<T>, xs: seq<T>, blank: T, p: nat)
    requires Valid(a) && a.multiplier == DEFAULT_MULTIPLIER
    requires a.size <= a.capacity == Pow2(p) && (p > 0 ==> Pow2(p - 1) < a.size)
    ensures var r := PushAll(a, xs, blank);
      exists q: nat :: r.capacity == Pow2(q) && r.size <= r.capacity && (q > 0 ==> Pow2(q - 1) < r.size)
    decreases |xs|
  {
    if |xs| > 0 {
      var b := PushBack(a, xs[0], blank);
      if a.size < a.capacity {
        DoublingCapacity(b, xs[1..], blank, p);
      } else {
        assert b.capacity == Pow2(p + 1);
        DoublingCapacity(b, xs[1..], blank, p + 1);
      }
    } else {
      assert PushAll(a, xs, blank) == a;
    }
  }

  /** From an empty array with multiplier 2, n > 0 pushes leave a capacity
      that is the least power of two not below n. */
  lemma DoublingFromEmpty<T>(xs: seq<T>, blank: T)
    requires |xs| > 0
    ensures var r := PushAll(Empty(), xs, blank);
      exists q: nat :: r.capacity == Pow2(q) && |xs| <= r.capacity && (q > 0 ==> Pow2(q - 1) < |xs|)
  {
    var a := PushBack(Empty(), xs[0], blank);
    assert a.capacity == Pow2(0);
    DoublingCapacity(a, xs[1..], blank, 0);
    PushAllElements(Empty(), xs, blank);
  }

  function Pow2(p: nat): (r: nat)
    ensures r >= 1
  {
    if p == 0 then 1 else 2 * Pow2(p - 1)
  }
}

=== FILE: line_locator.dfy ===
/**
 * Turning a match position in the concatenated text of a pattern search
 * into a (line, word) pair, both counted from 1.
 *
 * `summarize` turns the number of words on each line into the positions
 * where lines start, with a leading 0 and the total at the end, in
 * uint32_t arithmetic. The locator then finds, with std::upper_bound, the
 * last line start not after the position. The test oracle does the same
 * with Python's bisect_right over the line starts.
 */
module LineLocator {
  import opened Common

  const U32_MODULUS: nat := 0x1_0000_0000

  /** uint32_t, the type of the word counts and their sums. */
  type U32 = x: nat | x < U32_MODULUS

  /** The sum of two uint32_t values reduced into uint32_t: unsigned
      addition wraps, and such a sum is below twice the modulus. */
  function Wrap(x: nat): (r: U32)
    requires x < 2 * U32_MODULUS
  {
    if x < U32_MODULUS then x else x - U32_MODULUS
  }

  predicate Sorted(w: seq<nat>) {
    forall i, j :: 0 <= i <= j < |w| ==> w[i] <= w[j]
  }

  // ---------------------------------------------------------------------
  // summarize
  // ---------------------------------------------------------------------

  /** Entry i of summarize's result: the wrapped sum of the first i counts. */
  function Prefix(v: seq<U32>, i: nat): U32
    requires i <= |v|
  {
    if i == 0 then 0 else Wrap(Prefix(v, i - 1) as nat + v[i - 1])
  }

  /** While the total fits in 32 bits, no partial sum wraps. */
  lemma {:induction false} PrefixNoWrap(v: seq<U32>, i: nat)
    requires i <= |v| && Total(v) < U32_MODULUS
    ensures Prefix(v, i) == Total(v[..i])
    decreases i
  {
    if i > 0 {
      PrefixNoWrap(v, i - 1);
      TotalStep(v, i - 1);
      TotalMonotone(v, i, |v|);
      assert v[..|v|] == v;
    }
  }

  /** summarize: a leading 0, then the running sums of the counts. */
  method Summarize(v: seq<U32>) returns (s: seq<U32>)
    ensures |s| == |v| + 1 && s[0] == 0
    ensures forall i :: 1 <= i < |s| ==> s[i] == Wrap(s[i - 1] as nat + v[i - 1])
    ensures s == PrefixSums(v)
  {
    s := [0] + v;
    var i := 1;
    while i < |s|
      invariant 1 <= i <= |s| == |v| + 1
      invariant forall j :: 0 <= j < i ==> s[j] == Prefix(v, j)
      invariant forall j :: i <= j < |s| ==> s[j] == v[j - 1]
    {
      s := s[i := Wrap(s[i] as nat + s[i - 1])];
      i := i + 1;
    }
    assert s == PrefixSums(v);
    PrefixSumsStep(v);
  }

  /** The result of summarize, as a value. */
  function PrefixSums(v: seq<U32>): (s: seq<nat>)
    ensures |s| == |v| + 1
    ensures forall i :: 0 <= i < |s| ==> s[i] == Prefix(v, i)
  {
    seq(|v| + 1, i requires 0 <= i <= |v| => Prefix(v, i))
  }

  /** Each entry of the result is the previous one plus the next count,
      wrapped into 32 bits. */
  lemma PrefixSumsStep(v: seq<U32>)
    ensures forall i :: 1 <= i <= |v| ==>
      PrefixSums(v)[i] == Wrap(PrefixSums(v)[i - 1] as nat + v[i - 1])
  {
    var s := PrefixSums(v);
    forall i | 1 <= i <= |v|
      ensures s[i] == Wrap(s[i - 1] as nat + v[i - 1])
    {
      assert s[i] == Prefix(v, i);
      assert s[i - 1] == Prefix(v, i - 1);
    }
  }

  /** Without wrap-around the line starts are the sums of the counts before
      each line, in order. */
  lemma PrefixSumsNoWrap(v: seq<U32>)
    requires Total(v) < U32_MODULUS
    ensures Sorted(PrefixSums(v)) && PrefixSums(v)[0] == 0 && PrefixSums(v)[|v|] == Total(v)
    ensures forall i :: 0 <= i <= |v| ==> PrefixSums(v)[i] == Total(v[..i])
  {
    var s := PrefixSums(v);
    forall i | 0 <= i <= |v|
      ensures s[i] == Total(v[..i])
    {
      PrefixNoWrap(v, i);
    }
    forall i, j | 0 <= i <= j < |s|
      ensures s[i] <= s[j]
    {
      TotalMonotone(v, i, j);
    }
    assert v[..|v|] == v;
  }

  // ---------------------------------------------------------------------
  // Searching: the count of entries not above x, and two binary searches
  // ---------------------------------------------------------------------

  /** How many entries of `w` are at most `x`; in a sorted `w`, the index
      of the first entry greater than `x`. */
  function CountAtMost(w: seq<nat>, x: nat): nat {
    if |w| == 0 then 0
    else CountAtMost(w[..|w| - 1], x) + (if w[|w| - 1] <= x then 1 else 0)
  }

  /** In a sorted sequence, a split point with every entry before it at most
      x and every entry from it on above x is the count of entries at most x. */
  lemma {:induction false} SplitIsCount(w: seq<nat>, x: nat, i: nat)
    requires i <= |w|
    requires forall j :: 0 <= j < i ==> w[j] <= x
    requires forall j :: i <= j < |w| ==> x < w[j]
    ensures CountAtMost(w, x) == i
    decreases |w|
  {
    if |w| > 0 {
      if i == |w| {
        SplitIsCount(w[..|w| - 1], x, i - 1);
      } else {
        SplitIsCount(w[..|w| - 1], x, i);
      }
    }
  }

  /** std::upper_bound: halve the candidate range, moving past the middle
      when it is not greater than `x`. */
  method UpperBound(w: seq<nat>, x: nat) returns (first: nat)
    requires Sorted(w)
    ensures first <= |w|
    ensures forall j :: 0 <= j < first ==> w[j] <= x
    ensures forall j :: first <= j < |w| ==> x < w[j]
    ensures first == CountAtMost(w, x)
  {
    first := 0;
    var len: nat := |w|;
    while len > 0
      invariant first + len <= |w|
      invariant forall j :: 0 <= j < first ==> w[j] <= x
      invariant forall j :: first + len <= j < |w| ==> x < w[j]
    {
      var half := len / 2;
      var middle := first + half;
      if x < w[middle] {
        len := half;
      } else {
        first := middle + 1;
        len := len - half - 1;
      }
    }
    SplitIsCount(w, x, first);
  }

  /** Python's bisect.bisect_right on a[lo..hi]. */
  function BisectRight(a: seq<nat>, x: nat, lo: nat, hi: nat): nat
    requires lo <= hi <= |a|
    decreases hi - lo
  {
    if lo < hi then
      var mid := (lo + hi) / 2;
      if x < a[mid] then BisectRight(a, x, lo, mid) else BisectRight(a, x, mid + 1, hi)
    else lo
  }

  /** On a sorted list, bisect_right is the count of entries at most x. */
  lemma {:induction false} BisectRightCounts(a: seq<nat>, x: nat, lo: nat, hi: nat)
    requires Sorted(a) && lo <= hi <= |a|
    requires forall j :: 0 <= j < lo ==> a[j] <= x
    requires forall j :: hi <= j < |a| ==> x < a[j]
    ensures BisectRight(a, x, lo, hi) == CountAtMost(a, x)
    decreases hi - lo
  {
    if lo < hi {
      var mid := (lo + hi) / 2;
      if x < a[mid] {
        BisectRightCounts(a, x, lo, mid);
      } else {
        BisectRightCounts(a, x, mid + 1, hi);
      }
    } else {
      SplitIsCount(a, x, lo);
    }
  }

  /** In a sorted list starting at 0, some entry is at most any x. */
  lemma CountFromZero(a: seq<nat>, x: nat)
    requires Sorted(a) && |a| > 0 && a[0] == 0
    ensures 1 <= CountAtMost(a, x) <= |a|
    ensures a[CountAtMost(a, x) - 1] <= x
    ensures CountAtMost(a, x) < |a| ==> x < a[CountAtMost(a, x)]
  {
    BisectRightCounts(a, x, 0, |a|);
    var n := BisectRight(a, x, 0, |a|);
    SplitPoint(a, x);
  }

  /** In a sorted list, the entries at most x come first. */
  lemma {:induction false} SplitPoint(a: seq<nat>, x: nat)
    requires Sorted(a)
    ensures CountAtMost(a, x) <= |a|
    ensures forall j :: 0 <= j < CountAtMost(a, x) ==> a[j] <= x
    ensures forall j :: CountAtMost(a, x) <= j < |a| ==> x < a[j]
    decreases |a|
  {
    if |a| > 0 {
      var a' := a[..|a| - 1];
      assert Sorted(a');
      SplitPoint(a', x);
    }
  }

  // ---------------------------------------------------------------------
  // getLineAndWordFromOccurence and the test oracle
  // ---------------------------------------------------------------------

  /** lineifyTest for one position: the line before bisect_right's insertion
      point, and the offset from that line's start, both plus one. */
  function Lineify(linePositions: seq<nat>, position: nat): (r: (nat, nat))
    requires Sorted(linePositions) && |linePositions| > 0 && linePositions[0] == 0
  {
    var nextLineIndex := BisectRight(linePositions, position, 0, |linePositions|);
    BisectRightCounts(linePositions, position, 0, |linePositions|);
    CountFromZero(linePositions, position);
    var currentLineIndex := nextLineIndex - 1;
    (currentLineIndex + 1, position - linePositions[currentLineIndex] + 1)
  }

  /** getLineAndWordFromOccurence: the last line start not after the
      occurrence, found as one before upper_bound, and the offset from it;
      both counted from 1. */
  method GetLineAndWord(occurence: nat, wordsTillLine: seq<nat>) returns (line: nat, word: nat)
    requires Sorted(wordsTillLine) && |wordsTillLine| > 0 && wordsTillLine[0] == 0
    ensures 1 <= line <= |wordsTillLine| && 1 <= word
    ensures wordsTillLine[line - 1] <= occurence
    ensures line < |wordsTillLine| ==> occurence < wordsTillLine[line]
    ensures word == occurence - wordsTillLine[line - 1] + 1
    ensures (line, word) == Lineify(wordsTillLine, occurence)
  {
    var lineIt := UpperBound(wordsTillLine, occurence);
    CountFromZero(wordsTillLine, occurence);
    BisectRightCounts(wordsTillLine, occurence, 0, |wordsTillLine|);
    lineIt := lineIt - 1;
    line := lineIt;
    word := occurence - wordsTillLine[line];
    line, word := line + 1, word + 1;
  }

  /** lineifyTest names the line whose start is the last one not after the
      position: one past it starts after the position, or there is none. */
  lemma LineifyIsLastStart(lp: seq<nat>, position: nat)
    requires Sorted(lp) && |lp| > 0 && lp[0] == 0
    ensures var n := CountAtMost(lp, position);
      1 <= n <= |lp| && Lineify(lp, position) == (n, position - lp[n - 1] + 1)
  {
    BisectRightCounts(lp, position, 0, |lp|);
    CountFromZero(lp, position);
  }

  /** lineifyTest: every pattern position turned into its (line, word) pair. */
  function LineifyTest(linePositions: seq<nat>, positions: seq<nat>): (r: seq<(nat, nat)>)
    requires Sorted(linePositions) && |linePositions| > 0 && linePositions[0] == 0
    ensures |r| == |positions|
    ensures forall k :: 0 <= k < |r| ==> r[k] == Lineify(linePositions, positions[k])
  {
    if |positions| == 0 then []
    else
      var last := Lineify(linePositions, positions[|positions| - 1]);
      LineifyTest(linePositions, positions[..|positions| - 1]) + [last]
  }

  /** The loop of main over the matches: each occurrence located in turn.
      The pairs are the ones the test oracle computes. */
  method LocateAll(occurences: seq<nat>, wordsTillLine: seq<nat>) returns (r: seq<(nat, nat)>)
    requires Sorted(wordsTillLine) && |wordsTillLine| > 0 && wordsTillLine[0] == 0
    ensures r == LineifyTest(wordsTillLine, occurences)
  {
    r := [];
    var k := 0;
    while k < |occurences|
      invariant k <= |occurences|
      invariant r == LineifyTest(wordsTillLine, occurences[..k])
    {
      var line, word := GetLineAndWord(occurences[k], wordsTillLine);
      assert occurences[..k + 1][..k] == occurences[..k];
      r := r + [(line, word)];
      k := k + 1;
    }
    assert occurences[..k] == occurences;
  }

  /** An occurrence before the end of the text falls in the line the locator
      names: that line is not empty, and the word lies within it. */
  lemma LineContains(v: seq<U32>, occurence: nat)
    requires Total(v) < U32_MODULUS && occurence < Total(v)
    ensures Sorted(PrefixSums(v))
    ensures var (line, word) := Lineify(PrefixSums(v), occurence);
      1 <= line <= |v| &&
      Total(v[..line - 1]) <= occurence < Total(v[..line]) &&
      0 < v[line - 1] && 1 <= word <= v[line - 1]
  {
    PrefixSumsNoWrap(v);
    var w := PrefixSums(v);
    LineifyIsLastStart(w, occurence);
    CountFromZero(w, occurence);
    var line := CountAtMost(w, occurence);
    TotalStep(v, line - 1);
  }

  /** Dropping a last entry above x does not change the count of entries
      at most x. */
  lemma CountDropAbove(w: seq<nat>, x: nat)
    requires |w| > 0 && x < w[|w| - 1]
    ensures CountAtMost(w[..|w| - 1], x) == CountAtMost(w, x)
  {
  }

  /** A last entry above the position does not change lineifyTest's answer. */
  lemma LineifyDropLast(lp: seq<nat>, position: nat)
    requires Sorted(lp) && |lp| > 1 && lp[0] == 0 && position < lp[|lp| - 1]
    ensures Sorted(lp[..|lp| - 1])
    ensures Lineify(lp, position) == Lineify(lp[..|lp| - 1], position)
  {
    var starts := lp[..|lp| - 1];
    assert Sorted(starts);
    CountDropAbove(lp, position);
    LineifyIsLastStart(lp, position);
    LineifyIsLastStart(starts, position);
  }

  /** Python's oracle searches the line starts only, without the total at
      the end; for an occurrence inside the text both give the same pair. */
  lemma OracleAgrees(v: seq<U32>, occurence: nat)
    requires Total(v) < U32_MODULUS && occurence < Total(v)
    ensures |v| > 0
    ensures Sorted(PrefixSums(v)) && Sorted(PrefixSums(v)[..|v|])
    ensures Lineify(PrefixSums(v), occurence) == Lineify(PrefixSums(v)[..|v|], occurence)
  {
    assert |v| > 0;
    PrefixSumsNoWrap(v);
    LineifyDropLast(PrefixSums(v), occurence);
  }
}

=== FILE: rb_codec.dfy ===
/**
 * The text form of a tree (saveInStream / readFromStream) and structural
 * equality (operator== / subtreesEqual).
 *
 * A present node is written as "(value, colour)" with the colour as its
 * enumerator number (0 black, 1 red), an absent one as "N", in pre-order.
 * Reading takes each node's separators on trust: whatever character stands
 * in a separator's place is consumed, and any colour character other than
 * '0' is red.
 */
module Codec {
  import opened Common
  import opened RBTrees
  import opened Decimal

  function ColorDigit(c: Color): char {
    if c == Black then '0' else '1'
  }

  /** Node::print. */
  function NodeText(c: Color, v: int): string {
    "(" + IntToString(v) + ", " + [ColorDigit(c)] + ")"
  }

  /** saveInStream: pre-order, "N" for each absent child. */
  function Encode(t: Tree): string {
    match t
    case Leaf => "N"
    case Node(c, l, v, r) => NodeText(c, v) + Encode(l) + Encode(r)
  }

  /** `is >> ch` for a char: skips white space and takes one character. */
  function ReadChar(s: string): (r: Option<(char, string)>)
    ensures r.Some? ==> |r.value.1| < |s|
  {
    var t := SkipSpace(s);
    if |t| == 0 then None else Some((t[0], t[1..]))
  }

  /** What one call of Node::read finds: an absent node (the format
      character was 'N', which Node::read reports by throwing) or a node. */
  datatype NodeRead = Absent(rest: string) | Present(color: Color, value: int, rest: string)

  /** Node::read: format character, value, separator, colour character,
      closing character. None is a stream that ran dry or held no number
      where one was due. */
  function ReadNode(s: string): (r: Option<NodeRead>)
    ensures r.Some? ==> |r.value.rest| < |s|
  {
    var open := ReadChar(s);
    if open.None? then None
    else if open.value.0 == 'N' then Some(Absent(open.value.1))
    else
      var n := ParseInt(open.value.1);
      if n.None? then None else ReadColor(n.value.0, n.value.1)
  }

  /** The part of Node::read after the value: separator, colour, closing character. */
  function ReadColor(v: int, s: string): (r: Option<NodeRead>)
    ensures r.Some? ==> r.value.Present? && r.value.value == v && |r.value.rest| < |s|
    ensures r.Some? ==> ReadChar(s).Some? && ReadChar(ReadChar(s).value.1).Some?
    ensures r.Some? ==> r.value.color == (if ReadChar(ReadChar(s).value.1).value.0 == '0' then Black else Red)
  {
    var sep := ReadChar(s);
    if sep.None? then None
    else
      var cc := ReadChar(sep.value.1);
      if cc.None? then None
      else
        var close := ReadChar(cc.value.1);
        if close.None? then None
        else Some(Present(if cc.value.0 == '0' then Black else Red, v, close.value.1))
  }

  /** readSubtreeFromStream: a node, then its left and right subtrees. */
  function DecodeSubtree(s: string): (r: Option<(Tree, string)>)
    decreases |s|
    ensures r.Some? ==> |r.value.1| < |s|
  {
    match ReadNode(s)
    case None => None
    case Some(Absent(rest)) => Some((Leaf, rest))
    case Some(Present(c, v, s1)) =>
      match DecodeSubtree(s1)
      case None => None
      case Some((l, s2)) =>
        match DecodeSubtree(s2)
        case None => None
        case Some((r, s3)) => Some((Node(c, l, v, r), s3))
  }

  /** readFromStream: the tree read from the start of `s`, if any. */
  function Decode(s: string): Option<Tree> {
    match DecodeSubtree(s)
    case None => None
    case Some((t, _)) => Some(t)
  }

  lemma ReadCharHead(c: char, rest: string)
    requires !IsSpace(c)
    ensures ReadChar([c] + rest) == Some((c, rest))
  {
    assert SkipSpace([c] + rest) == [c] + rest;
  }

  lemma ReadCharAfterSpace(rest: string)
    ensures ReadChar([' '] + rest) == ReadChar(rest)
  {
    assert ([' '] + rest)[1..] == rest;
  }

  lemma NodeTextShape(c: Color, v: int, rest: string)
    ensures NodeText(c, v) + rest ==
      ['('] + (IntToString(v) + ([','] + ([' '] + ([ColorDigit(c)] + ([')'] + rest)))))
  {
  }

  lemma ReadColorChars(d: char, v: int, rest: string)
    requires !IsSpace(d)
    ensures ReadColor(v, [','] + ([' '] + ([d] + ([')'] + rest)))) == Some(Present(if d == '0' then Black else Red, v, rest))
  {
    var s4 := [')'] + rest;
    var s3 := [d] + s4;
    var s2 := [' '] + s3;
    ReadCharHead(',', s2);
    ReadCharAfterSpace(s3);
    ReadCharHead(d, s4);
    ReadCharHead(')', rest);
  }

  lemma ReadColorText(c: Color, v: int, rest: string)
    ensures ReadColor(v, [','] + ([' '] + ([ColorDigit(c)] + ([')'] + rest)))) == Some(Present(c, v, rest))
  {
    ReadColorChars(ColorDigit(c), v, rest);
  }

  lemma ReadNodeAfterOpen(s: string, body: string, v: int, tail: string, r: NodeRead)
    requires ReadChar(s) == Some(('(', body))
    requires ParseInt(body) == Some((v, tail))
    requires ReadColor(v, tail) == Some(r)
    ensures ReadNode(s) == Some(r)
  {
  }

  lemma ReadNodeText(c: Color, v: int, rest: string)
    ensures ReadNode(NodeText(c, v) + rest) == Some(Present(c, v, rest))
  {
    var tail := [','] + ([' '] + ([ColorDigit(c)] + ([')'] + rest)));
    var body := IntToString(v) + tail;
    var s := NodeText(c, v) + rest;
    assert ReadChar(s) == Some(('(', body)) by {
      NodeTextShape(c, v, rest);
      ReadCharHead('(', body);
    }
    assert ParseInt(body) == Some((v, tail)) by {
      ParseIntToString(v, tail);
    }
    assert ReadColor(v, tail) == Some(Present(c, v, rest)) by {
      ReadColorText(c, v, rest);
    }
    ReadNodeAfterOpen(s, body, v, tail, Present(c, v, rest));
  }

  /** Reading back what saveInStream wrote gives the same tree and leaves
      the text after it untouched. */
  lemma {:induction false} DecodeEncode(t: Tree, rest: string)
    ensures DecodeSubtree(Encode(t) + rest) == Some((t, rest))
    decreases t
  {
    match t
    case Leaf =>
      assert SkipSpace("N" + rest) == "N" + rest;
    case Node(c, l, v, r) =>
      DecodeEncode(l, Encode(r) + rest);
      DecodeEncode(r, rest);
      DecodeNodeText(c, l, v, r, rest);
  }

  lemma Regroup(a: string, b: string, c: string, d: string)
    ensures a + b + c + d == a + (b + (c + d))
  {
  }

  /** The node step: a node's text followed by both children's texts
      reads back as the node once each child reads back. */
  lemma DecodeNodeText(c: Color, l: Tree, v: int, r: Tree, rest: string)
    requires DecodeSubtree(Encode(l) + (Encode(r) + rest)) == Some((l, Encode(r) + rest))
    requires DecodeSubtree(Encode(r) + rest) == Some((r, rest))
    ensures DecodeSubtree(Encode(Node(c, l, v, r)) + rest) == Some((Node(c, l, v, r), rest))
  {
    var s1 := Encode(l) + (Encode(r) + rest);
    var s := Encode(Node(c, l, v, r)) + rest;
    assert s == NodeText(c, v) + s1 by {
      Regroup(NodeText(c, v), Encode(l), Encode(r), rest);
    }
    assert ReadNode(s) == Some(Present(c, v, s1)) by {
      ReadNodeText(c, v, s1);
    }
  }

  /** The whole text written for a tree reads back as that tree. */
  lemma DecodeSaved(t: Tree)
    ensures Decode(Encode(t)) == Some(t)
  {
    DecodeEncode(t, []);
    assert Encode(t) + [] == Encode(t);
  }

  /** Node::operator==: same colour and same value. */
  predicate NodesEqual(a: Tree, b: Tree)
    requires a.Node? && b.Node?
  {
    a.color == b.color && a.value == b.value
  }

  /** subtreesEqual: both absent, or both present with equal nodes and
      equal subtrees on both sides. */
  function SubtreesEqual(a: Tree, b: Tree): (r: bool)
    decreases a
  {
    if a.Node? != b.Node? then false
    else a.Leaf? || (NodesEqual(a, b) && SubtreesEqual(a.left, b.left) && SubtreesEqual(a.right, b.right))
  }

  /** Structural equality of the original is equality of tree values: same
      shape, same values, same colours. */
  lemma {:induction false} SubtreesEqualIsEquality(a: Tree, b: Tree)
    ensures SubtreesEqual(a, b) <==> a == b
    decreases a
  {
    if a.Node? && b.Node? {
      SubtreesEqualIsEquality(a.left, b.left);
      SubtreesEqualIsEquality(a.right, b.right);
    }
  }
}

=== FILE: rb_facade.dfy ===
/**
 * The public face of RBTree<T>: the root together with the `_size`
 * counter, and the operations a caller sees (find, add, remove, empty,
 * size, operator==, saveInStream, readFromStream).
 *
 * The counter is a 64-bit unsigned integer; `++` and `--` on it wrap
 * around, which is written out here.
 */
module TreeObject {
  import opened Common
  import opened RBTrees
  import Navigation
  import Insertion
  import Removal
  import Codec

  const U64_MODULUS: nat := 0x1_0000_0000_0000_0000

  type U64 = x: nat | x < U64_MODULUS

  /** `++` on a uint64_t. */
  function Inc(x: U64): (r: U64)
    ensures x + 1 < U64_MODULUS ==> r == x + 1
    ensures x + 1 == U64_MODULUS ==> r == 0
  {
    (x + 1) % U64_MODULUS
  }

  /** `--` on a uint64_t. */
  function Dec(x: U64): (r: U64)
    ensures x > 0 ==> r == x - 1
    ensures x == 0 ==> r == U64_MODULUS - 1
  {
    (x + U64_MODULUS - 1) % U64_MODULUS
  }

  lemma IncDec(x: U64)
    ensures Dec(Inc(x)) == x && Inc(Dec(x)) == x
  {
  }

  /** An RBTree object: the root and the node counter. */
  datatype RBTree = RBTree(root: Tree, size: U64)

  /** The counter agrees with the number of nodes. */
  predicate Counted(t: RBTree) {
    t.size == Size(t.root)
  }

  /** What every public operation keeps: a red-black tree with a correct counter. */
  predicate Valid(t: RBTree) {
    IsRBTree(t.root) && Counted(t)
  }

  /** The default constructor as written: the root is null and the counter
      is left uninitialised, so it holds whatever `garbage` was in memory. */
  function EmptyAsWritten(garbage: U64): (r: RBTree)
    ensures r.root == Leaf && r.size == garbage
    ensures Counted(r) <==> garbage == 0
  {
    RBTree(Leaf, garbage)
  }

  /** A constructed tree whose memory held 1 reports size 1 while holding no node. */
  lemma EmptyAsWrittenMiscounts()
    ensures IsEmpty(EmptyAsWritten(1)) && TreeSize(EmptyAsWritten(1)) == 1
    ensures !Counted(EmptyAsWritten(1))
  {
  }

  /** The default constructor with the counter started at zero. */
  function Empty(): (r: RBTree)
    ensures Valid(r) && IsEmpty(r) && TreeSize(r) == 0
  {
    RBTree(Leaf, 0)
  }

  /** RBTree::empty: no root. */
  predicate IsEmpty(t: RBTree) {
    t.root.Leaf?
  }

  /** RBTree::size: the counter. */
  function TreeSize(t: RBTree): (r: U64)
    ensures Counted(t) ==> r == RBTrees.Size(t.root)
  {
    t.size
  }

  /** On a counted tree, empty() and size() == 0 agree. */
  lemma EmptyIffSizeZero(t: RBTree)
    requires Counted(t)
    ensures IsEmpty(t) <==> TreeSize(t) == 0
  {
  }

  /** RBTree::find: the stored value equal to `v`, or NoSuchElement. */
  function Find(t: RBTree, v: int): (r: Result<int, TreeError>)
    ensures r.Err? ==> r.error == NoSuchElement
    ensures IsBST(t.root) ==> (r.Ok? <==> v in Keys(t.root))
    ensures r.Ok? ==> r.value == v
  {
    Navigation.Find(t.root, v)
  }

  /** RBTree::add: the value goes into the tree and the counter steps up;
      a value already present is refused with TreeHasGivenElement and
      the object is left as it was. */
  function Add(t: RBTree, v: int): (r: Result<RBTree, TreeError>)
    ensures IsBST(t.root) ==> (r.Err? <==> v in Keys(t.root))
    ensures r.Err? ==> r.error == TreeHasGivenElement
    ensures r.Ok? ==> r.value.size == Inc(t.size)
  {
    match Insertion.Add(t.root, v)
    case Err(e) => Err(e)
    case Ok(root) => Ok(RBTree(root, Inc(t.size)))
  }

  /** RBTree::remove: the stored value equal to `v` comes out and the
      counter steps down; an empty tree is TreeEmpty, a missing value
      NoSuchElement. */
  function Remove(t: RBTree, v: int): (r: Result<(RBTree, int), TreeError>)
    ensures IsEmpty(t) ==> r == Err(TreeEmpty)
    ensures !IsEmpty(t) && IsBST(t.root) ==> (r.Ok? <==> v in Keys(t.root))
    ensures !IsEmpty(t) && r.Err? ==> r.error == NoSuchElement
    ensures r.Ok? ==> r.value.1 == v && r.value.0.size == Dec(t.size)
  {
    match Removal.Remove(t.root, v)
    case Err(e) => Err(e)
    case Ok((root, x)) => Ok((RBTree(root, Dec(t.size)), x))
  }

  /** Adding to an empty tree gives a single black root and a count of one. */
  lemma AddToEmpty(v: int)
    ensures Add(Empty(), v) == Ok(RBTree(Node(Black, Leaf, v, Leaf), 1))
    ensures Valid(Add(Empty(), v).value)
  {
  }

  /** Adding a value not yet present keeps the object valid, adds exactly
      that value and counts it, as long as the counter does not wrap. */
  lemma AddKeepsValid(t: RBTree, v: int)
    requires Valid(t) && v !in Keys(t.root)
    requires t.size + 1 < U64_MODULUS
    ensures Add(t, v).Ok?
    ensures Valid(Add(t, v).value)
    ensures Keys(Add(t, v).value.root) == Keys(t.root) + {v}
  {
    Insertion.AddPreservesRBTree(t.root, v);
  }

  /** Removing a present value keeps the object valid and takes out
      exactly that value. */
  lemma RemoveKeepsValid(t: RBTree, v: int)
    requires Valid(t) && v in Keys(t.root)
    ensures Remove(t, v).Ok? && Remove(t, v).value.1 == v
    ensures Valid(Remove(t, v).value.0)
    ensures Keys(Remove(t, v).value.0.root) == Keys(t.root) - {v}
  {
    Removal.RemovePreservesRBTree(t.root, v);
  }

  /** A value added and then removed leaves the same set of values and the
      same count behind. */
  lemma AddThenRemove(t: RBTree, v: int)
    requires Valid(t) && v !in Keys(t.root)
    requires t.size + 1 < U64_MODULUS
    ensures Add(t, v).Ok?
    ensures Remove(Add(t, v).value, v).Ok?
    ensures Keys(Remove(Add(t, v).value, v).value.0.root) == Keys(t.root)
    ensures TreeSize(Remove(Add(t, v).value, v).value.0) == TreeSize(t)
  {
    AddKeepsValid(t, v);
    RemoveKeepsValid(Add(t, v).value, v);
  }

  /** A missing value removed or a present one added changes nothing. */
  lemma RefusalsLeaveTree(t: RBTree, v: int)
    requires Valid(t)
    ensures v in Keys(t.root) ==> Add(t, v) == Err(TreeHasGivenElement)
    ensures v !in Keys(t.root) ==>
      Remove(t, v) == Err(if IsEmpty(t) then TreeEmpty else NoSuchElement)
  {
  }

  /** RBTree::operator==: the trees match node for node; the counters are
      not compared. */
  function Equal(a: RBTree, b: RBTree): (r: bool)
    ensures r <==> a.root == b.root
  {
    Codec.SubtreesEqualIsEquality(a.root, b.root);
    Codec.SubtreesEqual(a.root, b.root)
  }

  /** RBTree::saveInStream. */
  function Save(t: RBTree): string {
    Codec.Encode(t.root)
  }

  /** readFromStream as written: the root is read, but the counter of the
      freshly constructed tree is never set, so it keeps `garbage`. */
  function ReadAsWritten(s: string, garbage: U64): (r: Option<RBTree>)
    ensures r.Some? <==> Codec.Decode(s).Some?
    ensures r.Some? ==> r.value == RBTree(Codec.Decode(s).value, garbage)
  {
    var root := Codec.Decode(s);
    if root.None? then None else Some(RBTree(root.value, garbage))
  }

  /** Saving a one-node tree and reading it back into memory that held 0
      gives a tree that holds a node and reports size 0. */
  lemma ReadAsWrittenMiscounts()
    ensures var t := RBTree(Node(Black, Leaf, 8, Leaf), 1);
      Valid(t) &&
      ReadAsWritten(Save(t), 0).Some? &&
      !Counted(ReadAsWritten(Save(t), 0).value)
  {
    var root := Node(Black, Leaf, 8, Leaf);
    var t := RBTree(root, 1);
    assert Valid(t) by {
      assert Size(root) == 1;
      assert IsRBTree(root);
    }
    assert ReadAsWritten(Save(t), 0) == Some(RBTree(root, 0)) by {
      Codec.DecodeSaved(root);
    }
    assert Size(root) == 1;
  }

  /** readFromStream with the counter set to the number of nodes read
      (modulo 2^64, as a uint64_t holds it). */
  function Read(s: string): (r: Option<RBTree>)
    ensures r.Some? <==> Codec.Decode(s).Some?
    ensures r.Some? ==> r.value.root == Codec.Decode(s).value
    ensures r.Some? && RBTrees.Size(r.value.root) < U64_MODULUS ==> Counted(r.value)
  {
    var root := Codec.Decode(s);
    if root.None? then None
    else
      var n := RBTrees.Size(root.value);
      Some(RBTree(root.value, if n < U64_MODULUS then n else n % U64_MODULUS))
  }

  /** What saveInStream writes, readFromStream reads back as the same object. */
  lemma ReadSave(t: RBTree)
    requires Counted(t)
    ensures Read(Save(t)) == Some(t)
  {
    Codec.DecodeSaved(t.root);
  }
}

=== FILE: rb_insert.dfy ===
/**
 * Insertion (AdditionMethodImplementation): the new value is hung as a red
 * leaf below the node where the search for it runs out, and the
 * red-parent/red-child conflicts this can create are repaired bottom-up by
 * recolouring or by one or two rotations.
 */
module Insertion {
  import opened Common
  import opened RBTrees
  import opened Rotation

  /** A node as makeNode(RED, v) creates it. */
  function NewRedLeaf(v: int): Tree {
    Node(Red, Leaf, v, Leaf)
  }

  /** Reference definition: insertion into a binary search tree without any
      rebalancing; a value already present leaves the tree unchanged. */
  function BSTInsert(t: Tree, v: int): Tree
    decreases t
  {
    match t
    case Leaf => NewRedLeaf(v)
    case Node(c, l, x, r) =>
      if x == v then t
      else if x < v then Node(c, l, x, BSTInsert(r, v))
      else Node(c, BSTInsert(l, v), x, r)
  }

  /** Plain BST insertion of a new value adds exactly that value. */
  lemma {:induction false} BSTInsertKeys(t: Tree, v: int)
    requires v !in Keys(t)
    ensures Keys(BSTInsert(t, v)) == Keys(t) + {v}
    ensures Size(BSTInsert(t, v)) == Size(t) + 1
    decreases t
  {
    match t
    case Leaf =>
      assert Inorder(NewRedLeaf(v)) == [v];
    case Node(c, l, x, r) =>
      KeysNode(c, l, x, r);
      if x < v {
        BSTInsertKeys(r, v);
        KeysNode(c, l, x, BSTInsert(r, v));
      } else {
        BSTInsertKeys(l, v);
        KeysNode(c, BSTInsert(l, v), x, r);
      }
  }

  /** Plain BST insertion keeps BST order. */
  lemma {:induction false} BSTInsertOrder(t: Tree, v: int)
    requires IsBST(t) && v !in Keys(t)
    ensures IsBST(BSTInsert(t, v))
    decreases t
  {
    match t
    case Leaf =>
      assert Inorder(NewRedLeaf(v)) == [v];
    case Node(c, l, x, r) =>
      BSTNode(c, l, x, r);
      KeysNode(c, l, x, r);
      if x < v {
        BSTInsertOrder(r, v);
        BSTInsertKeys(r, v);
        BSTNode(c, l, x, BSTInsert(r, v));
      } else {
        BSTInsertOrder(l, v);
        BSTInsertKeys(l, v);
        BSTNode(c, BSTInsert(l, v), x, r);
      }
  }

  /** The child of `n` on the side where `v` belongs. */
  function ChildTowards(n: Tree, v: int): Tree
    requires n.Node?
  {
    if n.value < v then n.right else n.left
  }

  /** findLeafParentInSubtree: descends from the focus towards `v` and stops
      at the first node whose child on `v`'s side is absent. An absent start
      is TreeEmpty; meeting `v` on the way is NoLeafParentElement. */
  function FindLeafParent(z: Zipper, v: int): (r: Result<Zipper, TreeError>)
    decreases z.focus
    ensures z.focus.Leaf? ==> r == Err(TreeEmpty)
    ensures z.focus.Node? && r.Err? ==> r.error == NoLeafParentElement
    ensures z.focus.Node? && IsBST(z.focus) ==> (r.Err? <==> v in Keys(z.focus))
    ensures r.Ok? ==> Rebuild(r.value) == Rebuild(z) && r.value.focus.Node?
    ensures r.Ok? ==> r.value.focus.value != v && ChildTowards(r.value.focus, v).Leaf?
    ensures r.Ok? ==> Plug(BSTInsert(r.value.focus, v), r.value.path) == Plug(BSTInsert(z.focus, v), z.path)
  {
    match z.focus
    case Leaf => Err(TreeEmpty)
    case Node(c, l, x, rt) =>
      BSTNode(c, l, x, rt);
      KeysNode(c, l, x, rt);
      if x == v then Err(NoLeafParentElement)
      else if x < v then
        if rt.Leaf? then Ok(z) else FindLeafParent(Down(z, Right), v)
      else
        if l.Leaf? then Ok(z) else FindLeafParent(Down(z, Left), v)
  }

  /** addNodeToLeaf with addNodeToLeftLeaf / addNodeToRightLeaf: hangs a new
      red node on the side of `zp`'s node chosen by comparing values; the
      result is focused on the new node. An equal value or an occupied slot
      is TreeHasGivenElement. */
  function AddNodeToLeaf(zp: Zipper, v: int): (r: Result<Zipper, TreeError>)
    requires zp.focus.Node?
    ensures r.Err? <==> zp.focus.value == v || ChildTowards(zp.focus, v).Node?
    ensures r.Err? ==> r.error == TreeHasGivenElement
    ensures r.Ok? ==> r.value.focus == NewRedLeaf(v) && r.value.path.Frame?
    ensures r.Ok? ==> Rebuild(r.value) == Plug(BSTInsert(zp.focus, v), zp.path)
    ensures r.Ok? ==> Plug(Leaf, r.value.path) == Rebuild(zp)
  {
    var n := zp.focus;
    if n.value == v then Err(TreeHasGivenElement)
    else if n.value < v then
      if n.right.Leaf? then Ok(Zipper(NewRedLeaf(v), Frame(Right, n.color, n.value, n.left, zp.path)))
      else Err(TreeHasGivenElement)
    else
      if n.left.Leaf? then Ok(Zipper(NewRedLeaf(v), Frame(Left, n.color, n.value, n.right, zp.path)))
      else Err(TreeHasGivenElement)
  }

  /** addToLeafOfSubtree: TreeEmpty passes through, every other failure
      becomes TreeHasGivenElement. */
  function AddToLeafOfSubtree(t: Tree, v: int): (r: Result<Zipper, TreeError>)
    ensures t.Leaf? ==> r == Err(TreeEmpty)
    ensures t.Node? && r.Err? ==> r.error == TreeHasGivenElement
    ensures t.Node? && IsBST(t) ==> (r.Err? <==> v in Keys(t))
    ensures r.Ok? ==> r.value.focus == NewRedLeaf(v) && r.value.path.Frame?
    ensures r.Ok? ==> Rebuild(r.value) == BSTInsert(t, v) && Plug(Leaf, r.value.path) == t
  {
    match FindLeafParent(Zipper(t, Top), v)
    case Err(e) => if e == TreeEmpty then Err(TreeEmpty) else Err(TreeHasGivenElement)
    case Ok(zp) =>
      match AddNodeToLeaf(zp, v)
      case Err(_) => Err(TreeHasGivenElement)
      case Ok(z) => Ok(z)
  }

  // ---------------------------------------------------------------------
  // The balancing loop
  // ---------------------------------------------------------------------

  /** The loop condition of balanceFrom (redNode && redParent), together with
      the grandfather every case of the loop body relies on. */
  predicate Conflict(z: Zipper) {
    IsRed(z.focus) && z.path.Frame? && z.path.color == Red && z.path.up.Frame?
  }

  /** redUncleCase: the other child of the grandfather is red. */
  predicate RedUncle(z: Zipper)
    requires z.path.Frame? && z.path.up.Frame?
  {
    IsRed(z.path.up.sibling)
  }

  /** recolorParentAndUncleAndGrandfather: parent and uncle become black,
      the grandfather red; the loop continues from the grandfather. */
  function RecolorParentUncleGrandfather(z: Zipper): (r: Zipper)
    requires z.path.Frame? && z.path.up.Frame?
    ensures Inorder(Rebuild(r)) == Inorder(Rebuild(z))
    ensures Depth(r.path) + 2 == Depth(z.path)
    ensures IsRed(r.focus)
  {
    var p := z.path;
    var g := p.up;
    var parent := Attach(p.side, Black, p.value, p.sibling, z.focus);
    var grand := Attach(g.side, Red, g.value, Blacken(g.sibling), parent);
    var parent0 := Attach(p.side, p.color, p.value, p.sibling, z.focus);
    assert Rebuild(z) == Plug(parent0, g);
    assert Plug(parent0, g) == Plug(Attach(g.side, g.color, g.value, g.sibling, parent0), g.up);
    InorderReplace(Attach(g.side, g.color, g.value, g.sibling, Attach(p.side, p.color, p.value, p.sibling, z.focus)), grand, g.up);
    Zipper(grand, g.up)
  }

  /** leftChildParentCaseBalance: the parent is the grandfather's left
      child and the uncle is black. An inner (right) child is first rotated
      into the parent's place; then the parent's slot is painted black, the
      grandfather red, and the grandfather is rotated right. The pivot is
      returned in the grandfather's slot. */
  function LeftChildParentCaseBalance(z: Zipper): (r: Zipper)
    requires IsRed(z.focus) && z.path.Frame? && z.path.up.Frame? && z.path.up.side == Left
    ensures Inorder(Rebuild(r)) == Inorder(Rebuild(z))
    ensures Depth(r.path) + 2 == Depth(z.path)
    ensures r.focus.Node? && r.focus.color == Black
  {
    var p := z.path;
    var g := p.up;
    var parent := Attach(p.side, p.color, p.value, p.sibling, z.focus);
    var parent' := if p.side == Right then RotateLeft(parent) else parent;
    var grand := Node(Red, Blacken(parent'), g.value, g.sibling);
    assert Rebuild(z) == Plug(parent, g);
    assert Plug(parent, g) == Plug(Node(g.color, parent, g.value, g.sibling), g.up);
    InorderReplace(Node(g.color, parent, g.value, g.sibling), grand, g.up);
    RotateRightAt(Zipper(grand, g.up))
  }

  /** rightChildParentCaseBalance: the mirror image of LeftChildParentCaseBalance. */
  function RightChildParentCaseBalance(z: Zipper): (r: Zipper)
    requires IsRed(z.focus) && z.path.Frame? && z.path.up.Frame? && z.path.up.side == Right
    ensures Inorder(Rebuild(r)) == Inorder(Rebuild(z))
    ensures Depth(r.path) + 2 == Depth(z.path)
    ensures r.focus.Node? && r.focus.color == Black
  {
    var p := z.path;
    var g := p.up;
    var parent := Attach(p.side, p.color, p.value, p.sibling, z.focus);
    var parent' := if p.side == Left then RotateRight(parent) else parent;
    var grand := Node(Red, g.sibling, g.value, Blacken(parent'));
    assert Rebuild(z) == Plug(parent, g);
    assert Plug(parent, g) == Plug(Node(g.color, g.sibling, g.value, parent), g.up);
    InorderReplace(Node(g.color, g.sibling, g.value, parent), grand, g.up);
    RotateLeftAt(Zipper(grand, g.up))
  }

  /** balanceFrom without the final restoreRootProperty: runs the loop from
      the new node and returns the whole tree. The loop stops when a red
      parent has no grandfather, a state in which the original would
      dereference the missing grandfather and that a black root rules out. */
  function BalanceFrom(z: Zipper): (r: Tree)
    decreases Depth(z.path)
    ensures Inorder(r) == Inorder(Rebuild(z))
  {
    if Conflict(z) then
      if RedUncle(z) then BalanceFrom(RecolorParentUncleGrandfather(z))
      else if z.path.up.side == Left then BalanceFrom(LeftChildParentCaseBalance(z))
      else BalanceFrom(RightChildParentCaseBalance(z))
    else Rebuild(z)
  }

  /** The state of the balancing loop: the focus is a valid red-black
      subtree except perhaps for its root colour, its context fits it, the
      only possible red-red edge is between the focus and its parent, and
      the root of the whole tree is black. */
  predicate InsertInv(z: Zipper) {
    Balanced(z.focus) && NoRedRed(z.focus) &&
    PathBalanced(z.path, BlackHeight(z.focus)) && PathNoRedRed(z.path, false) &&
    (z.path.Frame? ==> RootColor(z.path) == Black)
  }

  /** What the invariant says about the parent and grandfather frames
      while the loop condition holds: the grandfather is black, the
      node's sibling is black, and the black heights around them agree. */
  lemma ConflictFrames(z: Zipper)
    requires InsertInv(z) && Conflict(z)
    ensures var p := z.path; var g := p.up; var h := BlackHeight(z.focus);
      g.color == Black && !IsRed(p.sibling) && NoRedRed(p.sibling) && NoRedRed(g.sibling) &&
      Balanced(p.sibling) && Balanced(g.sibling) &&
      BlackHeight(p.sibling) == h && BlackHeight(g.sibling) == h &&
      PathBalanced(g.up, h + 1) && PathNoRedRed(g.up, false) &&
      (g.up.Frame? ==> RootColor(g.up) == Black)
  {
    var p := z.path;
    var g := p.up;
    var h := BlackHeight(z.focus);
    assert PathNoRedRed(g, true);
    assert PathBalanced(g, h);
    if g.up.Frame? {
      assert RootColor(p) == RootColor(g);
      assert RootColor(g) == RootColor(g.up);
    }
  }

  lemma RecolorKeepsInv(z: Zipper)
    requires InsertInv(z) && Conflict(z) && RedUncle(z)
    ensures InsertInv(RecolorParentUncleGrandfather(z))
  {
    ConflictFrames(z);
    var p := z.path;
    var g := p.up;
    var f := z.focus;
    var h := BlackHeight(f);
    var u := g.sibling;
    var parent := Attach(p.side, Black, p.value, p.sibling, f);
    assert Balanced(parent) && NoRedRed(parent) && BlackHeight(parent) == h + 1;
    var u' := Blacken(u);
    assert u' == Node(Black, u.left, u.value, u.right);
    assert Balanced(u') && NoRedRed(u') && BlackHeight(u') == h + 1;
    var grand := Attach(g.side, Red, g.value, u', parent);
    assert RecolorParentUncleGrandfather(z) == Zipper(grand, g.up);
    assert Balanced(grand) && NoRedRed(grand) && BlackHeight(grand) == h + 1;
  }

  lemma LeftCaseKeepsInv(z: Zipper)
    requires InsertInv(z) && Conflict(z) && !RedUncle(z) && z.path.up.side == Left
    ensures InsertInv(LeftChildParentCaseBalance(z))
  {
    ConflictFrames(z);
    var p := z.path;
    var g := p.up;
    var f := z.focus;
    var h := BlackHeight(f);
    var parent := Attach(p.side, p.color, p.value, p.sibling, f);
    var parent' := if p.side == Right then RotateLeft(parent) else parent;
    var grand := Node(Red, Blacken(parent'), g.value, g.sibling);
    assert LeftChildParentCaseBalance(z) == Zipper(RotateRight(grand), g.up);
    var t := RotateRight(grand);
    if p.side == Left {
      var right := Node(Red, p.sibling, g.value, g.sibling);
      assert Balanced(right) && NoRedRed(right) && BlackHeight(right) == h;
      assert t == Node(Black, f, p.value, right);
    } else {
      assert BlackHeight(f.left) == h && BlackHeight(f.right) == h && !IsRed(f.left) && !IsRed(f.right);
      var left := Node(Red, p.sibling, p.value, f.left);
      var right := Node(Red, f.right, g.value, g.sibling);
      assert Balanced(left) && NoRedRed(left) && BlackHeight(left) == h;
      assert Balanced(right) && NoRedRed(right) && BlackHeight(right) == h;
      assert t == Node(Black, left, f.value, right);
    }
  }

  lemma RightCaseKeepsInv(z: Zipper)
    requires InsertInv(z) && Conflict(z) && !RedUncle(z) && z.path.up.side == Right
    ensures InsertInv(RightChildParentCaseBalance(z))
  {
    ConflictFrames(z);
    var p := z.path;
    var g := p.up;
    var f := z.focus;
    var h := BlackHeight(f);
    var parent := Attach(p.side, p.color, p.value, p.sibling, f);
    var parent' := if p.side == Left then RotateRight(parent) else parent;
    var grand := Node(Red, g.sibling, g.value, Blacken(parent'));
    assert RightChildParentCaseBalance(z) == Zipper(RotateLeft(grand), g.up);
    var t := RotateLeft(grand);
    if p.side == Right {
      var left := Node(Red, g.sibling, g.value, p.sibling);
      assert Balanced(left) && NoRedRed(left) && BlackHeight(left) == h;
      assert t == Node(Black, left, p.value, f);
    } else {
      assert BlackHeight(f.left) == h && BlackHeight(f.right) == h && !IsRed(f.left) && !IsRed(f.right);
      var left := Node(Red, g.sibling, g.value, f.left);
      var right := Node(Red, f.right, p.value, p.sibling);
      assert Balanced(left) && NoRedRed(left) && BlackHeight(left) == h;
      assert Balanced(right) && NoRedRed(right) && BlackHeight(right) == h;
      assert t == Node(Black, left, f.value, right);
    }
  }

  /** When the loop stops, the tree it returns has no red-red edge and equal
      black heights. */
  lemma {:induction false} BalanceFromRestores(z: Zipper)
    requires InsertInv(z)
    ensures Balanced(BalanceFrom(z)) && NoRedRed(BalanceFrom(z))
    decreases Depth(z.path)
  {
    if Conflict(z) {
      if RedUncle(z) {
        RecolorKeepsInv(z);
        BalanceFromRestores(RecolorParentUncleGrandfather(z));
      } else if z.path.up.side == Left {
        LeftCaseKeepsInv(z);
        BalanceFromRestores(LeftChildParentCaseBalance(z));
      } else {
        RightCaseKeepsInv(z);
        BalanceFromRestores(RightChildParentCaseBalance(z));
      }
    } else {
      BalancedPlug(z.focus, z.path);
      NoRedRedPlug(z.focus, z.path);
    }
  }

  /** AdditionMethodImplementation::run without the size counter: an empty
      tree gets a black root; otherwise the value is hung as a red leaf, the
      loop rebalances, and the root is painted black. */
  function Add(t: Tree, v: int): (r: Result<Tree, TreeError>)
    ensures r.Err? ==> t.Node? && r.error == TreeHasGivenElement
    ensures IsBST(t) ==> (r.Err? <==> v in Keys(t))
    ensures r.Ok? ==> Inorder(r.value) == Inorder(BSTInsert(t, v)) && !IsRed(r.value)
  {
    if t.Leaf? then Ok(Node(Black, Leaf, v, Leaf))
    else
      match AddToLeafOfSubtree(t, v)
      case Err(e) => Err(e)
      case Ok(z) => Ok(Blacken(BalanceFrom(z)))
  }

  /** Adding a new value to a red-black tree gives a red-black tree holding
      exactly one more value. */
  lemma AddPreservesRBTree(t: Tree, v: int)
    requires IsRBTree(t) && v !in Keys(t)
    ensures Add(t, v).Ok?
    ensures IsRBTree(Add(t, v).value)
    ensures Keys(Add(t, v).value) == Keys(t) + {v}
    ensures Size(Add(t, v).value) == Size(t) + 1
  {
    BSTInsertKeys(t, v);
    BSTInsertOrder(t, v);
    var r := Add(t, v).value;
    SizeIsLength(r);
    SizeIsLength(BSTInsert(t, v));
    if t.Node? {
      var z := AddToLeafOfSubtree(t, v).value;
      // the new red leaf sits where an absent child was: the context fits it
      BalancedPlug(Leaf, z.path);
      NoRedRedPlug(Leaf, z.path);
      RootColorPlug(Leaf, z.path);
      BalanceFromRestores(z);
    }
  }
}

=== FILE: rb_mirror.dfy ===
/**
 * The left/right symmetry of the tree algorithms. The original writes
 * each rebalancing case twice, once per side (leftRotate / rightRotate,
 * leftChildParentCaseBalance / rightChildParentCaseBalance,
 * fixBlackHeightForLeft / fixBlackHeightForRight); here the second copy is
 * proved to be the first one seen in a mirror, so that the two texts
 * cannot drift apart.
 */
module Mirroring {
  import opened RBTrees
  import Rotation
  import Insertion
  import Removal

  function Flip(s: Side): Side {
    if s == Left then Right else Left
  }

  /** The tree seen in a mirror: every node's children swapped. */
  function Mirror(t: Tree): (r: Tree)
    ensures r.Node? <==> t.Node?
    ensures IsRed(r) <==> IsRed(t)
  {
    match t
    case Leaf => Leaf
    case Node(c, l, x, rt) => Node(c, Mirror(rt), x, Mirror(l))
  }

  /** A context seen in a mirror: every hole on the other side. */
  function MirrorPath(p: Path): (r: Path)
    ensures r.Frame? <==> p.Frame?
    ensures p.Frame? ==> r.side == Flip(p.side) && r.up == MirrorPath(p.up)
  {
    match p
    case Top => Top
    case Frame(s, c, x, sib, up) => Frame(Flip(s), c, x, Mirror(sib), MirrorPath(up))
  }

  function MirrorZ(z: Zipper): Zipper {
    Zipper(Mirror(z.focus), MirrorPath(z.path))
  }

  /** One level of the mirror: the children swap places and are mirrored in turn. */
  lemma MirrorNode(t: Tree)
    requires t.Node?
    ensures Mirror(t) == Node(t.color, Mirror(t.right), t.value, Mirror(t.left))
  {
  }

  /** Looking twice in the mirror gives the tree back. */
  lemma {:induction false} MirrorInvolution(t: Tree)
    ensures Mirror(Mirror(t)) == t
  {
    match t
    case Leaf =>
    case Node(_, l, _, r) =>
      MirrorInvolution(l);
      MirrorInvolution(r);
  }

  /** The in-order sequence of the mirror is the reverse of the tree's. */
  lemma {:induction false} MirrorInorder(t: Tree)
    ensures |Inorder(Mirror(t))| == |Inorder(t)|
    ensures forall i :: 0 <= i < |Inorder(t)| ==> Inorder(Mirror(t))[i] == Inorder(t)[|Inorder(t)| - 1 - i]
  {
    match t
    case Leaf =>
    case Node(_, l, x, r) =>
      MirrorInorder(l);
      MirrorInorder(r);
  }

  /** Recolouring commutes with mirroring. */
  lemma PaintMirror(t: Tree, c: Color)
    ensures Paint(Mirror(t), c) == Mirror(Paint(t, c))
  {
  }

  lemma AttachMirror(s: Side, c: Color, x: int, sib: Tree, child: Tree)
    ensures Attach(Flip(s), c, x, Mirror(sib), Mirror(child)) == Mirror(Attach(s, c, x, sib, child))
  {
  }

  /** Plugging a mirrored subtree into a mirrored context mirrors the whole tree. */
  lemma {:induction false} MirrorPlug(f: Tree, p: Path)
    ensures Plug(Mirror(f), MirrorPath(p)) == Mirror(Plug(f, p))
    decreases p
  {
    match p
    case Top =>
    case Frame(s, c, x, sib, up) =>
      AttachMirror(s, c, x, sib, f);
      MirrorPlug(Attach(s, c, x, sib, f), up);
  }

  // ---------------------------------------------------------------------
  // Rotations
  // ---------------------------------------------------------------------

  /** rightRotate is leftRotate in the mirror, and the other way round. */
  lemma RotateMirror(t: Tree)
    requires t.Node? && t.right.Node?
    ensures Rotation.RotateRight(Mirror(t)) == Mirror(Rotation.RotateLeft(t))
    ensures Rotation.RotateLeft(Mirror(Rotation.RotateLeft(t))) == Mirror(t)
  {
  }

  /** leftRotate is rightRotate in the mirror. */
  lemma RotateRightMirror(t: Tree)
    requires t.Node? && t.left.Node?
    ensures Rotation.RotateLeft(Mirror(t)) == Mirror(Rotation.RotateRight(t))
  {
    MirrorNode(t);
    MirrorNode(t.left);
  }

  // ---------------------------------------------------------------------
  // The insertion loop
  // ---------------------------------------------------------------------

  /** rightChildParentCaseBalance is leftChildParentCaseBalance in the mirror. */
  lemma CaseBalanceMirror(z: Zipper)
    requires IsRed(z.focus) && z.path.Frame? && z.path.up.Frame? && z.path.up.side == Left
    ensures Insertion.RightChildParentCaseBalance(MirrorZ(z)) == MirrorZ(Insertion.LeftChildParentCaseBalance(z))
  {
    var p := z.path;
    var g := p.up;
    var parent := Attach(p.side, p.color, p.value, p.sibling, z.focus);
    AttachMirror(p.side, p.color, p.value, p.sibling, z.focus);
    var parent' := if p.side == Right then Rotation.RotateLeft(parent) else parent;
    assert (if p.side == Right then Rotation.RotateRight(Mirror(parent)) else Mirror(parent)) == Mirror(parent') by {
      if p.side == Right {
        RotateMirror(parent);
      }
    }
    PaintMirror(parent', Black);
    var grand := Node(Red, Blacken(parent'), g.value, g.sibling);
    MirrorNode(grand);
    RotateRightMirror(grand);
  }

  /** recolorParentAndUncleAndGrandfather commutes with mirroring. */
  lemma RecolorMirror(z: Zipper)
    requires z.path.Frame? && z.path.up.Frame?
    ensures Insertion.RecolorParentUncleGrandfather(MirrorZ(z)) == MirrorZ(Insertion.RecolorParentUncleGrandfather(z))
  {
    var p := z.path;
    var g := p.up;
    var parent := Attach(p.side, Black, p.value, p.sibling, z.focus);
    AttachMirror(p.side, Black, p.value, p.sibling, z.focus);
    PaintMirror(g.sibling, Black);
    AttachMirror(g.side, Red, g.value, Blacken(g.sibling), parent);
  }

  /** The whole balancing loop of the insertion commutes with mirroring. */
  lemma {:induction false} BalanceFromMirror(z: Zipper)
    ensures Insertion.BalanceFrom(MirrorZ(z)) == Mirror(Insertion.BalanceFrom(z))
    decreases Depth(z.path)
  {
    if Insertion.Conflict(z) {
      if Insertion.RedUncle(z) {
        RecolorMirror(z);
        BalanceFromMirror(Insertion.RecolorParentUncleGrandfather(z));
      } else if z.path.up.side == Left {
        CaseBalanceMirror(z);
        BalanceFromMirror(Insertion.LeftChildParentCaseBalance(z));
      } else {
        var m := MirrorZ(z);
        MirrorInvolution(z.focus);
        MirrorPathInvolution(z.path);
        CaseBalanceMirror(m);
        assert MirrorZ(m) == z;
        BalanceFromMirror(Insertion.RightChildParentCaseBalance(z));
        var r := Insertion.RightChildParentCaseBalance(z);
        MirrorInvolution(r.focus);
        MirrorPathInvolution(r.path);
      }
    } else {
      MirrorPlug(z.focus, z.path);
    }
  }

  lemma {:induction false} MirrorPathInvolution(p: Path)
    ensures MirrorPath(MirrorPath(p)) == p
  {
    match p
    case Top =>
    case Frame(_, _, _, sib, up) =>
      MirrorInvolution(sib);
      MirrorPathInvolution(up);
  }

  // ---------------------------------------------------------------------
  // The black-height repair of the removal
  // ---------------------------------------------------------------------

  /** fixBlackHeight on the mirrored side is fixBlackHeight in the mirror. */
  lemma {:induction false} FixBlackHeightMirror(zp: Zipper, side: Side)
    requires zp.focus.Node?
    ensures Removal.FixBlackHeight(MirrorZ(zp), Flip(side)) == Mirror(Removal.FixBlackHeight(zp, side))
    decreases PathSize(zp.path) + 1 + Size(Removal.Other(zp.focus, side)), 1, 0, 0
  {
    var x := Removal.Child(zp.focus, side);
    if IsRed(x) {
      PaintMirror(x, Black);
      MirrorPlug(Blacken(x), Removal.ChildFrame(zp, side));
    } else if side == Left {
      FixForLeftMirror(zp);
    } else {
      FixForRightMirror(zp);
    }
  }

  /** fixBlackHeightForRight is fixBlackHeightForLeft in the mirror. */
  lemma {:induction false} FixForLeftMirror(zp: Zipper)
    requires zp.focus.Node?
    ensures Removal.FixForRight(MirrorZ(zp)) == Mirror(Removal.FixForLeft(zp))
    decreases PathSize(zp.path) + 1 + Size(zp.focus.right), 0, Size(zp.focus.right), Removal.NearFlag(zp.focus.right, Left)
  {
    var P := zp.focus;
    var B := P.right;
    if B.Leaf? {
      MirrorPlug(P, zp.path);
    } else if B.color == Red {
      var z := Zipper(Node(Red, P.left, P.value, B.left), Frame(Left, Black, B.value, B.right, zp.path));
      MirrorNode(P);
      MirrorNode(B);
      assert MirrorZ(z) == Zipper(Node(Red, Mirror(B.left), P.value, Mirror(P.left)), Frame(Right, Black, B.value, Mirror(B.right), MirrorPath(zp.path)));
      FixForLeftMirror(z);
    } else if !IsRed(B.left) && !IsRed(B.right) {
      PaintMirror(B, Red);
      RunFixMirror(Zipper(Node(P.color, P.left, P.value, Paint(B, Red)), zp.path));
    } else if IsRed(B.right) {
      MirrorNode(P);
      MirrorNode(B);
      PaintMirror(B.right, Black);
      MirrorPlug(Node(P.color, Node(Black, P.left, P.value, B.left), B.value, Blacken(B.right)), zp.path);
    } else {
      var b := Node(Black, B.left.left, B.left.value, Node(Red, B.left.right, B.value, B.right));
      assert Size(b) == Size(B);
      MirrorNode(P);
      MirrorNode(B);
      MirrorNode(B.left);
      var z := Zipper(Node(P.color, P.left, P.value, b), zp.path);
      assert Mirror(b) == Node(Black, Node(Red, Mirror(B.right), B.value, Mirror(B.left.right)), B.left.value, Mirror(B.left.left));
      assert MirrorZ(z) == Zipper(Node(P.color, Mirror(b), P.value, Mirror(P.left)), MirrorPath(zp.path));
      FixForLeftMirror(z);
    }
  }

  /** fixBlackHeightForLeft is fixBlackHeightForRight in the mirror. */
  lemma {:induction false} FixForRightMirror(zp: Zipper)
    requires zp.focus.Node?
    ensures Removal.FixForLeft(MirrorZ(zp)) == Mirror(Removal.FixForRight(zp))
    decreases PathSize(zp.path) + 1 + Size(zp.focus.left), 0, Size(zp.focus.left), Removal.NearFlag(zp.focus.left, Right)
  {
    var P := zp.focus;
    var B := P.left;
    if B.Leaf? {
      MirrorPlug(P, zp.path);
    } else if B.color == Red {
      var z := Zipper(Node(Red, B.right, P.value, P.right), Frame(Right, Black, B.value, B.left, zp.path));
      MirrorNode(P);
      MirrorNode(B);
      assert MirrorZ(z) == Zipper(Node(Red, Mirror(P.right), P.value, Mirror(B.right)), Frame(Left, Black, B.value, Mirror(B.left), MirrorPath(zp.path)));
      FixForRightMirror(z);
    } else if !IsRed(B.left) && !IsRed(B.right) {
      PaintMirror(B, Red);
      RunFixMirror(Zipper(Node(P.color, Paint(B, Red), P.value, P.right), zp.path));
    } else if IsRed(B.left) {
      MirrorNode(P);
      MirrorNode(B);
      PaintMirror(B.left, Black);
      MirrorPlug(Node(P.color, Blacken(B.left), B.value, Node(Black, B.right, P.value, P.right)), zp.path);
    } else {
      var b := Node(Black, Node(Red, B.left, B.value, B.right.left), B.right.value, B.right.right);
      assert Size(b) == Size(B);
      MirrorNode(P);
      MirrorNode(B);
      MirrorNode(B.right);
      var z := Zipper(Node(P.color, b, P.value, P.right), zp.path);
      assert Mirror(b) == Node(Black, Mirror(B.right.right), B.right.value, Node(Red, Mirror(B.right.left), B.value, Mirror(B.left)));
      assert MirrorZ(z) == Zipper(Node(P.color, Mirror(P.right), P.value, Mirror(b)), MirrorPath(zp.path));
      FixForRightMirror(z);
    }
  }

  /** runFixFromGrandFather commutes with mirroring. */
  lemma {:induction false} RunFixMirror(zP: Zipper)
    ensures Removal.RunFixFromGrandFather(MirrorZ(zP)) == Mirror(Removal.RunFixFromGrandFather(zP))
    decreases PathSize(zP.path), 2, 0, 0
  {
    if zP.path.Top? {
    } else {
      var p := zP.path;
      AttachMirror(p.side, p.color, p.value, p.sibling, zP.focus);
      FixBlackHeightMirror(Up(zP), p.side);
    }
  }
}

=== FILE: rb_navigate.dfy ===
/**
 * Ordered lookup: the descent of findInSubtree and the public find.
 */
module Navigation {
  import opened Common
  import opened RBTrees

  /** Descends from the focus towards `v`: stops on the node holding `v`,
      goes right when the node's value is less than `v`, left otherwise, and
      fails on reaching an absent child (NoSuchElementInSubtree). */
  function Locate(z: Zipper, v: int): (r: Option<Zipper>)
    decreases z.focus
    ensures r.Some? ==> Rebuild(r.value) == Rebuild(z) && r.value.focus.Node? && r.value.focus.value == v
    ensures IsBST(z.focus) ==> (r.Some? <==> v in Keys(z.focus))
  {
    match z.focus
    case Leaf => None
    case Node(c, l, x, rt) =>
      BSTNode(c, l, x, rt);
      KeysNode(c, l, x, rt);
      if x == v then Some(z)
      else if x < v then Locate(Down(z, Right), v)
      else Locate(Down(z, Left), v)
  }

  /** find: the stored value equal to `v`, or NoSuchElement (also on an empty tree). */
  function Find(t: Tree, v: int): (r: Result<int, TreeError>)
    ensures r.Ok? ==> r.value == v && v in Keys(t)
    ensures r.Err? ==> r.error == NoSuchElement
    ensures IsBST(t) ==> (r.Ok? <==> v in Keys(t))
  {
    match Locate(Zipper(t, Top), v)
    case None => Err(NoSuchElement)
    case Some(z) =>
      FocusKeys(z);
      Ok(z.focus.value)
  }
}

=== FILE: rb_remove.dfy ===
/**
 * Removal (RemovalMethodImplementation): the found node is unlinked (a node
 * with two children first takes the value of its in-order successor, which
 * is unlinked instead), and when a black node went missing the black height
 * of its side is repaired by fixBlackHeight and its helpers, walking up
 * towards the root.
 */
module Removal {
  import opened Common
  import opened RBTrees
  import opened Navigation

  /** What removeNode leaves behind: the subtree now in the unlinked node's
      slot (focused in the rebuilt tree), and the colour and value of the
      node that was physically unlinked. */
  datatype Removal = Removal(hole: Zipper, color: Color, value: int)

  /** The in-order sequence of a tree whose focused node has been cut out. */
  function Without(z: Zipper): seq<int>
    requires z.focus.Node?
  {
    LeftContext(z.path) + Inorder(z.focus.left) + Inorder(z.focus.right) + RightContext(z.path)
  }

  /** removeChildlessNode: the node's slot becomes empty (the tree becomes
      empty when the node was the root). */
  function RemoveChildless(z: Zipper): (r: Removal)
    requires z.focus.Node? && z.focus.left.Leaf? && z.focus.right.Leaf?
    ensures Inorder(Rebuild(r.hole)) == Without(z)
    ensures r.hole.path == z.path && r.hole.focus.Leaf?
    ensures r.color == z.focus.color && r.value == z.focus.value
  {
    InorderPlug(Leaf, z.path);
    Removal(Zipper(Leaf, z.path), z.focus.color, z.focus.value)
  }

  /** removeNodeWithOneChild: the only child takes the node's slot; a child
      that becomes the root is painted black. */
  function RemoveWithOneChild(z: Zipper): (r: Removal)
    requires z.focus.Node? && z.focus.left.Node? != z.focus.right.Node?
    ensures Inorder(Rebuild(r.hole)) == Without(z)
    ensures r.hole.path == z.path && r.hole.focus.Node?
    ensures r.hole.path.Top? ==> r.hole.focus.color == Black
    ensures r.color == z.focus.color && r.value == z.focus.value
  {
    var n := z.focus;
    var child := if n.left.Node? then n.left else n.right;
    assert Inorder(n.left) + Inorder(n.right) == Inorder(child);
    if z.path.Top? then
      BlackenKeeps(child);
      Removal(Zipper(Blacken(child), Top), n.color, n.value)
    else
      InorderPlug(child, z.path);
      Removal(Zipper(child, z.path), n.color, n.value)
  }

  /** A context all of whose frames have the hole on the left. */
  predicate AllLeft(p: Path) {
    match p
    case Top => true
    case Frame(s, _, _, _, up) => s == Left && AllLeft(up)
  }

  /** The walk of findLeastLargestNodeFromNodeWithTwoChildren below its
      start: the leftmost node `m` of `t` and the context `lp` leading to it
      from the root of `t`. */
  function Leftmost(t: Tree): (r: (Tree, Path))
    requires t.Node?
    decreases t
    ensures r.0.Node? && r.0.left.Leaf? && Plug(r.0, r.1) == t
    ensures AllLeft(r.1)
    ensures Inorder(t) == [r.0.value] + Inorder(Plug(r.0.right, r.1))
  {
    if t.left.Leaf? then (t, Top)
    else
      var (m, lp) := Leftmost(t.left);
      var f := Frame(Left, t.color, t.value, t.right, Top);
      PlugAppend(m, lp, f);
      PlugAppend(m.right, lp, f);
      AllLeftAppend(lp, f);
      (m, Append(lp, f))
  }

  lemma {:induction false} AllLeftAppend(p: Path, q: Path)
    requires AllLeft(p) && AllLeft(q)
    ensures AllLeft(Append(p, q))
    decreases p
  {
    match p
    case Top =>
    case Frame(_, _, _, _, up) =>
      AllLeftAppend(up, q);
  }

  /** removeNodeWithTwoChildren: the least value of the right subtree is
      copied into the node and the node that held it, which has no left
      child, is unlinked instead. */
  function RemoveWithTwoChildren(z: Zipper): (r: Removal)
    requires z.focus.Node? && z.focus.left.Node? && z.focus.right.Node?
    ensures Inorder(Rebuild(r.hole)) == Without(z)
    ensures r.hole.path.Frame?
    ensures r.value == Inorder(z.focus.right)[0]
    ensures var (m, lp) := Leftmost(z.focus.right);
      r.hole.path == Append(lp, Frame(Right, z.focus.color, m.value, z.focus.left, z.path)) &&
      r.color == m.color && r.value == m.value
  {
    var n := z.focus;
    var (m, lp) := Leftmost(n.right);
    var q := Frame(Right, n.color, m.value, n.left, z.path);
    var zm := Zipper(m, Append(lp, q));
    PlugAppend(m.right, lp, q);
    InorderPlug(Plug(m.right, lp), q);
    InorderPlug(m.right, Append(lp, q));
    RootFrameAppend(lp, q);
    if m.right.Node? then RemoveWithOneChild(zm) else RemoveChildless(zm)
  }

  lemma RootFrameAppend(p: Path, q: Path)
    requires q.Frame?
    ensures Append(p, q).Frame?
  {
  }

  /** removeNode: dispatches on the number of children. The value found
      disappears from its place in the in-order sequence. */
  function RemoveNode(z: Zipper): (r: Removal)
    requires z.focus.Node?
    ensures Inorder(Rebuild(r.hole)) == Without(z)
    ensures r.hole.path.Top? ==> z.path.Top? && !IsRed(r.hole.focus)
  {
    var n := z.focus;
    if n.left.Leaf? && n.right.Leaf? then RemoveChildless(z)
    else if n.left.Leaf? || n.right.Leaf? then RemoveWithOneChild(z)
    else RemoveWithTwoChildren(z)
  }

  // ---------------------------------------------------------------------
  // Restoring the black height
  // ---------------------------------------------------------------------

  /** The child of `n` on side `side`. */
  function Child(n: Tree, side: Side): Tree
    requires n.Node?
  {
    if side == Left then n.left else n.right
  }

  /** The child of `n` opposite to side `side`. */
  function Other(n: Tree, side: Side): Tree
    requires n.Node?
  {
    if side == Left then n.right else n.left
  }

  /** The context of the child of the focused node on side `side`. */
  function ChildFrame(zp: Zipper, side: Side): Path
    requires zp.focus.Node?
  {
    Frame(side, zp.focus.color, zp.focus.value, Other(zp.focus, side), zp.path)
  }

  /** fixBlackHeight: `zp` is focused on the parent whose `side` subtree has
      one black node too few. A red child there is painted black and the
      repair is over; otherwise the brother's side is examined. */
  function FixBlackHeight(zp: Zipper, side: Side): (r: Tree)
    requires zp.focus.Node?
    decreases PathSize(zp.path) + 1 + Size(Other(zp.focus, side)), 1, 0, 0
    ensures Inorder(r) == Inorder(Rebuild(zp))
    ensures IsRed(Child(zp.focus, side)) ==> r == Plug(Blacken(Child(zp.focus, side)), ChildFrame(zp, side))
  {
    var x := Child(zp.focus, side);
    if IsRed(x) then
      var n := if side == Left then zp.focus.(left := Blacken(x)) else zp.focus.(right := Blacken(x));
      BlackenKeeps(x);
      InorderReplace(zp.focus, n, zp.path);
      Plug(n, zp.path)
    else if side == Left then FixForLeft(zp)
    else FixForRight(zp)
  }

  /** Which of fixBlackHeightForLeft's last two cases applies: 0 once the
      brother's far child is red. */
  function NearFlag(b: Tree, side: Side): nat {
    if b.Node? && IsRed(if side == Left then b.right else b.left) then 0 else 1
  }

  /** fixBlackHeightForLeft: the left subtree of the focused parent is one
      black node short and is not red. The four cases look at the brother
      (the right child): red, black with black children, black with a red
      far (right) child, black with a red near (left) child. */
  function FixForLeft(zp: Zipper): (r: Tree)
    requires zp.focus.Node?
    decreases PathSize(zp.path) + 1 + Size(zp.focus.right), 0, Size(zp.focus.right), NearFlag(zp.focus.right, Left)
    ensures Inorder(r) == Inorder(Rebuild(zp))
  {
    var P := zp.focus;
    var B := P.right;
    if B.Leaf? then
      // an absent brother cannot be one black node higher; the original
      // would dereference it
      Rebuild(zp)
    else if B.color == Red then
      // rotate the parent left, parent red and brother black, and retry
      // below the former brother
      var n := Node(Red, P.left, P.value, B.left);
      InorderReplace(P, Node(Black, n, B.value, B.right), zp.path);
      FixForLeft(Zipper(n, Frame(Left, Black, B.value, B.right, zp.path)))
    else if !IsRed(B.left) && !IsRed(B.right) then
      // brother red, and the shortage moves up to the parent
      var n := Node(P.color, P.left, P.value, Paint(B, Red));
      InorderReplace(P, n, zp.path);
      RunFixFromGrandFather(Zipper(n, zp.path))
    else if IsRed(B.right) then
      // rotate the parent left; the brother takes the parent's colour, the
      // parent and the far child become black
      var n := Node(P.color, Node(Black, P.left, P.value, B.left), B.value, Blacken(B.right));
      BlackenKeeps(B.right);
      InorderReplace(P, n, zp.path);
      Plug(n, zp.path)
    else
      // rotate the brother right so that its red near child becomes a
      // black brother with a red far child, and retry
      var b := Node(Black, B.left.left, B.left.value, Node(Red, B.left.right, B.value, B.right));
      assert Inorder(b) == Inorder(B) && Size(b) == Size(B);
      InorderReplace(P, Node(P.color, P.left, P.value, b), zp.path);
      FixForLeft(Zipper(Node(P.color, P.left, P.value, b), zp.path))
  }

  /** fixBlackHeightForRight: the mirror image of FixForLeft. */
  function FixForRight(zp: Zipper): (r: Tree)
    requires zp.focus.Node?
    decreases PathSize(zp.path) + 1 + Size(zp.focus.left), 0, Size(zp.focus.left), NearFlag(zp.focus.left, Right)
    ensures Inorder(r) == Inorder(Rebuild(zp))
  {
    var P := zp.focus;
    var B := P.left;
    if B.Leaf? then
      Rebuild(zp)
    else if B.color == Red then
      var n := Node(Red, B.right, P.value, P.right);
      InorderReplace(P, Node(Black, B.left, B.value, n), zp.path);
      FixForRight(Zipper(n, Frame(Right, Black, B.value, B.left, zp.path)))
    else if !IsRed(B.left) && !IsRed(B.right) then
      var n := Node(P.color, Paint(B, Red), P.value, P.right);
      InorderReplace(P, n, zp.path);
      RunFixFromGrandFather(Zipper(n, zp.path))
    else if IsRed(B.left) then
      var n := Node(P.color, Blacken(B.left), B.value, Node(Black, B.right, P.value, P.right));
      BlackenKeeps(B.left);
      InorderReplace(P, n, zp.path);
      Plug(n, zp.path)
    else
      var b := Node(Black, Node(Red, B.left, B.value, B.right.left), B.right.value, B.right.right);
      assert Inorder(b) == Inorder(B) && Size(b) == Size(B);
      InorderReplace(P, Node(P.color, b, P.value, P.right), zp.path);
      FixForRight(Zipper(Node(P.color, b, P.value, P.right), zp.path))
  }

  /** runFixFromGrandFather: the whole subtree in focus is one black node
      short; the repair continues at its parent, on the focus's side, and
      is over at the root. */
  function RunFixFromGrandFather(zP: Zipper): (r: Tree)
    decreases PathSize(zP.path), 2, 0, 0
    ensures Inorder(r) == Inorder(Rebuild(zP))
  {
    if zP.path.Top? then Rebuild(zP)
    else FixBlackHeight(Up(zP), zP.path.side)
  }

  /** The state of the repair: `x` is one black node short with respect to
      its context `p`; apart from a red root of `x`, no red node has a red
      child. */
  predicate Deficit(x: Tree, p: Path) {
    Balanced(x) && NoRedRed(Blacken(x)) && PathBalanced(p, BlackHeight(x) + 1) && PathNoRedRed(p, false)
  }

  /** What Deficit says about the parent frame of a short, non-red left subtree. */
  lemma DeficitLeftFrame(zp: Zipper)
    requires zp.focus.Node? && !IsRed(zp.focus.left) && Deficit(zp.focus.left, ChildFrame(zp, Left))
    ensures var P := zp.focus; var h := BlackHeight(P.left);
      NoRedRed(P.left) && Balanced(P.right) && NoRedRed(P.right) && BlackHeight(P.right) == h + 1 &&
      (P.color == Red ==> !IsRed(P.right)) &&
      PathBalanced(zp.path, h + 1 + (if P.color == Black then 1 else 0)) &&
      PathNoRedRed(zp.path, P.color == Red)
  {
    BlackenKeeps(zp.focus.left);
  }

  lemma DeficitRightFrame(zp: Zipper)
    requires zp.focus.Node? && !IsRed(zp.focus.right) && Deficit(zp.focus.right, ChildFrame(zp, Right))
    ensures var P := zp.focus; var h := BlackHeight(P.right);
      NoRedRed(P.right) && Balanced(P.left) && NoRedRed(P.left) && BlackHeight(P.left) == h + 1 &&
      (P.color == Red ==> !IsRed(P.left)) &&
      PathBalanced(zp.path, h + 1 + (if P.color == Black then 1 else 0)) &&
      PathNoRedRed(zp.path, P.color == Red)
  {
    BlackenKeeps(zp.focus.right);
  }

  /** The repair ends in a tree that is red-black once its root is black. */
  lemma {:induction false} FixBlackHeightCorrect(zp: Zipper, side: Side)
    requires zp.focus.Node? && Deficit(Child(zp.focus, side), ChildFrame(zp, side))
    ensures Balanced(FixBlackHeight(zp, side)) && NoRedRed(Blacken(FixBlackHeight(zp, side)))
    decreases PathSize(zp.path) + 1 + Size(Other(zp.focus, side)), 1, 0, 0
  {
    var x := Child(zp.focus, side);
    if IsRed(x) {
      var n := if side == Left then zp.focus.(left := Blacken(x)) else zp.focus.(right := Blacken(x));
      BlackenKeeps(x);
      assert Plug(n, zp.path) == Plug(Blacken(x), ChildFrame(zp, side));
      BalancedPlug(Blacken(x), ChildFrame(zp, side));
      NoRedRedPlug(Blacken(x), ChildFrame(zp, side));
      BlackenKeeps(Plug(n, zp.path));
    } else if side == Left {
      FixForLeftCorrect(zp);
    } else {
      FixForRightCorrect(zp);
    }
  }

  /** The state FixForLeft starts from: the left subtree of the focused
      parent is one black node short and is not red. */
  predicate LeftShort(zp: Zipper) {
    zp.focus.Node? && !IsRed(zp.focus.left) && Deficit(zp.focus.left, ChildFrame(zp, Left))
  }

  /** The mirror image of LeftShort. */
  predicate RightShort(zp: Zipper) {
    zp.focus.Node? && !IsRed(zp.focus.right) && Deficit(zp.focus.right, ChildFrame(zp, Right))
  }

  /** A red brother: after the rotation the old parent, now red, is again
      a parent whose left subtree is one black node short. */
  lemma LeftRedBrother(zp: Zipper)
    requires LeftShort(zp) && zp.focus.right.Node? && zp.focus.right.color == Red
    ensures var P := zp.focus; var B := P.right;
      LeftShort(Zipper(Node(Red, P.left, P.value, B.left), Frame(Left, Black, B.value, B.right, zp.path)))
  {
    DeficitLeftFrame(zp);
    var P := zp.focus;
    var B := P.right;
    var x := P.left;
    var h := BlackHeight(x);
    assert BlackHeight(B.left) == h + 1 && BlackHeight(B.right) == h + 1;
    var n := Node(Red, x, P.value, B.left);
    var zn := Zipper(n, Frame(Left, Black, B.value, B.right, zp.path));
    assert PathBalanced(Frame(Left, Black, B.value, B.right, zp.path), h + 1);
    assert Deficit(x, ChildFrame(zn, Left));
  }

  /** A black brother with black children: painted red, it leaves the whole
      parent one black node short. */
  lemma LeftBlackNephews(zp: Zipper)
    requires LeftShort(zp) && zp.focus.right.Node? && zp.focus.right.color == Black
    requires !IsRed(zp.focus.right.left) && !IsRed(zp.focus.right.right)
    ensures var P := zp.focus;
      Deficit(Node(P.color, P.left, P.value, Paint(P.right, Red)), zp.path)
  {
    DeficitLeftFrame(zp);
    var P := zp.focus;
    var B := P.right;
    var x := P.left;
    var h := BlackHeight(x);
    var b := Paint(B, Red);
    assert b == Node(Red, B.left, B.value, B.right);
    assert BlackHeight(B.left) == h && BlackHeight(B.right) == h;
    assert Balanced(b) && NoRedRed(b) && BlackHeight(b) == h;
    var n := Node(P.color, x, P.value, b);
    assert Balanced(n) && BlackHeight(n) + 1 == h + 1 + (if P.color == Black then 1 else 0);
    assert Blacken(n) == Node(Black, x, P.value, b);
    assert NoRedRed(Blacken(n));
    PathNoRedRedWeaken(zp.path, P.color == Red);
  }

  /** A black brother with a red far child: one rotation ends the repair. */
  lemma LeftFarRed(zp: Zipper)
    requires LeftShort(zp) && zp.focus.right.Node? && zp.focus.right.color == Black
    requires IsRed(zp.focus.right.right)
    ensures var P := zp.focus; var B := P.right;
      FixForLeft(zp) == Plug(Node(P.color, Node(Black, P.left, P.value, B.left), B.value, Blacken(B.right)), zp.path)
    ensures Balanced(FixForLeft(zp)) && NoRedRed(Blacken(FixForLeft(zp)))
  {
    DeficitLeftFrame(zp);
    var P := zp.focus;
    var B := P.right;
    var x := P.left;
    var h := BlackHeight(x);
    var n := Node(P.color, Node(Black, x, P.value, B.left), B.value, Blacken(B.right));
    assert FixForLeft(zp) == Plug(n, zp.path);
    BlackenKeeps(B.right);
    assert BlackHeight(B.left) == h && BlackHeight(B.right) == h;
    assert Blacken(B.right) == Node(Black, B.right.left, B.right.value, B.right.right);
    assert BlackHeight(Blacken(B.right)) == h + 1;
    var a := Node(Black, x, P.value, B.left);
    assert Balanced(B.left) && NoRedRed(B.left) && Balanced(B.right) && NoRedRed(B.right);
    assert Balanced(a) && NoRedRed(a) && BlackHeight(a) == h + 1;
    assert Balanced(n) && NoRedRed(n) && BlackHeight(n) == h + 1 + (if P.color == Black then 1 else 0);
    BalancedPlug(n, zp.path);
    NoRedRedPlug(n, zp.path);
    BlackenKeeps(Plug(n, zp.path));
  }

  /** A black brother with a red near child only: rotating the brother
      right gives a black brother with a red far child. */
  lemma LeftNearRed(zp: Zipper)
    requires LeftShort(zp) && zp.focus.right.Node? && zp.focus.right.color == Black
    requires IsRed(zp.focus.right.left) && !IsRed(zp.focus.right.right)
    ensures var P := zp.focus; var B := P.right;
      var b := Node(Black, B.left.left, B.left.value, Node(Red, B.left.right, B.value, B.right));
      LeftShort(Zipper(Node(P.color, P.left, P.value, b), zp.path))
  {
    DeficitLeftFrame(zp);
    var P := zp.focus;
    var B := P.right;
    var x := P.left;
    var h := BlackHeight(x);
    var bl := B.left;
    assert BlackHeight(bl) == h && BlackHeight(B.right) == h;
    assert BlackHeight(bl.left) == h && BlackHeight(bl.right) == h;
    assert !IsRed(bl.right) && NoRedRed(bl.left) && NoRedRed(bl.right);
    var c := Node(Red, bl.right, B.value, B.right);
    assert Balanced(c) && NoRedRed(c) && BlackHeight(c) == h;
    var b := Node(Black, bl.left, bl.value, c);
    assert Balanced(b) && NoRedRed(b) && BlackHeight(b) == h + 1;
    var zn := Zipper(Node(P.color, x, P.value, b), zp.path);
    assert Deficit(x, ChildFrame(zn, Left));
  }

  lemma {:induction false} FixForLeftCorrect(zp: Zipper)
    requires LeftShort(zp)
    ensures Balanced(FixForLeft(zp)) && NoRedRed(Blacken(FixForLeft(zp)))
    decreases PathSize(zp.path) + 1 + Size(zp.focus.right), 0, Size(zp.focus.right), NearFlag(zp.focus.right, Left)
  {
    var P := zp.focus;
    var B := P.right;
    if B.Leaf? {
      DeficitLeftFrame(zp);
    } else if B.color == Red {
      LeftRedBrother(zp);
      FixForLeftCorrect(Zipper(Node(Red, P.left, P.value, B.left), Frame(Left, Black, B.value, B.right, zp.path)));
    } else if !IsRed(B.left) && !IsRed(B.right) {
      LeftBlackNephews(zp);
      RunFixCorrect(Zipper(Node(P.color, P.left, P.value, Paint(B, Red)), zp.path));
    } else if IsRed(B.right) {
      LeftFarRed(zp);
    } else {
      LeftNearRed(zp);
      var b := Node(Black, B.left.left, B.left.value, Node(Red, B.left.right, B.value, B.right));
      assert Size(b) == Size(B);
      FixForLeftCorrect(Zipper(Node(P.color, P.left, P.value, b), zp.path));
    }
  }

  /** The mirror image of LeftRedBrother. */
  lemma RightRedBrother(zp: Zipper)
    requires RightShort(zp) && zp.focus.left.Node? && zp.focus.left.color == Red
    ensures var P := zp.focus; var B := P.left;
      RightShort(Zipper(Node(Red, B.right, P.value, P.right), Frame(Right, Black, B.value, B.left, zp.path)))
  {
    DeficitRightFrame(zp);
    var P := zp.focus;
    var B := P.left;
    var x := P.right;
    var h := BlackHeight(x);
    assert BlackHeight(B.left) == h + 1 && BlackHeight(B.right) == h + 1;
    var n := Node(Red, B.right, P.value, x);
    var zn := Zipper(n, Frame(Right, Black, B.value, B.left, zp.path));
    assert PathBalanced(Frame(Right, Black, B.value, B.left, zp.path), h + 1);
    assert Deficit(x, ChildFrame(zn, Right));
  }

  /** The mirror image of LeftBlackNephews. */
  lemma RightBlackNephews(zp: Zipper)
    requires RightShort(zp) && zp.focus.left.Node? && zp.focus.left.color == Black
    requires !IsRed(zp.focus.left.left) && !IsRed(zp.focus.left.right)
    ensures var P := zp.focus;
      Deficit(Node(P.color, Paint(P.left, Red), P.value, P.right), zp.path)
  {
    DeficitRightFrame(zp);
    var P := zp.focus;
    var B := P.left;
    var x := P.right;
    var h := BlackHeight(x);
    var b := Paint(B, Red);
    assert b == Node(Red, B.left, B.value, B.right);
    assert BlackHeight(B.left) == h && BlackHeight(B.right) == h;
    assert Balanced(b) && NoRedRed(b) && BlackHeight(b) == h;
    var n := Node(P.color, b, P.value, x);
    assert Balanced(n) && BlackHeight(n) + 1 == h + 1 + (if P.color == Black then 1 else 0);
    assert Blacken(n) == Node(Black, b, P.value, x);
    assert NoRedRed(Blacken(n));
    PathNoRedRedWeaken(zp.path, P.color == Red);
  }

  /** The mirror image of LeftFarRed. */
  lemma RightFarRed(zp: Zipper)
    requires RightShort(zp) && zp.focus.left.Node? && zp.focus.left.color == Black
    requires IsRed(zp.focus.left.left)
    ensures var P := zp.focus; var B := P.left;
      FixForRight(zp) == Plug(Node(P.color, Blacken(B.left), B.value, Node(Black, B.right, P.value, P.right)), zp.path)
    ensures Balanced(FixForRight(zp)) && NoRedRed(Blacken(FixForRight(zp)))
  {
    DeficitRightFrame(zp);
    var P := zp.focus;
    var B := P.left;
    var x := P.right;
    var h := BlackHeight(x);
    var n := Node(P.color, Blacken(B.left), B.value, Node(Black, B.right, P.value, x));
    assert FixForRight(zp) == Plug(n, zp.path);
    BlackenKeeps(B.left);
    assert BlackHeight(B.left) == h && BlackHeight(B.right) == h;
    assert Blacken(B.left) == Node(Black, B.left.left, B.left.value, B.left.right);
    assert BlackHeight(Blacken(B.left)) == h + 1;
    var a := Node(Black, B.right, P.value, x);
    assert Balanced(B.left) && NoRedRed(B.left) && Balanced(B.right) && NoRedRed(B.right);
    assert Balanced(a) && NoRedRed(a) && BlackHeight(a) == h + 1;
    assert Balanced(n) && NoRedRed(n) && BlackHeight(n) == h + 1 + (if P.color == Black then 1 else 0);
    BalancedPlug(n, zp.path);
    NoRedRedPlug(n, zp.path);
    BlackenKeeps(Plug(n, zp.path));
  }

  /** The mirror image of LeftNearRed. */
  lemma RightNearRed(zp: Zipper)
    requires RightShort(zp) && zp.focus.left.Node? && zp.focus.left.color == Black
    requires IsRed(zp.focus.left.right) && !IsRed(zp.focus.left.left)
    ensures var P := zp.focus; var B := P.left;
      var b := Node(Black, Node(Red, B.left, B.value, B.right.left), B.right.value, B.right.right);
      RightShort(Zipper(Node(P.color, b, P.value, P.right), zp.path))
  {
    DeficitRightFrame(zp);
    var P := zp.focus;
    var B := P.left;
    var x := P.right;
    var h := BlackHeight(x);
    var br := B.right;
    assert BlackHeight(br) == h && BlackHeight(B.left) == h;
    assert BlackHeight(br.left) == h && BlackHeight(br.right) == h;
    assert !IsRed(br.left) && NoRedRed(br.left) && NoRedRed(br.right);
    var c := Node(Red, B.left, B.value, br.left);
    assert Balanced(c) && NoRedRed(c) && BlackHeight(c) == h;
    var b := Node(Black, c, br.value, br.right);
    assert Balanced(b) && NoRedRed(b) && BlackHeight(b) == h + 1;
    var zn := Zipper(Node(P.color, b, P.value, x), zp.path);
    assert Deficit(x, ChildFrame(zn, Right));
  }

  lemma {:induction false} FixForRightCorrect(zp: Zipper)
    requires RightShort(zp)
    ensures Balanced(FixForRight(zp)) && NoRedRed(Blacken(FixForRight(zp)))
    decreases PathSize(zp.path) + 1 + Size(zp.focus.left), 0, Size(zp.focus.left), NearFlag(zp.focus.left, Right)
  {
    var P := zp.focus;
    var B := P.left;
    if B.Leaf? {
      DeficitRightFrame(zp);
    } else if B.color == Red {
      RightRedBrother(zp);
      FixForRightCorrect(Zipper(Node(Red, B.right, P.value, P.right), Frame(Right, Black, B.value, B.left, zp.path)));
    } else if !IsRed(B.left) && !IsRed(B.right) {
      RightBlackNephews(zp);
      RunFixCorrect(Zipper(Node(P.color, Paint(B, Red), P.value, P.right), zp.path));
    } else if IsRed(B.left) {
      RightFarRed(zp);
    } else {
      RightNearRed(zp);
      var b := Node(Black, Node(Red, B.left, B.value, B.right.left), B.right.value, B.right.right);
      assert Size(b) == Size(B);
      FixForRightCorrect(Zipper(Node(P.color, b, P.value, P.right), zp.path));
    }
  }

  lemma {:induction false} RunFixCorrect(zP: Zipper)
    requires Deficit(zP.focus, zP.path)
    ensures Balanced(RunFixFromGrandFather(zP)) && NoRedRed(Blacken(RunFixFromGrandFather(zP)))
    decreases PathSize(zP.path), 2, 0, 0
  {
    if zP.path.Frame? {
      var zq := Up(zP);
      assert Child(zq.focus, zP.path.side) == zP.focus;
      assert ChildFrame(zq, zP.path.side) == zP.path;
      FixBlackHeightCorrect(zq, zP.path.side);
    }
  }

  // ---------------------------------------------------------------------
  // The removal run
  // ---------------------------------------------------------------------

  /** The body of the removal run once the node holding the value has been
      found: the node is unlinked; when a black node left a non-root slot,
      the black height is repaired from its parent, on the side found by
      comparing the unlinked value with the parent's, and the root is
      painted black. */
  function RemoveFound(z: Zipper): (r: Tree)
    requires z.focus.Node?
    ensures Inorder(r) == Without(z)
  {
    var rm := RemoveNode(z);
    var h := rm.hole;
    if h.path.Frame? && rm.color == Black then
      var side := if rm.value < h.path.value then Left else Right;
      RepairKeepsInorder(h, side);
      Blacken(FixBlackHeight(Up(h), side))
    else Rebuild(h)
  }

  /** Cutting the focused node out removes one occurrence of its value from
      the in-order sequence. */
  lemma WithoutIsCut(z: Zipper)
    requires z.focus.Node?
    ensures var s := Inorder(Rebuild(z)); var i := |LeftContext(z.path)| + |Inorder(z.focus.left)|;
      0 <= i < |s| && s[i] == z.focus.value && Without(z) == s[..i] + s[i + 1..]
  {
    InorderAround(z);
    var a := LeftContext(z.path) + Inorder(z.focus.left);
    var b := Inorder(z.focus.right) + RightContext(z.path);
    assert Without(z) == a + b;
    CutMiddle(a, z.focus.value, b);
  }

  lemma InorderAround(z: Zipper)
    requires z.focus.Node?
    ensures Inorder(Rebuild(z)) ==
      (LeftContext(z.path) + Inorder(z.focus.left)) + [z.focus.value] + (Inorder(z.focus.right) + RightContext(z.path))
  {
    InorderPlug(z.focus, z.path);
    assert Inorder(z.focus) == Inorder(z.focus.left) + [z.focus.value] + Inorder(z.focus.right);
  }

  lemma CutMiddle(a: seq<int>, x: int, b: seq<int>)
    ensures var s := a + [x] + b; s[|a|] == x && s[..|a|] + s[|a| + 1..] == a + b
  {
    var s := a + [x] + b;
    assert s[..|a|] == a;
    assert s[|a| + 1..] == b;
  }

  /** RemovalMethodImplementation::run without the size counter. An empty
      tree is TreeEmpty, a missing value NoSuchElement; otherwise the value
      is cut out of its place in the in-order sequence and returned. */
  function Remove(t: Tree, v: int): (r: Result<(Tree, int), TreeError>)
    ensures t.Leaf? ==> r == Err(TreeEmpty)
    ensures t.Node? && r.Err? ==> r.error == NoSuchElement
    ensures t.Node? && IsBST(t) ==> (r.Ok? <==> v in Keys(t))
    ensures r.Ok? ==> r.value.1 == v
    ensures r.Ok? ==>
      (exists i :: 0 <= i < |Inorder(t)| && Inorder(t)[i] == v && Inorder(r.value.0) == Inorder(t)[..i] + Inorder(t)[i + 1..])
  {
    if t.Leaf? then Err(TreeEmpty)
    else
      match Locate(Zipper(t, Top), v)
      case None => Err(NoSuchElement)
      case Some(z) =>
        WithoutIsCut(z);
        Ok((RemoveFound(z), z.focus.value))
  }

  lemma RepairKeepsInorder(h: Zipper, side: Side)
    requires h.path.Frame?
    ensures Inorder(Blacken(FixBlackHeight(Up(h), side))) == Inorder(Rebuild(h))
  {
    BlackenKeeps(FixBlackHeight(Up(h), side));
    assert Rebuild(Up(h)) == Rebuild(h);
  }

  /** What removeNode leaves for the repair: at the root, a red-black tree;
      below a black unlinked node, a subtree one black node short; below a
      red one, a subtree that fits its context. The root stays black. */
  predicate Repairable(rm: Removal) {
    var h := rm.hole;
    (h.path.Top? ==> Balanced(h.focus) && NoRedRed(h.focus) && !IsRed(h.focus)) &&
    (h.path.Frame? ==> RootColor(h.path) == Black) &&
    (h.path.Frame? && rm.color == Black ==> Deficit(h.focus, h.path)) &&
    (h.path.Frame? && rm.color == Red ==>
      Balanced(h.focus) && NoRedRed(h.focus) && !IsRed(h.focus) && PathBalanced(h.path, BlackHeight(h.focus)) && PathNoRedRed(h.path, false))
  }

  /** Unlinking a node with at most one child from a tree whose only possible
      defect is none leaves a repairable state. */
  lemma SpliceCorrect(zv: Zipper)
    requires zv.focus.Node? && (zv.focus.left.Leaf? || zv.focus.right.Leaf?)
    requires Balanced(Rebuild(zv)) && NoRedRed(Rebuild(zv)) && (zv.path.Frame? ==> RootColor(zv.path) == Black)
    ensures zv.focus.left.Leaf? && zv.focus.right.Leaf? ==> Repairable(RemoveChildless(zv))
    ensures zv.focus.left.Node? != zv.focus.right.Node? ==> Repairable(RemoveWithOneChild(zv))
  {
    var n := zv.focus;
    var c := if n.left.Node? then n.left else n.right;
    BalancedPlug(n, zv.path);
    NoRedRedPlug(n, zv.path);
    assert Balanced(c) && NoRedRed(c) && BlackHeight(n) == BlackHeight(c) + (if n.color == Black then 1 else 0);
    assert n.color == Red ==> !IsRed(c);
    BlackenKeeps(c);
    PathNoRedRedWeaken(zv.path, IsRed(n));
  }

  /** The tree with the found node's value replaced by `x` has the same shape. */
  lemma ReplaceValueShape(z: Zipper, x: int)
    requires z.focus.Node?
    ensures Balanced(Plug(z.focus.(value := x), z.path)) == Balanced(Rebuild(z))
    ensures NoRedRed(Plug(z.focus.(value := x), z.path)) == NoRedRed(Rebuild(z))
  {
    BalancedPlug(z.focus, z.path);
    BalancedPlug(z.focus.(value := x), z.path);
    NoRedRedPlug(z.focus, z.path);
    NoRedRedPlug(z.focus.(value := x), z.path);
  }

  /** removeNode on a red-black tree leaves a repairable state, and the side
      the run computes from the values is the side of the slot that lost a
      node. */
  lemma RemoveNodeCorrect(z: Zipper)
    requires z.focus.Node? && IsRBTree(Rebuild(z))
    ensures Repairable(RemoveNode(z))
    ensures var h := RemoveNode(z).hole;
      h.path.Frame? ==> (RemoveNode(z).value < h.path.value <==> h.path.side == Left)
  {
    var n := z.focus;
    if z.path.Frame? {
      RootColorPlug(n, z.path);
    }
    if n.left.Leaf? || n.right.Leaf? {
      SpliceCorrect(z);
      if z.path.Frame? {
        SideByOrder(z);
      }
    } else {
      var (m, lp) := Leftmost(n.right);
      var q := Frame(Right, n.color, n.value, n.left, z.path);
      var q' := Frame(Right, n.color, m.value, n.left, z.path);
      var zm := Zipper(m, Append(lp, q'));
      PlugAppend(m, lp, q');
      assert Rebuild(zm) == Plug(n.(value := m.value), z.path);
      ReplaceValueShape(z, m.value);
      RootColorAppend(lp, q');
      if z.path.Frame? {
        assert RootColor(q') == RootColor(z.path);
      }
      SpliceCorrect(zm);
      if lp.Frame? {
        PlugAppend(m, lp, q);
        SideByOrder(Zipper(m, Append(lp, q)));
      }
    }
  }

  /** The found-node part of the run keeps the red-black shape. */
  lemma RemoveFoundCorrect(z: Zipper)
    requires z.focus.Node? && IsRBTree(Rebuild(z))
    ensures Balanced(RemoveFound(z)) && NoRedRed(RemoveFound(z)) && !IsRed(RemoveFound(z))
  {
    var rm := RemoveNode(z);
    var h := rm.hole;
    RemoveNodeCorrect(z);
    if h.path.Frame? && rm.color == Black {
      var side := if rm.value < h.path.value then Left else Right;
      assert Child(Up(h).focus, side) == h.focus && ChildFrame(Up(h), side) == h.path;
      FixBlackHeightCorrect(Up(h), side);
      BlackenKeeps(FixBlackHeight(Up(h), side));
    } else if h.path.Frame? {
      BalancedPlug(h.focus, h.path);
      NoRedRedPlug(h.focus, h.path);
      RootColorPlug(h.focus, h.path);
    }
  }

  /** Removing a present value from a red-black tree gives a red-black tree
      holding exactly the other values, and returns the value. */
  lemma RemovePreservesRBTree(t: Tree, v: int)
    requires IsRBTree(t) && v in Keys(t)
    ensures Remove(t, v).Ok? && Remove(t, v).value.1 == v
    ensures IsRBTree(Remove(t, v).value.0)
    ensures Keys(Remove(t, v).value.0) == Keys(t) - {v}
    ensures Size(Remove(t, v).value.0) + 1 == Size(t)
  {
    var z := Locate(Zipper(t, Top), v).value;
    assert Rebuild(z) == t && z.focus.value == v;
    RemoveFoundCorrect(z);
    WithoutIsCut(z);
    var r := RemoveFound(z);
    assert Remove(t, v) == Ok((r, v));
    CutKeys(t, r, |LeftContext(z.path)| + |Inorder(z.focus.left)|);
  }

  /** A tree whose in-order sequence is that of a BST with one element cut
      out is a BST of the other values. */
  lemma CutKeys(t: Tree, r: Tree, i: int)
    requires IsBST(t) && 0 <= i < |Inorder(t)| && Inorder(r) == Inorder(t)[..i] + Inorder(t)[i + 1..]
    ensures IsBST(r) && Keys(r) == Keys(t) - {Inorder(t)[i]} && Size(r) + 1 == Size(t)
  {
    var S := Inorder(t);
    SortedDelete(S, i);
    forall y ensures y in Keys(r) <==> y in Keys(t) - {S[i]} {
      assert y in Keys(r) <==> y in Inorder(r);
      assert y in Keys(t) <==> y in S;
    }
    SizeIsLength(t);
    SizeIsLength(r);
  }
}

=== FILE: rb_rotate.dfy ===
/**
 * The rotation engine: leftRotate and rightRotate.
 *
 * In the original a rotation re-links three nodes (the node, its pivot
 * child and the pivot's middle subtree), repairs three parent
 * back-references and, when the node was the root, moves the tree's root
 * pointer. With an immutable tree and a zipper all of that is one rebuilt
 * subtree put back into the same context: the back-references cannot
 * disagree with the child links because there are none to keep.
 */
module Rotation {
  import opened RBTrees

  /** leftRotate on a subtree: the right child (the pivot) comes on top, the
      node becomes its left child and adopts the pivot's former left subtree.
      Colours stay with their nodes. */
  function RotateLeft(t: Tree): (r: Tree)
    requires t.Node? && t.right.Node?
    ensures Inorder(r) == Inorder(t)
    ensures Size(r) == Size(t)
    ensures r.Node? && r.left.Node? && r.right == t.right.right
    ensures r.value == t.right.value && r.color == t.right.color
    ensures r.left.value == t.value && r.left.color == t.color && r.left.left == t.left
    ensures r.left.right == t.right.left
  {
    var pivot := t.right;
    Node(pivot.color, Node(t.color, t.left, t.value, pivot.left), pivot.value, pivot.right)
  }

  /** rightRotate on a subtree: the mirror image of RotateLeft. */
  function RotateRight(t: Tree): (r: Tree)
    requires t.Node? && t.left.Node?
    ensures Inorder(r) == Inorder(t)
    ensures Size(r) == Size(t)
    ensures r.Node? && r.right.Node? && r.left == t.left.left
    ensures r.value == t.left.value && r.color == t.left.color
    ensures r.right.value == t.value && r.right.color == t.color && r.right.right == t.right
    ensures r.right.left == t.left.right
  {
    var pivot := t.left;
    Node(pivot.color, pivot.left, pivot.value, Node(t.color, pivot.right, t.value, t.right))
  }

  /** The two rotations undo each other. */
  lemma RotationsInverse(t: Tree)
    requires t.Node? && t.right.Node?
    ensures RotateRight(RotateLeft(t)) == t
  {
  }

  /** leftRotate on a node pointer: the pivot is returned and takes the
      node's slot under the original parent; when the node was the root, the
      pivot becomes the root of the tree. */
  function RotateLeftAt(z: Zipper): (r: Zipper)
    requires z.focus.Node? && z.focus.right.Node?
    ensures r.path == z.path && r.focus.Node? && r.focus.value == z.focus.right.value
    ensures Inorder(Rebuild(r)) == Inorder(Rebuild(z))
    ensures z.path.Top? ==> Rebuild(r) == r.focus
  {
    InorderReplace(z.focus, RotateLeft(z.focus), z.path);
    Zipper(RotateLeft(z.focus), z.path)
  }

  /** rightRotate on a node pointer: the mirror image of RotateLeftAt. */
  function RotateRightAt(z: Zipper): (r: Zipper)
    requires z.focus.Node? && z.focus.left.Node?
    ensures r.path == z.path && r.focus.Node? && r.focus.value == z.focus.left.value
    ensures Inorder(Rebuild(r)) == Inorder(Rebuild(z))
    ensures z.path.Top? ==> Rebuild(r) == r.focus
  {
    InorderReplace(z.focus, RotateRight(z.focus), z.path);
    Zipper(RotateRight(z.focus), z.path)
  }
}

=== FILE: rb_tree.dfy ===
/**
 * Values of the red-black tree, the zipper that stands in for the nodes'
 * parent back-references, and the invariants every public operation keeps.
 *
 * A node of the original owns its two children and keeps a weak reference
 * to its parent so that the insertion and removal fix-ups can walk upwards.
 * Here a tree is an immutable value and the walk upwards is a walk along a
 * Path: the chain of ancestors of a focused subtree, innermost first.
 */
module RBTrees {
  import opened Common

  datatype Color = Black | Red

  /** Which child slot of its parent a subtree occupies (ChildSide). */
  datatype Side = Left | Right

  datatype Tree = Leaf | Node(color: Color, left: Tree, value: int, right: Tree)

  /** The context of a hole in a tree. A Frame is the parent of the hole: its
      colour and value, its other child, and on which side the hole lies;
      `up` is the context of the parent itself. */
  datatype Path = Top | Frame(side: Side, color: Color, value: int, sibling: Tree, up: Path)

  /** A subtree together with its context: the model of a node pointer. */
  datatype Zipper = Zipper(focus: Tree, path: Path)

  /** The typed failures of the public operations, plus the internal one of
      the leaf-parent search. */
  datatype TreeError = TreeEmpty | NoSuchElement | TreeHasGivenElement | NoLeafParentElement


  // ---------------------------------------------------------------------
  // Colours
  // ---------------------------------------------------------------------

  /** An absent child counts as black. */
  predicate IsRed(t: Tree) {
    t.Node? && t.color == Red
  }

  /** Recolours the root of `t` (no effect on an absent subtree). */
  function Paint(t: Tree, c: Color): (r: Tree)
    ensures r.Node? <==> t.Node?
    ensures r.Node? ==> r.color == c && r.left == t.left && r.value == t.value && r.right == t.right
  {
    if t.Leaf? then Leaf else t.(color := c)
  }

  function Blacken(t: Tree): Tree {
    Paint(t, Black)
  }

  /** Painting the root black keeps the values and the red-black shape of the children. */
  lemma BlackenKeeps(t: Tree)
    ensures Inorder(Blacken(t)) == Inorder(t) && Size(Blacken(t)) == Size(t)
    ensures Balanced(Blacken(t)) <==> Balanced(t)
    ensures NoRedRed(t) ==> NoRedRed(Blacken(t))
    ensures !IsRed(Blacken(t))
    ensures !IsRed(t) ==> Blacken(t) == t
  {
  }

  // ---------------------------------------------------------------------
  // Contents
  // ---------------------------------------------------------------------

  function Inorder(t: Tree): seq<int> {
    match t
    case Leaf => []
    case Node(_, l, x, r) => Inorder(l) + [x] + Inorder(r)
  }

  function Size(t: Tree): nat {
    match t
    case Leaf => 0
    case Node(_, l, _, r) => Size(l) + 1 + Size(r)
  }

  function Keys(t: Tree): set<int> {
    set x | x in Inorder(t)
  }

  predicate StrictlySorted(s: seq<int>) {
    forall i, j :: 0 <= i < j < |s| ==> s[i] < s[j]
  }

  /** BST order: the in-order sequence of values is strictly increasing. */
  predicate IsBST(t: Tree) {
    StrictlySorted(Inorder(t))
  }

  // ---------------------------------------------------------------------
  // Red-black shape
  // ---------------------------------------------------------------------

  /** Number of black nodes on the leftmost path from `t` down to an absent child. */
  function BlackHeight(t: Tree): nat {
    match t
    case Leaf => 0
    case Node(c, l, _, _) => BlackHeight(l) + (if c == Black then 1 else 0)
  }

  /** Every path from a node down to an absent child meets the same number of black nodes. */
  predicate Balanced(t: Tree) {
    match t
    case Leaf => true
    case Node(_, l, _, r) => Balanced(l) && Balanced(r) && BlackHeight(l) == BlackHeight(r)
  }

  /** No red node has a red child. */
  predicate NoRedRed(t: Tree) {
    match t
    case Leaf => true
    case Node(c, l, _, r) => NoRedRed(l) && NoRedRed(r) && (c == Red ==> !IsRed(l) && !IsRed(r))
  }

  /** The four invariants that hold before and after every public operation. */
  predicate IsRBTree(t: Tree) {
    IsBST(t) && NoRedRed(t) && Balanced(t) && !IsRed(t)
  }

  // ---------------------------------------------------------------------
  // The zipper
  // ---------------------------------------------------------------------

  /** The parent node of a hole, rebuilt around the subtree `child`. */
  function Attach(side: Side, c: Color, x: int, sibling: Tree, child: Tree): Tree {
    if side == Left then Node(c, child, x, sibling) else Node(c, sibling, x, child)
  }

  /** The whole tree obtained by putting `f` into the hole of `p`. */
  function Plug(f: Tree, p: Path): Tree
    decreases p
  {
    match p
    case Top => f
    case Frame(s, c, x, sib, up) => Plug(Attach(s, c, x, sib, f), up)
  }

  function Rebuild(z: Zipper): Tree {
    Plug(z.focus, z.path)
  }

  /** Moves the focus to the parent. */
  function Up(z: Zipper): Zipper
    requires z.path.Frame?
  {
    var p := z.path;
    Zipper(Attach(p.side, p.color, p.value, p.sibling, z.focus), p.up)
  }

  /** Moves the focus to a child of the focused node. */
  function Down(z: Zipper, side: Side): Zipper
    requires z.focus.Node?
  {
    var n := z.focus;
    if side == Left then Zipper(n.left, Frame(Left, n.color, n.value, n.right, z.path))
    else Zipper(n.right, Frame(Right, n.color, n.value, n.left, z.path))
  }

  function Depth(p: Path): nat {
    match p
    case Top => 0
    case Frame(_, _, _, _, up) => 1 + Depth(up)
  }

  /** Number of nodes of the context (the tree minus the hole). */
  function PathSize(p: Path): nat {
    match p
    case Top => 0
    case Frame(_, _, _, sib, up) => 1 + Size(sib) + PathSize(up)
  }

  /** The context `p` with `q` above its topmost frame. */
  function Append(p: Path, q: Path): Path {
    match p
    case Top => q
    case Frame(s, c, x, sib, up) => Frame(s, c, x, sib, Append(up, q))
  }

  /** Colour of the root frame of a non-empty context. */
  function RootColor(p: Path): Color
    requires p.Frame?
  {
    if p.up.Top? then p.color else RootColor(p.up)
  }

  /** Values of the context that come before the hole in order. */
  function LeftContext(p: Path): seq<int> {
    match p
    case Top => []
    case Frame(s, _, x, sib, up) =>
      if s == Left then LeftContext(up) else LeftContext(up) + Inorder(sib) + [x]
  }

  /** Values of the context that come after the hole in order. */
  function RightContext(p: Path): seq<int> {
    match p
    case Top => []
    case Frame(s, _, x, sib, up) =>
      if s == Left then [x] + Inorder(sib) + RightContext(up) else RightContext(up)
  }

  /** The context is balanced around a hole of black height `h`. */
  predicate PathBalanced(p: Path, h: nat) {
    match p
    case Top => true
    case Frame(_, c, _, sib, up) =>
      Balanced(sib) && BlackHeight(sib) == h && PathBalanced(up, h + (if c == Black then 1 else 0))
  }

  /** The context has no red-red edge around a hole whose root is red iff `childRed`. */
  predicate PathNoRedRed(p: Path, childRed: bool) {
    match p
    case Top => true
    case Frame(_, c, _, sib, up) =>
      NoRedRed(sib) && (c == Red ==> !childRed && !IsRed(sib)) && PathNoRedRed(up, c == Red)
  }

  // ---------------------------------------------------------------------
  // Lemmas about the zipper
  // ---------------------------------------------------------------------

  lemma {:induction false} InorderPlug(f: Tree, p: Path)
    ensures Inorder(Plug(f, p)) == LeftContext(p) + Inorder(f) + RightContext(p)
    decreases p
  {
    match p
    case Top =>
    case Frame(s, c, x, sib, up) =>
      InorderPlug(Attach(s, c, x, sib, f), up);
  }

  /** Replacing the focus by a subtree with the same in-order sequence keeps
      the in-order sequence of the whole tree. */
  lemma InorderReplace(f: Tree, g: Tree, p: Path)
    requires Inorder(f) == Inorder(g)
    ensures Inorder(Plug(f, p)) == Inorder(Plug(g, p))
  {
    InorderPlug(f, p);
    InorderPlug(g, p);
  }

  lemma {:induction false} BalancedPlug(f: Tree, p: Path)
    ensures Balanced(Plug(f, p)) <==> Balanced(f) && PathBalanced(p, BlackHeight(f))
    decreases p
  {
    match p
    case Top =>
    case Frame(s, c, x, sib, up) =>
      BalancedPlug(Attach(s, c, x, sib, f), up);
  }

  lemma {:induction false} NoRedRedPlug(f: Tree, p: Path)
    ensures NoRedRed(Plug(f, p)) <==> NoRedRed(f) && PathNoRedRed(p, IsRed(f))
    decreases p
  {
    match p
    case Top =>
    case Frame(s, c, x, sib, up) =>
      NoRedRedPlug(Attach(s, c, x, sib, f), up);
  }

  /** A black hole puts fewer demands on its context than a red one. */
  lemma PathNoRedRedWeaken(p: Path, childRed: bool)
    requires PathNoRedRed(p, childRed)
    ensures PathNoRedRed(p, false)
  {
  }

  lemma {:induction false} PlugAppend(f: Tree, p: Path, q: Path)
    ensures Plug(f, Append(p, q)) == Plug(Plug(f, p), q)
    decreases p
  {
    match p
    case Top =>
    case Frame(s, c, x, sib, up) =>
      PlugAppend(Attach(s, c, x, sib, f), up, q);
  }

  /** The colour of the root of a tree rebuilt from a non-empty context is fixed by the context. */
  lemma {:induction false} RootColorPlug(f: Tree, p: Path)
    requires p.Frame?
    ensures Plug(f, p).Node? && Plug(f, p).color == RootColor(p)
    decreases p
  {
    if p.up.Frame? {
      RootColorPlug(Attach(p.side, p.color, p.value, p.sibling, f), p.up);
    }
  }

  lemma {:induction false} RootColorAppend(p: Path, q: Path)
    requires q.Frame?
    ensures Append(p, q).Frame? && RootColor(Append(p, q)) == RootColor(q)
    decreases p
  {
    match p
    case Top =>
    case Frame(_, _, _, _, up) =>
      RootColorAppend(up, q);
  }

  lemma {:induction false} SizeIsLength(t: Tree)
    ensures |Inorder(t)| == Size(t)
    decreases t
  {
    match t
    case Leaf =>
    case Node(_, l, _, r) =>
      SizeIsLength(l);
      SizeIsLength(r);
  }

  // ---------------------------------------------------------------------
  // Sorted sequences and BST order
  // ---------------------------------------------------------------------

  lemma SortedSplit(a: seq<int>, x: int, b: seq<int>)
    ensures StrictlySorted(a + [x] + b) <==>
      StrictlySorted(a) && StrictlySorted(b) &&
      (forall y :: y in a ==> y < x) && (forall y :: y in b ==> x < y)
  {
    var s := a + [x] + b;
    if StrictlySorted(s) {
      forall i, j | 0 <= i < j < |a| ensures a[i] < a[j] {
        assert s[i] == a[i] && s[j] == a[j];
      }
      forall i, j | 0 <= i < j < |b| ensures b[i] < b[j] {
        assert s[|a| + 1 + i] == b[i] && s[|a| + 1 + j] == b[j];
      }
      forall y | y in a ensures y < x {
        var i :| 0 <= i < |a| && a[i] == y;
        assert s[i] == y && s[|a|] == x;
      }
      forall y | y in b ensures x < y {
        var i :| 0 <= i < |b| && b[i] == y;
        assert s[|a| + 1 + i] == y && s[|a|] == x;
      }
    }
    if StrictlySorted(a) && StrictlySorted(b) &&
       (forall y :: y in a ==> y < x) && (forall y :: y in b ==> x < y) {
      forall i, j | 0 <= i < j < |s| ensures s[i] < s[j] {
        if j < |a| {
          assert s[i] == a[i] && s[j] == a[j];
        } else if j == |a| {
          assert s[i] == a[i] && a[i] in a;
        } else if i < |a| {
          assert s[i] == a[i] && a[i] in a && s[j] == b[j - |a| - 1] && b[j - |a| - 1] in b;
        } else if i == |a| {
          assert s[j] == b[j - |a| - 1] && b[j - |a| - 1] in b;
        } else {
          assert s[i] == b[i - |a| - 1] && s[j] == b[j - |a| - 1];
        }
      }
    }
  }

  /** BST order of a node in the usual recursive form. */
  lemma BSTNode(c: Color, l: Tree, x: int, r: Tree)
    ensures IsBST(Node(c, l, x, r)) <==>
      IsBST(l) && IsBST(r) && (forall y :: y in Keys(l) ==> y < x) && (forall y :: y in Keys(r) ==> x < y)
  {
    assert Inorder(Node(c, l, x, r)) == Inorder(l) + [x] + Inorder(r);
    SortedSplit(Inorder(l), x, Inorder(r));
    assert forall y :: y in Keys(l) <==> y in Inorder(l);
    assert forall y :: y in Keys(r) <==> y in Inorder(r);
  }

  lemma KeysNode(c: Color, l: Tree, x: int, r: Tree)
    ensures Keys(Node(c, l, x, r)) == Keys(l) + {x} + Keys(r)
  {
  }

  lemma SortedMiddle(a: seq<int>, b: seq<int>, c: seq<int>)
    requires StrictlySorted(a + b + c)
    ensures StrictlySorted(b)
  {
    var s := a + b + c;
    forall i, j | 0 <= i < j < |b| ensures b[i] < b[j] {
      assert s[|a| + i] == b[i] && s[|a| + j] == b[j];
    }
  }

  /** Cutting one element out of a strictly increasing sequence keeps it
      strictly increasing and removes exactly that value. */
  lemma SortedDelete(s: seq<int>, i: int)
    requires StrictlySorted(s) && 0 <= i < |s|
    ensures StrictlySorted(s[..i] + s[i + 1..])
    ensures forall y :: y in s[..i] + s[i + 1..] <==> y in s && y != s[i]
  {
    var d := s[..i] + s[i + 1..];
    assert forall k :: 0 <= k < |d| ==> d[k] == (if k < i then s[k] else s[k + 1]);
    forall y ensures y in d <==> y in s && y != s[i] {
      if y in d {
        var k :| 0 <= k < |d| && d[k] == y;
        if k < i { assert s[k] < s[i]; } else { assert s[i] < s[k + 1]; }
      }
      if y in s && y != s[i] {
        var j :| 0 <= j < |s| && s[j] == y;
        if j < i { assert d[j] == y; } else { assert j > i && d[j - 1] == y; }
      }
    }
  }

  /** A tree rebuilt from a zipper is a BST only if the focus is. */
  lemma BSTFocus(z: Zipper)
    requires IsBST(Rebuild(z))
    ensures IsBST(z.focus)
  {
    InorderPlug(z.focus, z.path);
    SortedMiddle(LeftContext(z.path), Inorder(z.focus), RightContext(z.path));
  }

  /** In a BST the side of a child is decided by comparing its value with its parent's. */
  lemma SideByOrder(z: Zipper)
    requires IsBST(Rebuild(z)) && z.focus.Node? && z.path.Frame?
    ensures z.path.side == Left <==> z.focus.value < z.path.value
  {
    var p := z.path;
    var f := z.focus;
    var n := Attach(p.side, p.color, p.value, p.sibling, f);
    assert Rebuild(Up(z)) == Rebuild(z);
    BSTFocus(Up(z));
    assert Inorder(f) == Inorder(f.left) + [f.value] + Inorder(f.right);
    assert f.value in Inorder(f);
    if p.side == Left {
      SortedSplit(Inorder(f), p.value, Inorder(p.sibling));
    } else {
      SortedSplit(Inorder(p.sibling), p.value, Inorder(f));
    }
  }

  /** Every value of the focus is a value of the whole tree. */
  lemma FocusKeys(z: Zipper)
    ensures Keys(z.focus) <= Keys(Rebuild(z))
  {
    InorderPlug(z.focus, z.path);
  }
}

=== FILE: var_record.dfy ===
/**
 * The `var` record of the sorting program: a 16-bit id and a value string,
 * its comparisons, its text form "id<TAB>value", and the reader that pads
 * each value line to exactly 64 characters.
 */
module Vars {
  import opened Common
  import opened Decimal

  /** STRING_SIZE: the width every value line is padded to. */
  const STRING_SIZE: nat := 64

  const ID_LIMIT: nat := 0x1_0000

  /** id_t, a uint16_t. */
  type Id = x: nat | x < ID_LIMIT

  datatype Var = Var(id: Id, val: string)

  /** var::operator!=: the ids or the values differ. */
  predicate NotEqual(a: Var, b: Var) {
    a.id != b.id || a.val != b.val
  }

  /** var::operator==, written as the negation of operator!=. */
  predicate Equal(a: Var, b: Var) {
    !NotEqual(a, b)
  }

  /** operator<: the ids alone decide. */
  predicate Less(a: Var, b: Var) {
    a.id < b.id
  }

  /** operator<=: less, or equal in both fields. */
  predicate LessEq(a: Var, b: Var) {
    Less(a, b) || Equal(a, b)
  }

  /** Equality of records is equality of both fields, and != is its negation. */
  lemma EqualIsIdentity(a: Var, b: Var)
    ensures Equal(a, b) <==> a == b
    ensures NotEqual(a, b) <==> a != b
  {
  }

  /** <= orders records by id and, within one id, only relates a record to
      itself: two records with one id and different values are incomparable. */
  lemma LessEqOnSameId(a: Var, b: Var)
    requires a.id == b.id && a.val != b.val
    ensures !Less(a, b) && !Less(b, a) && !LessEq(a, b) && !LessEq(b, a)
  {
  }

  lemma LessEqMeaning(a: Var, b: Var)
    ensures LessEq(a, b) <==> a.id < b.id || a == b
    ensures LessEq(a, b) ==> a.id <= b.id
  {
  }

  /** var::toString: the id in decimal, a tab, the value. */
  function ToString(v: Var): string {
    NatToString(v.id) + "\t" + v.val
  }

  datatype ReadError =
    | NoId             // no digits where the id is due
    | IdOutOfRange     // digits that do not fit in a uint16_t
    | NoSeparator      // the input ended before the separator character
    | NoLine           // the input ended before the value line
    | LineTooLong      // readStringStringSize's invalid_argument

  /** Position of the first '\n' in `s`, or |s| when there is none. */
  function LineEnd(s: string): (k: nat)
    ensures k <= |s| && (k == |s| || s[k] == '\n')
    ensures forall j :: 0 <= j < k ==> s[j] != '\n'
  {
    if |s| == 0 || s[0] == '\n' then 0 else 1 + LineEnd(s[1..])
  }

  /** std::getline: the characters up to the first newline, which is
      consumed; at the end of the input without a newline the rest is the
      line. Nothing at all left is a failed read. */
  function GetLine(s: string): (r: Option<(string, string)>)
    ensures r.None? <==> |s| == 0
    ensures r.Some? ==> '\n' !in r.value.0
  {
    if |s| == 0 then None
    else
      var k := LineEnd(s);
      Some((s[..k], if k < |s| then s[k + 1..] else []))
  }

  /** The padding readStringStringSize appends: `n` NUL characters. */
  function Nuls(n: nat): (r: string)
    ensures |r| == n && forall j :: 0 <= j < n ==> r[j] == '\0'
  {
    if n == 0 then [] else Nuls(n - 1) + ['\0']
  }

  /** readStringStringSize after getline: a line longer than 64 characters
      is refused, a shorter one padded with NULs to exactly 64. */
  function PadLine(line: string): (r: Result<string, ReadError>)
    ensures r.Err? <==> |line| > STRING_SIZE
    ensures r.Err? ==> r.error == LineTooLong
    ensures r.Ok? ==> |r.value| == STRING_SIZE && r.value[..|line|] == line
    ensures r.Ok? ==> forall j :: |line| <= j < STRING_SIZE ==> r.value[j] == '\0'
  {
    if |line| > STRING_SIZE then Err(LineTooLong)
    else Ok(line + Nuls(STRING_SIZE - |line|))
  }

  /** A line of exactly 64 characters is taken as it is. */
  lemma PadFullLine(line: string)
    requires |line| == STRING_SIZE
    ensures PadLine(line) == Ok(line)
  {
    assert line + Nuls(0) == line;
  }

  /** Padding is idempotent: a padded line pads to itself. */
  lemma PadIdempotent(line: string)
    requires |line| <= STRING_SIZE
    ensures PadLine(PadLine(line).value) == PadLine(line)
  {
    PadFullLine(PadLine(line).value);
  }

  /** The unsigned 16-bit value of a signed magnitude that fits: a
      negative value wraps round 2^16. */
  function Wrap(v: int): (r: Id)
    requires -(ID_LIMIT as int) < v < ID_LIMIT
  {
    if v < 0 then ID_LIMIT + v else v
  }

  /** The wrapped value is the value modulo 2^16, and wrapping undoes the
      two's-complement reading of a 16-bit value. */
  lemma WrapIsModulo(v: int)
    requires -(ID_LIMIT as int) < v < ID_LIMIT
    ensures Wrap(v) == v % ID_LIMIT
    ensures 0 <= v ==> Wrap(v) == v
    ensures v < 0 ==> Wrap(v) + (-v) == ID_LIMIT
  {
    if v < 0 {
      assert v == -1 * ID_LIMIT + (ID_LIMIT + v);
    }
  }

  /** The id at the start of a record line, read as `is >> uint16_t` does:
      white space, an optional sign, then decimal digits whose magnitude
      fits in 16 bits; a minus sign negates modulo 2^16. */
  function ReadId(s: string): (r: Result<(Id, string), ReadError>)
    ensures r.Ok? ==> |r.value.1| < |s|
    ensures r.Err? && r.error == NoId <==> ParseInt(s).None?
    ensures r.Ok? <==> ParseInt(s).Some? && -(ID_LIMIT as int) < ParseInt(s).value.0 < ID_LIMIT
    ensures r.Ok? ==> r.value.0 == Wrap(ParseInt(s).value.0) && r.value.1 == ParseInt(s).value.1
  {
    var n := ParseInt(s);
    if n.None? then Err(NoId)
    else if n.value.0 <= -(ID_LIMIT as int) || n.value.0 >= ID_LIMIT then Err(IdOutOfRange)
    else Ok((Wrap(n.value.0), n.value.1))
  }

  /** Whatever text the signed reader takes a fitting value from, the id
      reader takes the wrapped value from and leaves the same rest. */
  lemma ReadIdFromParse(s: string, v: int, rest: string)
    requires ParseInt(s) == Some((v, rest)) && -(ID_LIMIT as int) < v < ID_LIMIT
    ensures ReadId(s) == Ok((Wrap(v), rest))
  {
  }

  /** A leading '+' is accepted and changes nothing. */
  lemma ReadIdPlus(id: Id, rest: string)
    requires rest == [] || !IsDigit(rest[0])
    ensures ReadId("+" + NatToString(id) + rest) == Ok((id, rest))
  {
    ParseIntPositive(id, rest);
    ReadIdFromParse("+" + NatToString(id) + rest, id as int, rest);
    assert Wrap(id as int) == id;
  }

  /** A leading '-' wraps the magnitude round 2^16, as the unsigned
      extraction does: "-1" reads as 65535. */
  lemma ReadIdMinus(n: nat, rest: string)
    requires 0 < n < ID_LIMIT
    requires rest == [] || !IsDigit(rest[0])
    ensures ReadId("-" + NatToString(n) + rest) == Ok((ID_LIMIT - n, rest))
  {
    var t := "-" + NatToString(n) + rest;
    var v := -(n as int);
    assert ParseInt(t) == Some((v, rest)) by {
      ParseIntNegative(n, rest);
    }
    assert Wrap(v) == ID_LIMIT - n;
    ReadIdFromParse(t, v, rest);
  }

  /** A magnitude of 2^16 or more is refused whatever its sign. */
  lemma ReadIdTooLarge(n: nat, rest: string)
    requires n >= ID_LIMIT
    requires rest == [] || !IsDigit(rest[0])
    ensures ReadId(NatToString(n) + rest) == Err(IdOutOfRange)
    ensures ReadId("-" + NatToString(n) + rest) == Err(IdOutOfRange)
  {
    ParseIntUnsigned(n, rest);
    ParseIntNegative(n, rest);
  }

  /** operator>>(stream, var): the id, one separator character taken
      unread, then the value line through readStringStringSize. Returns
      the record and the text after its line. */
  function ReadVar(s: string): (r: Result<(Var, string), ReadError>)
    ensures r.Ok? ==> |r.value.0.val| == STRING_SIZE && |r.value.1| < |s|
  {
    var id := ReadId(s);
    if id.Err? then Err(id.error)
    else if |id.value.1| == 0 then Err(NoSeparator)
    else
      var line := GetLine(id.value.1[1..]);
      if line.None? then Err(NoLine)
      else
        var val := PadLine(line.value.0);
        if val.Err? then Err(val.error)
        else Ok((Var(id.value.0, val.value), line.value.1))
  }

  lemma LineEndOf(line: string, rest: string)
    requires '\n' !in line
    ensures LineEnd(line + (['\n'] + rest)) == |line|
    decreases |line|
  {
    if |line| > 0 {
      assert (line + (['\n'] + rest))[1..] == line[1..] + (['\n'] + rest);
      LineEndOf(line[1..], rest);
    }
  }

  lemma GetLineOf(line: string, rest: string)
    requires '\n' !in line
    ensures GetLine(line + (['\n'] + rest)) == Some((line, rest))
  {
    LineEndOf(line, rest);
    var s := line + (['\n'] + rest);
    assert s[..|line|] == line && s[|line| + 1..] == rest;
  }

  lemma ReadIdOf(id: Id, rest: string)
    requires rest == [] || !IsDigit(rest[0])
    ensures ReadId(NatToString(id) + rest) == Ok((id, rest))
  {
    ParseIntUnsigned(id, rest);
    ReadIdFromParse(NatToString(id) + rest, id as int, rest);
    assert Wrap(id as int) == id;
  }

  lemma ReadVarParts(s: string, id: Id, tail: string, line: string, rest: string)
    requires ReadId(s) == Ok((id, tail)) && |tail| > 0
    requires GetLine(tail[1..]) == Some((line, rest)) && |line| <= STRING_SIZE
    ensures ReadVar(s) == Ok((Var(id, PadLine(line).value), rest))
  {
  }

  /** Reading back a written record gives the record with its value padded
      to 64 characters, and leaves the following text untouched. */
  lemma ReadWritten(v: Var, rest: string)
    requires |v.val| <= STRING_SIZE && '\n' !in v.val
    ensures ReadVar(ToString(v) + "\n" + rest) == Ok((Var(v.id, PadLine(v.val).value), rest))
  {
    var line := v.val + (['\n'] + rest);
    var tail := ['\t'] + line;
    assert ToString(v) + "\n" + rest == NatToString(v.id) + tail;
    ReadIdOf(v.id, tail);
    assert tail[1..] == line;
    GetLineOf(v.val, rest);
    ReadVarParts(NatToString(v.id) + tail, v.id, tail, v.val, rest);
  }

  /** For a value of exactly 64 characters, reading after writing is the identity. */
  lemma ReadWrittenFull(v: Var, rest: string)
    requires |v.val| == STRING_SIZE && '\n' !in v.val
    ensures ReadVar(ToString(v) + "\n" + rest) == Ok((v, rest))
  {
    ReadWritten(v, rest);
    PadFullLine(v.val);
  }
}
